=== FILE: README.md ===
# PredictCast v2 — a verified model of its core rules

PredictCast is a Next.js/Prisma prediction-market app for Farcaster. Users open
binary markets ("will X happen?" with two options and an expiry date). They stake
on one option, follow a leaderboard, and share markets as Farcaster frames with a
generated preview image. This project models the rules of that app in Dafny and
proves properties about them:

- **Market catalogue and creation** (`Markets`, `Store`). This covers:
  - the status filter (active, resolved or expired);
  - the vote split and the pagination numbers of `GET /api/markets`;
  - the request checks of `POST /api/markets`;
  - the slug derived from the question, and the loop that probes `slug-1`, `slug-2`, … until it finds a free one.
- **Prediction intake** (`Predictions`, `Store`). This is the guard chain of
  `POST /api/predictions`, the insert keyed by (market, user), and the per-user
  statistics upsert. It also covers the newest-first, paginated `GET /api/predictions`.
- **Maintenance jobs** (`Cron`, `Ranking`, `Store`):
  - the expiry sweep that cancels overdue markets;
  - the leaderboard job, which sorts the statistics rows with a stable two-key order and writes ranks 1..n;
  - the cleanup that deletes markets resolved before a cutoff.
- **Leaderboard read** (`Stats`): the period filter, ordering, limit and
  `index + 1` ranks of `GET /api/stats`, and the overall counters.
- **Frame HTML** (`Frames`): the meta tags that `generateFrameHtml` emits.
- **Query parameters** (`Text`): JavaScript's `parseInt` and the handlers'
  `parseInt(x || fallback)` reading of `page`, `limit` and the vote counts.
- **Display helpers** (`Display`, `Pages`):
  - the time left before expiry and the vote percentages of the share image;
  - the status labels, rank icons, win-rate colours, name fallbacks, "time ago" buckets and activity labels of the markets, leaderboard and social pages.

The database is the class `Store.Db`. It has one sequence per table (markets,
predictions, statistics rows) and the next market id. Its invariant `Valid()` says:

- ids are unique and below the next id;
- slugs are unique;
- `resolvedAt` and `outcome` are set together;
- there is at most one prediction per (market, user);
- each statistics row's `totalPredictions` and `totalWagered` equal the count and sum of that user's predictions.

The POST handlers and the jobs are methods of `Db`. Each keeps `Valid()` and
states its whole new state. The GET handlers change nothing, so they are
functions over the tables. Times are integer milliseconds. The clock is a parameter
`now`, and so are the cutoffs the jobs compute from it. Where the source reads
the clock more than once, each reading is a parameter of its own. The ranking
job reads it once per round, which becomes `clock(i)`. The markets page reads it
once for the status and once for the time left. The "default user"
that the handlers look up (the first user row) is an `Option<UserId>`
parameter. A text query parameter or body field that JavaScript treats as
falsy (missing or empty) is `None`. The numeric query parameters (`page`,
`limit` and the share image's vote counts) are kept as their text, `None`
when missing or empty. `Text.QueryInt` reads them as the source does,
`parseInt(x || fallback)`, and `Text.ParseInt` follows JavaScript's
`parseInt`: leading white space, a sign, `0x` for hexadecimal, the longest
run of digits, and NaN (`None`) when there is no digit. A handler's answer is
`Response<T> = Success(status, body) | Failure(status, error)`, with the
error strings of the source.

The store appends every new market and prediction. The listings answer
"order by `createdAt` descending, skip, take" with the window
`NewestFirstPage` over the reversed table. That window is sorted by
`createdAt` only while both tables are in creation order. The store keeps
that order, `Db.InOrder()`, only when the clock never goes back: no stored
row was created after the `now` of a creation (`Db.NotBefore(now)`).
`Store.ListingsNewestFirst` proves both listings newest first from
`InOrder()`. The sort of the leaderboard job is stable, like JavaScript's
`Array.prototype.sort`. It is specified by a functional insertion sort, `Sort`, and
implemented in place on an array by `SortStats`. `Math.round(a / t * 100)` is
the exact half-up integer `(200a + t) / (2t)`. `Math.floor` of a quotient with a
positive divisor is Dafny's Euclidean `/`.

## Model

| member | source | states |
|---|---|---|
| Domain.OrElse | src/app/api/og/route.ts:11-13 | `x \|\| fallback` on an optional string: the value when present and non-empty, the fallback otherwise |
| Text.NatToString | src/app/api/og/route.ts:237-239 | decimal rendering of a count, as template strings print it: non-empty, digits only, one digit exactly below 10 |
| Text.DigitsValueOfNatToString | src/app/leaderboard/page.tsx:59 | reading the rendered digits back gives the number (round trip) |
| Text.NatToStringInjective | src/app/api/markets/route.ts:120 | distinct numbers render differently |
| Text.IntToString | src/app/leaderboard/page.tsx:59 | rendering of any integer: the natural rendering, or '-' followed by it for a negative one |
| Text.DropSpaces | src/app/api/markets/route.ts:8 | the text after its leading white space: no longer, and starting with no white space |
| Text.DigitOf | src/app/api/markets/route.ts:8 | the value of a digit character, below 10 exactly for a decimal digit and then equal to its decimal value |
| Text.LeadingDigits | src/app/api/markets/route.ts:8 | the longest prefix of digits of the radix: a prefix, all digits of the radix, followed by a non-digit or the end |
| Text.ParseIntPrefix | src/app/api/markets/route.ts:8 | `parseInt` reads the leading decimal digits at their value and ignores what follows |
| Text.ParseIntMinus | src/app/api/markets/route.ts:8 | a minus sign before the digits negates the reading |
| Text.ParseIntOfIntToString | src/app/api/markets/route.ts:8-9 | `parseInt` reads back the rendering of any integer (round trip with `Text.IntToString`) |
| Text.ParseIntHex | src/app/api/markets/route.ts:8 | after `0x` or `0X` the hexadecimal digits are read, up to the first non-hexadecimal character |
| Text.ParseIntNaN | src/app/api/markets/route.ts:8 | text without a digit, and the empty text, read as NaN |
| Text.ParseIntSkipsSpaces | src/app/api/markets/route.ts:8 | leading white space does not change the reading |
| Text.QueryInt | src/app/api/markets/route.ts:8-9 | `parseInt(x \|\| fallback)`: the reading of a non-empty parameter, the reading of the fallback otherwise |
| Text.QueryDigits | src/app/api/markets/route.ts:8-9 | a parameter of decimal digits reads as their value, whatever the fallback |
| Text.QueryDefaults | src/app/api/markets/route.ts:8-9 | a missing or empty parameter reads as 1, 10 or 0 with the fallbacks "1", "10" and "0" |
| Markets.ParseStatus | src/app/api/markets/route.ts:10-24 | "active", "resolved" and "expired" each select their own filter, and only those strings do; anything else selects no filter |
| Markets.StatusClassesPartition | src/app/api/markets/route.ts:16-24 | every market is in exactly one of the classes active, resolved and expired |
| Markets.OtherStatusSelectsAll | src/app/api/markets/route.ts:14-24 | a missing or unknown status selects every market |
| Markets.FilterMarkets | src/app/api/markets/route.ts:26-28 | a market is listed exactly when it is stored and its class matches the filter |
| Markets.SplitVotes | src/app/api/markets/route.ts:53-66 | the A and B counts are the `CountChoice` counts of OPTION_A and OPTION_B, and the total is their sum |
| Markets.CountChoice | src/app/api/markets/route.ts:55-56 | the number of predictions with a given choice is at most the number of predictions |
| Markets.CountChoiceIsSize | src/app/api/markets/route.ts:55-56 | `filter(p => p.choice === c).length`: the count is the number of positions holding choice c |
| Markets.VoteTotalBound | src/app/api/markets/route.ts:53-66 | A votes + B votes + MULTIPLE_CHOICE predictions = all predictions, so the total never exceeds them |
| Markets.PredictionsOf | src/app/api/markets/route.ts:31-36 | a prediction is included exactly when it is stored and belongs to the market |
| Markets.PageCount | src/app/api/markets/route.ts:75 | `Math.ceil(total / limit)`: the least page count whose pages hold the total |
| Markets.SkipIsOffset | src/app/api/markets/route.ts:12 | the rows skipped before page p are (p - 1) · limit |
| Markets.Window | src/app/api/markets/route.ts:46-47 | skip then take: at most `take` items, exactly the ones at offset `skip` onwards, as many as remain |
| Markets.Reverse | src/app/api/markets/route.ts:43-45 | creation order turned into newest-first order, position by position |
| Markets.NewestFirstPage | src/app/api/markets/route.ts:43-47 | a page of the newest-first listing: its length, and that item i is the (skip + i)-th newest |
| Markets.ListMarkets | src/app/api/markets/route.ts:8-77 | the GET response: at most `limit` markets; each stored, matching the filter and carrying its own vote split; item i is the i-th item of the newest-first page; the pagination reports page, limit, the matching count and the ceiling of the page count |
| Markets.FilterMarketsChronological | src/app/api/markets/route.ts:26-28 | filtering keeps creation-time order |
| Markets.NewestFirstDescending | src/app/api/markets/route.ts:43-47 | for any creation-time key, every newest-first page of a history in ascending key order is ordered by that key descending; used for markets and for predictions |
| Markets.Paging | src/app/api/markets/route.ts:8-11 | the page and limit are defined exactly when both parameters read as numbers of at least 1, and are then those readings |
| Markets.ListMarketsQuery | src/app/api/markets/route.ts:8-77 | the GET response from the query text: the listing for the page and limit read from it, and none exactly when they are not both readings of at least 1 |
| Markets.ListMarketsDefaults | src/app/api/markets/route.ts:8-9 | without `page` and `limit` the listing is page 1 of 10 |
| Markets.ListMarketsFirstPage | src/app/api/markets/route.ts:8-9 | without `page`, a decimal `limit` of at least 1 gives page 1 of that many |
| Markets.MarketsPageQuery | src/app/markets/page.tsx:39 | the markets page's `?status=..&limit=20` is page 1 of 20 |
| Markets.ListMarketsNewestFirst | src/app/api/markets/route.ts:43-47 | on a table in creation order, the listing's markets are ordered by `createdAt` descending |
| Markets.ToLower | src/app/api/markets/route.ts:111 | an upper-case ASCII letter becomes its lower-case letter; every other character is kept |
| Markets.Lowercase | src/app/api/markets/route.ts:111 | `toLowerCase`: same length, each A–Z mapped to a–z and every other character kept |
| Markets.StripDisallowed | src/app/api/markets/route.ts:112 | after `replace(/[^a-z0-9\s-]/g, '')` only `[a-z0-9\s-]` characters remain |
| Markets.StripOne | src/app/api/markets/route.ts:112 | a disallowed character is deleted and an allowed one is kept; with `StripAppend` this fixes the result for every input |
| Markets.StripAppend | src/app/api/markets/route.ts:112 | the strip works character by character: it distributes over concatenation |
| Markets.StripAllKept | src/app/api/markets/route.ts:112 | a string of kept characters is left as it is |
| Markets.Truncate | src/app/api/markets/route.ts:114 | `substring(0, n)`: a prefix of at most n characters, the whole string when it is short enough |
| Markets.BaseSlug | src/app/api/markets/route.ts:110-114 | lowercase, strip, hyphenate, cut: the base slug has at most 50 characters |
| Markets.BaseSlugIsSlug | src/app/api/markets/route.ts:110-114 | the base slug has only `[a-z0-9-]` characters and at most 50 of them |
| Markets.Hyphenate | src/app/api/markets/route.ts:113 | replacing whitespace runs by one hyphen never makes the text longer |
| Markets.HyphenateNoSpace | src/app/api/markets/route.ts:113 | no whitespace is left after the replacement |
| Markets.HyphenateRun | src/app/api/markets/route.ts:113 | a whitespace run becomes exactly one hyphen |
| Markets.HyphenateAppend | src/app/api/markets/route.ts:113 | `replace(/\s+/g, '-')` works run by run: it distributes over a concatenation whose seam is not inside a whitespace run |
| Markets.HyphenateRunBetween | src/app/api/markets/route.ts:113 | words separated by any whitespace run are joined by a single hyphen |
| Markets.HyphenateSlug | src/app/api/markets/route.ts:113 | a string that is already a slug is left unchanged |
| Markets.BaseSlugIdempotent | src/app/api/markets/route.ts:110-114 | deriving a slug from a slug gives the same slug |
| Markets.HyphensKept | src/app/api/markets/route.ts:112-113 | existing hyphens are kept next to the ones replacing spaces: "a - b" becomes "a---b" |
| Markets.SlugKeepsHyphens | src/app/api/markets/route.ts:110-114 | the whole derivation turns "a - b" into "a---b" when it fits in 50 characters |
| Markets.MissingFields | src/app/api/markets/route.ts:93-98 | the first 400 condition: a falsy question, option A or option B, or no expiry (a predicate, no contract of its own) |
| Markets.Candidate | src/app/api/markets/route.ts:120 | a probe is the base, a hyphen, and the decimal counter; the suffix is always appended to the base, never chained |
| Markets.CandidateInjective | src/app/api/markets/route.ts:120 | different counters give different probes |
| Markets.CandidateProbedBelow | src/app/api/markets/route.ts:118-121 | a probe counts as "seen before round n" exactly when its counter is below n |
| Markets.UniqueSlug | src/app/api/markets/route.ts:117-122 | the loop ends with a slug not in use: the base when it is free, otherwise `base-k` for the smallest k >= 1 whose probe is free |
| Predictions.MissingPredictionFields | src/app/api/predictions/route.ts:11-16 | the first 400 condition: no market id, a falsy choice, or a missing or zero amount (a predicate, no contract of its own) |
| Predictions.ParseChoice | src/app/api/predictions/route.ts:18-23 | only "OPTION_A" and "OPTION_B" are accepted; MULTIPLE_CHOICE never is |
| Predictions.FindMarket | src/app/api/predictions/route.ts:33-35 | the lookup finds a stored market with that id, and finds none exactly when no stored market has it |
| Predictions.Intake | src/app/api/predictions/route.ts:11-96 | each guard in the handler's order, given that the earlier guards pass, gives its own answer: missing field 400 "Missing required fields", other choice 400 "Invalid choice", amount <= 0 400 "Amount must be positive", unknown market 404 "Market not found", expired 400 "Market has expired", resolved 400 "Market has been resolved", no user 400 "No users found. Please seed the database first.", existing pair 400 "User already has a prediction for this market"; when all pass, a 201 with the request's market, choice and amount, the default user and the clock |
| Predictions.IntakeAccepted | src/app/api/predictions/route.ts:11-82 | a request is accepted exactly when all fields are present, the choice is A or B, the amount is positive, the market exists and is active, a user exists, and that user has no prediction on that market |
| Predictions.MultipleChoiceRejected | src/app/api/predictions/route.ts:18-23 | MULTIPLE_CHOICE is always rejected, with "Invalid choice" once the other fields are present |
| Predictions.ZeroAmountIsMissing | src/app/api/predictions/route.ts:11-16 | amount 0 is falsy, so it is reported as a missing field |
| Predictions.ExpiredMarketRejected | src/app/api/predictions/route.ts:44-49 | a market past its expiry is rejected as expired even when it is not resolved |
| Predictions.IntakeKeepsPairsUnique | src/app/api/predictions/route.ts:68-96 | the duplicate check keeps at most one prediction per (market, user) |
| Predictions.CountBy | src/app/api/predictions/route.ts:99-117 | the number of a user's predictions, which `totalPredictions` tracks, is at most the number of predictions |
| Predictions.WageredBy | src/app/api/predictions/route.ts:99-117 | the sum of a user's stakes, which `totalWagered` tracks (a definition; `CountAppend` and `UpsertKeepsTrack` state its properties) |
| Predictions.FirstStake | src/app/api/predictions/route.ts:109-116 | the created row {1, amount, 0, 0, 0.0} (a definition; `Upsert` states it) |
| Predictions.AddStake | src/app/api/predictions/route.ts:101-108 | the increments of an existing row (a definition; `Upsert` states it) |
| Predictions.CountAppend | src/app/api/predictions/route.ts:85-96 | adding a prediction adds one to its user's count and its amount to the user's sum, and changes no other user's |
| Predictions.NoPredictionsNothingCounted | src/app/api/predictions/route.ts:109-116 | a user without predictions has count 0 and sum 0 |
| Predictions.Upsert | src/app/api/predictions/route.ts:99-117 | an existing row gains 1 prediction and `amount` wagered, with correct count, winnings, win rate and rank unchanged; otherwise a row {1, amount, 0, 0, 0.0} is appended; other rows are untouched; one row per user is kept |
| Predictions.EmptyStoreTracks | src/app/api/predictions/route.ts:99-117 | the empty store satisfies the statistics invariant |
| Predictions.UpsertKeepsTrack | src/app/api/predictions/route.ts:85-117 | insert plus upsert keeps each row's totals equal to the count and sum of its user's predictions |
| Predictions.StatsTrackRelabel | src/cron.ts:58-66 | changing only ranks and timestamps keeps the statistics invariant |
| Predictions.FilterPredictions | src/app/api/predictions/route.ts:139-141 | a prediction is listed exactly when it is stored and matches the given user and market ids |
| Predictions.ListPredictions | src/app/api/predictions/route.ts:129-167 | the GET response is the newest-first page of the matching predictions (at most `limit`), with the matching count and the page count |
| Predictions.ListPredictionsQuery | src/app/api/predictions/route.ts:134-137 | the GET response from the query text: the listing for the page and limit read from it, and none exactly when they are not both readings of at least 1 |
| Predictions.ListPredictionsDefaults | src/app/api/predictions/route.ts:134-135 | without `page` and `limit` the listing is page 1 of 10 |
| Predictions.FilterChronological | src/app/api/predictions/route.ts:139-141 | filtering keeps creation-time order |
| Predictions.ListNewestFirst | src/app/api/predictions/route.ts:150-154 | the listing's pages are ordered by `createdAt` descending |
| Ranking.Insert | src/cron.ts:50-55 | insertion adds one row (with `InsertSorted`, `InsertMultiset` and `InsertPeers`: sorted, the same rows, ties in order) |
| Ranking.Sort | src/cron.ts:50-55 | the sort keeps the number of rows (with `SortSorted`, `SortPermutation` and `SortStable`: ordered, a permutation, stable) |
| Ranking.InsertSorted | src/cron.ts:50-55 | inserting into a sorted sequence keeps it sorted |
| Ranking.InsertMultiset | src/cron.ts:50-55 | insertion adds exactly the inserted row |
| Ranking.SortSorted | src/cron.ts:50-55 | the sort orders by correct predictions descending, then win rate descending |
| Ranking.SortPermutation | src/cron.ts:50-55 | the sort is a permutation of its input |
| Ranking.PeersAppend | src/cron.ts:50-55 | the rows tied with a given row distribute over concatenation |
| Ranking.InsertPeers | src/cron.ts:50-55 | insertion puts a row after the rows it ties with |
| Ranking.SortStable | src/cron.ts:50-55 | the sort is stable: tied rows keep their input order |
| Ranking.SortStats | src/cron.ts:50-55 | the in-place array sort leaves the array equal to `Sort` of its old contents |
| Ranking.GrowSorted | src/cron.ts:50-55 | one round of the outer loop: an array holding the sorted first i input rows followed by the unsorted rest then holds the sorted first i + 1 rows followed by the rest |
| Ranking.SortStep | src/cron.ts:50-55 | sorting one more input row is inserting it into the sorted prefix |
| Ranking.InsertAt | src/cron.ts:50-55 | one insertion pass: the prefix up to i becomes the sorted insertion of the old a[i] into the old prefix; the rest is untouched |
| Ranking.ShiftPast | src/cron.ts:50-55 | the inner loop of a pass shifts the rows the new row beats one place right, leaves the rows before them and after position i alone, and stops after a row the new row does not beat |
| Ranking.InsertAfterBeaten | src/cron.ts:50-55 | a row that beats every row after position j, and not the row before j, is inserted at j |
| Ranking.RankOf | src/cron.ts:58-66 | a user's rank is 1 + the position of their first row in the sorted order |
| Ranking.RankOfPosition | src/cron.ts:58-66 | with one row per user, the row at position i gets rank i + 1 |
| Ranking.Ranks | src/app/api/stats/route.ts:35-38 | row i gets rank i + 1, with nothing else changed |
| Ranking.RanksNoInversion | src/app/api/stats/route.ts:35-38 | on sorted rows, a smaller rank is never strictly worse |
| Ranking.PermutationSameUsers | src/cron.ts:50-55 | a permutation holds the same users |
| Ranking.UsersBound | src/cron.ts:43-47 | one row per user exactly when the number of distinct users equals the number of rows |
| Ranking.SortUniqueUsers | src/cron.ts:50-55 | sorting keeps one row per user, with the same users |
| Ranking.Restamped | src/cron.ts:38-72 | after the job, each row differs from before only in its rank and its timestamp; the timestamp is the instant read in the round that wrote that rank |
| Ranking.SetRank | src/cron.ts:59-65 | one `userStats.update`: keeps the number of rows (`StampStep` states its effect) |
| Ranking.Stamp | src/cron.ts:59-65 | the rank and the instant of the round that writes it (a definition; `Restamped` states it) |
| Ranking.StampStep | src/cron.ts:58-66 | one round of the rank loop extends the prefix of stamped users by one |
| Ranking.StampDone | src/cron.ts:58-66 | after the last round the table is `Restamped` |
| Ranking.InSorted | src/cron.ts:50-66 | every row has a place in the sorted order, and its rank is that place plus one |
| Ranking.RestampedRanksInRange | src/cron.ts:58-66 | every row ends with a rank between 1 and n |
| Ranking.RestampedRanksDistinct | src/cron.ts:58-66 | no two rows share a rank |
| Ranking.RestampedRanksCover | src/cron.ts:58-66 | every rank 1..n is given to some row, so the ranks are exactly 1..n |
| Ranking.RestampedNoInversion | src/cron.ts:50-66 | a row with a smaller rank is never strictly worse under the two-key order |
| Ranking.RestampedTimesFollowRanks | src/cron.ts:58-66 | with a clock that never goes back, a better rank never carries a later `lastUpdated` |
| Cron.Cancel | src/cron.ts:23-29 | cancelling sets `resolvedAt` to the clock and `outcome` to CANCELLED together, and changes nothing else |
| Cron.OverdueIds | src/cron.ts:10-17 | the selected ids are exactly those of the markets with `expiresAt <= now` and no `resolvedAt` |
| Cron.CancelById | src/cron.ts:23-29 | the update by id cancels the market with that id and leaves every other market as it was |
| Cron.ExpireAll | src/cron.ts:10-30 | the sweep keeps the number of markets (`ExpireAllEffect` states its effect) |
| Cron.ExpireAllEffect | src/cron.ts:10-30 | overdue markets end cancelled at the clock; active and resolved markets are unchanged; none is left overdue |
| Cron.ExpireAllIdempotent | src/cron.ts:10-30 | a second run with the same clock selects nothing and changes nothing |
| Cron.NothingOverdue | src/cron.ts:10-17 | with no overdue market the selection is empty |
| Cron.ExpireAllConsistent | src/cron.ts:23-29 | the sweep keeps `resolvedAt` and `outcome` set together |
| Cron.CancelSelectedIsExpireAll | src/cron.ts:10-30 | with unique ids, a market's id is selected exactly when the market is overdue |
| Cron.Stale | src/cron.ts:84-87 | the delete condition: resolved before the cutoff (a predicate, no contract of its own) |
| Cron.Purge | src/cron.ts:82-89 | a market survives exactly when it is not resolved before the cutoff |
| Cron.PurgeKeepsRecent | src/cron.ts:82-89 | unresolved markets, and markets resolved at or after the cutoff, are never deleted |
| Cron.PurgeNothingStale | src/cron.ts:82-89 | with nothing stale, the cleanup deletes nothing |
| Cron.PurgeIdempotent | src/cron.ts:82-89 | a second cleanup with the same cutoff deletes nothing more |
| Cron.PurgeCount | src/cron.ts:82-91 | the kept and deleted markets together are all the markets |
| Cron.StaleOnes | src/cron.ts:82-91 | the deleted markets are exactly the stored ones resolved before the cutoff |
| Stats.ParsePeriod | src/app/api/stats/route.ts:7-20 | "week" and "month" select their filters, and only they do; a missing, empty or "all" period selects none |
| Stats.InPeriod | src/app/api/stats/route.ts:10-20 | the period filter: every row for all time, `lastUpdated` at or after the week or month cutoff otherwise (a predicate, no contract of its own) |
| Stats.FilterStats | src/app/api/stats/route.ts:10-23 | a row is kept exactly when it is stored and its `lastUpdated` is within the period |
| Stats.AllTimeKeepsAll | src/app/api/stats/route.ts:10-20 | the default period keeps every row in order |
| Stats.Leaderboard | src/app/api/stats/route.ts:22-38 | at most `limit` entries, exactly as many as match when fewer do; entry i is the i-th in-period row in leaderboard order, with rank i + 1 |
| Stats.LeaderboardQuery | src/app/api/stats/route.ts:8 | the leaderboard for the `limit` read from the query text, and none exactly when it is NaN or negative |
| Stats.LeaderboardDefaults | src/app/api/stats/route.ts:8 | without `limit` the leaderboard has at most 10 entries |
| Stats.LeaderboardPageQuery | src/app/leaderboard/page.tsx:45 | the leaderboard page's `limit=50` asks for at most 50 entries |
| Stats.RankedFromPeriod | src/app/api/stats/route.ts:22-38 | every entry of a ranked prefix of a rearrangement of the period's rows is a stored row in the period with its rank set |
| Stats.RankedInOrder | src/app/api/stats/route.ts:27-38 | setting ranks on a prefix of a sorted sequence keeps it ordered by correct predictions then win rate |
| Stats.LeaderboardRows | src/app/api/stats/route.ts:22-38 | each entry is a stored row in the period, restamped with its position; entries are ordered by correct predictions then win rate, descending |
| Stats.LeaderboardIsTop | src/app/api/stats/route.ts:22-38 | the entries are the best rows of the period, each taken once: the period's rows split into the entries (before ranking) and the rest, and no row left out is strictly better than any entry |
| Stats.CountActive | src/app/api/stats/route.ts:42-47 | the active count is at most the number of markets |
| Stats.OverallStats | src/app/api/stats/route.ts:41-58 | the overall counters report the market, prediction and user counts, and there are no more active markets than markets |
| Stats.ActiveCountAgrees | src/app/api/stats/route.ts:42-47 | the active count uses the same predicate as the markets listing's "active" filter |
| Stats.ActiveCountIsListingTotal | src/app/api/stats/route.ts:42-47 | it equals the `total` that `GET /api/markets?status=active` reports |
| Store.SlugsOf | src/app/api/markets/route.ts:119 | the set the probe looks slugs up in is exactly the stored slugs |
| Store.PurgeKeepsUnique | src/cron.ts:82-89 | deleting markets keeps ids and slugs unique |
| Store.AppendMarketValid | src/app/api/markets/route.ts:133-146 | adding a market with the next id, a fresh slug and no resolution keeps the market table's invariant |
| Store.ExpireAllValid | src/cron.ts:22-30 | the expiry sweep keeps the market table's invariant |
| Store.ExpireAllChronological | src/cron.ts:22-30 | the expiry sweep keeps the markets in creation order |
| Store.PurgeChronological | src/cron.ts:82-89 | the cleanup keeps the remaining markets in creation order |
| Store.ListingsNewestFirst | src/app/api/markets/route.ts:43-47 | while the store is in creation order, the markets listing and the predictions listing both come out ordered by `createdAt` descending |
| Store.Db.CreateMarket | src/app/api/markets/route.ts:87-148 | missing fields, then a past expiry, then the lack of a user give their 400s and change nothing; otherwise exactly one market is added with the next id, the probed unique slug, the given fields, no resolution, the default user as creator and the clock; the store stays valid, and in creation order when the clock has not gone back |
| Store.Db.RecordStake | src/app/api/predictions/route.ts:99-117 | the statistics table becomes `Upsert` of the old one; nothing else changes |
| Store.Db.CreatePrediction | src/app/api/predictions/route.ts:5-119 | the answer is the guard chain's; a rejection changes nothing; a success adds exactly that prediction and upserts the user's row; the store stays valid, and in creation order when the clock has not gone back |
| Store.Db.ExpireMarkets | src/cron.ts:3-36 | the loop over the selected ids leaves the markets equal to `ExpireAll` of the old ones, touches nothing else, and keeps the store valid and in order |
| Store.Db.UpdateLeaderboard | src/cron.ts:38-72 | sorting a copy and running the rank loop leaves the statistics table equal to `Restamped` with the clock of each round; it stays valid and in order |
| Store.Db.WriteRanks | src/cron.ts:58-66 | after the loop every sorted user's row carries its position + 1 and the instant read in its round |
| Store.Db.CleanupOldData | src/cron.ts:74-95 | the markets become `Purge` of the old ones and the store stays valid and in order |
| Frames.ButtonTag | src/lib/frames.ts:58-64 | one button's three lines (a definition; `ButtonTagWithoutTarget` and `FrameHtmlButtons` state its content) |
| Frames.ButtonBlocks | src/lib/frames.ts:57-64 | one block per button, numbered from 1 |
| Frames.ButtonTags | src/lib/frames.ts:57-65 | the blocks joined by newlines (a definition; `ButtonTagsSnoc` states its shape) |
| Frames.PageParts | src/lib/frames.ts:69-82 | the template's pieces in order (a definition; the `FrameHtml*` lemmas state the content) |
| Frames.FrameHtml | src/lib/frames.ts:51-83 | the whole page (a definition; `FrameHtmlFixedTags`, `FrameHtmlButtons` and `FrameHtmlPostUrl` state its content) |
| Frames.ActionOf | src/lib/frames.ts:59 | the emitted action is "post" exactly when the button's action is "post", otherwise "link" |
| Frames.PostUrlTag | src/lib/frames.ts:67 | the post_url tag is empty exactly when no post URL is given |
| Frames.JoinContains | src/lib/frames.ts:65 | `join` keeps every element in the result |
| Frames.ConcatAppend | src/lib/frames.ts:69-82 | a template's text is the text of its first pieces followed by the text of the rest |
| Frames.ButtonTagsSnoc | src/lib/frames.ts:57-65 | buttons appear in input order, separated by newlines, the k-th numbered k |
| Frames.ButtonTagWithoutTarget | src/lib/frames.ts:60-63 | without a target a button emits only its label and action lines |
| Frames.FrameHtmlFixedTags | src/lib/frames.ts:69-82 | the page always contains `fc:frame` = vNext, `og:image` and `fc:frame:image` = the image URL, `og:title` = the title and the `<h1>` title |
| Frames.FrameHtmlButtons | src/lib/frames.ts:57-76 | the page contains, for the button at position i, the label and action tags numbered i + 1, and its target tag when it has a target |
| Frames.FrameHtmlPostUrl | src/lib/frames.ts:67-78 | with a post URL the page contains its tag; without one that line of the head is blank |
| Display.BreakDown | src/app/api/og/route.ts:233-235 | days, hours < 24 and minutes < 60 with days·1d + hours·1h + minutes·1min <= diff < that + 1min |
| Display.BreakDownUnique | src/components/OG.tsx:176-178 | those bounds determine the breakdown: no other (d, h, m) satisfies them |
| Display.TimeLeft | src/app/api/og/route.ts:227-240 | "Expired" exactly when the difference is not positive |
| Display.TimeLeftDays | src/components/OG.tsx:180 | from one day on: "Dd Hh" |
| Display.TimeLeftHours | src/app/markets/page.tsx:61 | under a day and from one hour on: "Hh Mm" |
| Display.TimeLeftMinutes | src/app/api/og/route.ts:239 | under an hour: "Mm", whose digits read back as the whole minutes left |
| Display.TimeLabel | src/app/api/og/route.ts:197 | "Market Closed" exactly when there is no expiry (which the handler turns into "Expired") or it is not in the future; otherwise "Time Left: " followed by the time left |
| Display.RoundPercent | src/app/api/og/route.ts:19-20 | half-up rounding of 100·votes/total: within half a percent, and in 0..100 for a share of the total |
| Display.OgPercents | src/components/OG.tsx:19-21 | 50/50 when no vote is counted, the rounded shares otherwise |
| Display.OgPercentsSum | src/app/api/og/route.ts:18-20 | with non-negative votes the two shares add up to 100 or 101 |
| Display.OgPercentsCanReach101 | src/app/api/og/route.ts:19-20 | 1 vote against 7 shows 13% and 88% |
| Display.OgCardOf | src/app/api/og/route.ts:11-22 | each text field is its parameter when non-empty, otherwise the default question, "Yes" or "No"; the vote counts are read by `parseInt(x \|\| '0')`; when both are numbers the total is their sum and the percentages are theirs, otherwise the total is NaN and the shares 50/50; the status line is that of the expiry |
| Display.OgDefaults | src/components/OG.tsx:12-23 | with no parameters the image shows the default question, "Yes", "No", 50/50, a total of 0 and "Market Closed" |
| Display.OgDecimalVotes | src/app/api/og/route.ts:15-20 | vote counts written in decimal are counted at their value, in the total and the percentages |
| Pages.StatusText | src/app/markets/page.tsx:71-75 | "Resolved", "Expired" and "Active" exactly for the listing's resolved, expired and active classes |
| Pages.StatusColor | src/app/markets/page.tsx:65-69 | the three colours exactly for the same three classes |
| Pages.ListPercent | src/app/markets/page.tsx:149-151 | 0 when there are no votes, otherwise a percentage in 0..100 for a share of the total |
| Pages.ListPercentVsImage | src/app/markets/page.tsx:163-165 | the page and the share image agree when votes exist; with none the page shows 0/0 and the image 50/50 |
| Pages.Caption | src/app/markets/page.tsx:178-180 | "Expires in <time left>" when the market is active at the first clock reading, measured from the second reading; "Expired <date>" otherwise |
| Pages.ActiveCaptionShowsTime | src/app/markets/page.tsx:178-180 | the caption reads "Expires in Expired" exactly when the market is active at the first reading and expired by the second |
| Pages.CreatorLabel | src/app/markets/page.tsx:175 | display name, else username, else "Unknown" |
| Pages.RankIcon | src/app/leaderboard/page.tsx:55-60 | medals for ranks 1, 2 and 3; "#" followed by the number otherwise |
| Pages.RankIconReadBack | src/app/leaderboard/page.tsx:59 | the number after "#" reads back as the rank |
| Pages.WinRateBand | src/app/leaderboard/page.tsx:62-67 | the top band exactly from 80, the bottom band exactly below 40 |
| Pages.WinRateColor | src/app/leaderboard/page.tsx:62-67 | green, yellow, orange and red exactly for bands 3, 2, 1 and 0 |
| Pages.WinRateBandMonotone | src/app/leaderboard/page.tsx:62-67 | a higher win rate never gets a lower band |
| Pages.DisplayRank | src/app/leaderboard/page.tsx:148 | the stored rank when truthy; position + 1 when it is missing or 0 |
| Pages.RankedRowsShowPosition | src/app/leaderboard/page.tsx:148 | rows ranked by the leaderboard route, or without a rank, show their position + 1 |
| Pages.HighlightedRowsShowMedals | src/app/leaderboard/page.tsx:142-148 | the three highlighted rows show a medal |
| Pages.UserName | src/app/leaderboard/page.tsx:161 | display name, else username, else "User <fid>" |
| Pages.Handle | src/app/leaderboard/page.tsx:164 | "@" followed by the username, else by "user_<fid>" |
| Pages.FallbackHandlesDistinct | src/app/leaderboard/page.tsx:164 | users without a username get equal handles exactly when their fids are equal |
| Pages.TimeAgo | src/app/social/page.tsx:119-128 | "just now" exactly when under a minute has elapsed, future times included |
| Pages.TimeAgoMinutes | src/app/social/page.tsx:125 | under an hour: whole minutes |
| Pages.TimeAgoHours | src/app/social/page.tsx:126 | under a day: whole hours |
| Pages.TimeAgoDays | src/app/social/page.tsx:127 | from a day on: whole days |
| Pages.ActivityIcon | src/app/social/page.tsx:89-102 | the fallback icon exactly for an unknown activity type |
| Pages.ActivityText | src/app/social/page.tsx:104-117 | "performed an action" exactly for an unknown activity type |
| Pages.ActivityDistinct | src/app/social/page.tsx:89-117 | the four known types have distinct icons and distinct phrases |
| Pages.Initial | src/app/social/page.tsx:175 | one character: the display name's first, else "U" |

## Left out

- Database and framework plumbing is not modelled: Prisma queries, `request.json()`, `URL.searchParams`, `NextResponse`, and the `include` of related rows. The store is the class `Store.Db` and a response is a `Response` value. The 500 answers of the `catch` blocks have no counterpart, because nothing in the model throws.
- Invalid date strings are out: `expiresAt` is a time or `None`.
- Text.ParseInt: the reading is an unbounded integer. JavaScript's `parseInt` returns a double, so a digit string longer than about 15 digits is rounded; that is not modelled.
- Markets.ListMarketsQuery, Predictions.ListPredictionsQuery: `None` stands for a `page` or `limit` that reads as NaN or below 1. The source hands a NaN `skip` or `take` to Prisma, and the answers to the numbers below 1 are described under `Markets.ListMarkets` below. None of these answers is modelled.
- Stats.LeaderboardQuery: `None` stands for a `limit` that reads as NaN or as a negative number. The source hands a NaN `take` to Prisma, and the answer to a negative one is described under `Stats.Leaderboard` below. Neither answer is modelled.
- Markets.ListMarkets: requires `page >= 1` and `limit >= 1`. A `page` of 0 or less gives a negative `skip`, which Prisma rejects, so the source answers 500. A `limit` of 0 makes `Math.ceil(total / 0)` infinite. A negative `limit` is a negative Prisma `take`, which returns rows from the far end of the order; the source then answers 200 with a `pages` of zero or below. These answers are not modelled.
- Predictions.ListPredictions: the same `page >= 1` and `limit >= 1` requirement, for the same reasons.
- Stats.Leaderboard: `limit` is a `nat`. A negative `?limit=` is a negative Prisma `take`, which returns the last rows of the order instead of the first; that answer is not modelled.
- Markets.ListMarkets, Predictions.ListPredictions: "newest first" is the reversed store order. This agrees with the source's `orderBy: { createdAt: 'desc' }` while `Db.InOrder()` holds. The database's order among equal `createdAt` values, and the order after the clock goes back, are not modelled.
- Store.Db.CreateMarket, Store.Db.CreatePrediction: they promise to keep the tables in creation order only when no stored row was created after their `now` (`Db.NotBefore(now)`). With a clock that steps back they still insert, as the source does, and the order is no longer promised.
- Predictions.Intake: `amount` and every counter and sum are unbounded integers. JavaScript numbers are doubles: they lose precision above 2^53, and a fractional `amount` such as 0.5 passes the guards and is stored. Neither is modelled.
- Ranking.Restamped: the instant `clock(i)` of each round is arbitrary. That it never goes back is a premise of `Ranking.RestampedTimesFollowRanks`, not something the job ensures.
- Pages.ActiveCaptionShowsTime: the markets page reads the clock in `getStatusText` and again in `getTimeLeft`. A market that expires between the two readings is captioned "Expires in Expired". The lemma states exactly when that happens rather than ruling it out.
- The default user (`prisma.user.findFirst()`) is a parameter, as are the clock and the cutoffs of the cleanup job (30 days ago) and of the leaderboard periods (one week and one calendar month ago). Calendar arithmetic is not modelled.
- Concurrency is not modelled: `runAllJobs` runs its jobs with `Promise.all`, the GET handlers query in parallel, and a duplicate check can race with its insert. Everything is sequential, and one prediction per (market, user) is a store invariant, not a race guarantee.
- `verifyFrameSignature` and `getUserByFid` (src/lib/frames.ts:15-49) call the Neynar client and are not part of this model.
- JSX, styles, `ImageResponse` and the pages' state and fetching are not modelled. Only the named helpers and the expressions they feed are.
- `toFixed`, `toLocaleString` and `toLocaleDateString` are not modelled. The date text of the "Expired <date>" caption is a parameter.
- Display.RoundPercent: models `Math.round(votes / total * 100)` in exact arithmetic. Floating-point halfway cases are not captured.
- Markets.ToLower: maps only ASCII A–Z. JavaScript's `toLowerCase` also maps other letters; the following strip deletes every non-ASCII letter either way, apart from a few whose lowercase form is ASCII (such as the Kelvin sign).
- Pages.Initial: takes the first UTF-16 code unit as one character. Surrogate pairs are not modelled.
- Predictions.Upsert: `lastUpdated` of a newly created row is set to the clock, since the schema's default is not shown. An existing row's `lastUpdated` is left as it is.
- Store.Db.UpdateLeaderboard: the sort reads the statistics table in its stored order. The query at src/cron.ts:43-46 has no `orderBy`, so the source reads rows in an order the database chooses. Among rows tied on correct predictions and win rate, the ranks (and the input order that `Ranking.SortStable` preserves) follow the model's choice of order, not an order the source fixes.
- Stats.Leaderboard: ties under `orderBy` are left to the database. The model orders them by the same stable sort as the ranking job.
- Store.Db.WriteRanks: the update keyed by the row's `id` is modelled as an update keyed by `userId`, which is unique per row.
- Cascade deletion of a deleted market's predictions depends on a schema that is not shown, so `CleanupOldData` leaves predictions alone.
- Market resolution (PATCH) and the frame POST handler are not part of this model. No modelled code changes `correctPredictions`, `totalWon` or `winRate`.
- The seed scripts and the static pages are not part of this model.
- The three copies of `getTimeLeft` (the og route, the OG component and the markets page) are the same code and are modelled by the one function `Display.TimeLeft`.
- The button record's `label` field is named `text` in the model, because `label` is a Dafny keyword.
- Inserted labels, titles and URLs are not HTML-escaped, as in the source.

=== FILE: cron.dfy ===
/** The maintenance jobs' effects on the market table: cancelling overdue
    markets and purging long-resolved ones. The jobs themselves, which walk
    the store, are methods of `Store.Db`; the ranking job's effect is
    `Ranking.Restamped`. */
module Cron {
  import opened Domain
  import opened Markets

  /** The update applied to an overdue market: resolved now, as cancelled. */
  function Cancel(m: Market, now: Time): (r: Market)
    ensures r.resolvedAt == Some(now) && r.outcome == Some(Cancelled)
    ensures r.(resolvedAt := m.resolvedAt, outcome := m.outcome) == m
    ensures ResolutionConsistent(r) && IsResolved(r)
  {
    m.(resolvedAt := Some(now), outcome := Some(Cancelled))
  }

  /** The ids the expiry job selects (`expiresAt <= now`, unresolved), in
      store order. */
  function OverdueIds(ms: seq<Market>, now: Time): (ids: seq<MarketId>)
    ensures |ids| <= |ms|
    ensures forall id :: id in ids <==> exists k :: 0 <= k < |ms| && ms[k].id == id && IsExpired(ms[k], now)
  {
    if ms == [] then []
    else
      var init := ms[..|ms| - 1];
      var last := ms[|ms| - 1];
      assert forall k :: 0 <= k < |init| ==> init[k] == ms[k];
      OverdueIds(init, now) + (if IsExpired(last, now) then [last.id] else [])
  }

  /** `market.update({ where: { id }, ... })` for one selected id. */
  function CancelById(ms: seq<Market>, id: MarketId, now: Time): (r: seq<Market>)
    ensures |r| == |ms|
    ensures forall k :: 0 <= k < |ms| ==> r[k] == if ms[k].id == id then Cancel(ms[k], now) else ms[k]
  {
    seq(|ms|, k requires 0 <= k < |ms| => if ms[k].id == id then Cancel(ms[k], now) else ms[k])
  }

  /** The expiry job's effect on the whole table. */
  function ExpireAll(ms: seq<Market>, now: Time): (r: seq<Market>)
    ensures |r| == |ms|
  {
    seq(|ms|, k requires 0 <= k < |ms| => if IsExpired(ms[k], now) then Cancel(ms[k], now) else ms[k])
  }

  /** After the job, every overdue market is resolved at `now` as cancelled;
      markets that were still open, or already resolved, are untouched. */
  lemma ExpireAllEffect(ms: seq<Market>, now: Time)
    ensures forall k :: 0 <= k < |ms| && IsExpired(ms[k], now) ==>
              ExpireAll(ms, now)[k].resolvedAt == Some(now)
              && ExpireAll(ms, now)[k].outcome == Some(Cancelled)
    ensures forall k :: 0 <= k < |ms| && (IsActive(ms[k], now) || IsResolved(ms[k])) ==>
              ExpireAll(ms, now)[k] == ms[k]
    ensures forall k :: 0 <= k < |ms| ==> !IsExpired(ExpireAll(ms, now)[k], now)
  {
  }

  /** A second run with the same clock selects nothing and changes nothing. */
  lemma ExpireAllIdempotent(ms: seq<Market>, now: Time)
    ensures OverdueIds(ExpireAll(ms, now), now) == []
    ensures ExpireAll(ExpireAll(ms, now), now) == ExpireAll(ms, now)
  {
    var r := ExpireAll(ms, now);
    assert forall k :: 0 <= k < |r| ==> !IsExpired(r[k], now);
    NothingOverdue(r, now);
  }

  lemma {:induction false} NothingOverdue(ms: seq<Market>, now: Time)
    requires forall k :: 0 <= k < |ms| ==> !IsExpired(ms[k], now)
    ensures OverdueIds(ms, now) == []
  {
    if ms != [] {
      NothingOverdue(ms[..|ms| - 1], now);
    }
  }

  /** `resolvedAt` and `outcome` stay set together. */
  lemma ExpireAllConsistent(ms: seq<Market>, now: Time)
    requires forall k :: 0 <= k < |ms| ==> ResolutionConsistent(ms[k])
    ensures forall k :: 0 <= k < |ms| ==> ResolutionConsistent(ExpireAll(ms, now)[k])
  {
  }

  /** Without duplicate ids, cancelling the selected ids one by one is the
      whole job. */
  lemma CancelSelectedIsExpireAll(ms: seq<Market>, now: Time, k: int)
    requires forall i, j :: 0 <= i < j < |ms| ==> ms[i].id != ms[j].id
    requires 0 <= k < |ms|
    ensures ms[k].id in OverdueIds(ms, now) <==> IsExpired(ms[k], now)
  {
  }

  // ---------------------------------------------------------------- cleanup

  /** The cleanup job's selection: resolved before the cutoff. */
  predicate Stale(m: Market, cutoff: Time) {
    m.resolvedAt.Some? && m.resolvedAt.value < cutoff
  }

  /** `market.deleteMany` over the stale markets; the others keep their order. */
  function Purge(ms: seq<Market>, cutoff: Time): (r: seq<Market>)
    ensures |r| <= |ms|
    ensures forall m :: m in r <==> m in ms && !Stale(m, cutoff)
  {
    if ms == [] then []
    else Purge(ms[..|ms| - 1], cutoff) + (if Stale(ms[|ms| - 1], cutoff) then [] else [ms[|ms| - 1]])
  }

  /** Unresolved markets are never deleted, and neither is anything resolved
      at or after the cutoff. */
  lemma PurgeKeepsRecent(ms: seq<Market>, cutoff: Time, m: Market)
    requires m in ms && (m.resolvedAt.None? || m.resolvedAt.value >= cutoff)
    ensures m in Purge(ms, cutoff)
  {
  }

  /** A table with nothing stale loses nothing. */
  lemma {:induction false} PurgeNothingStale(ms: seq<Market>, cutoff: Time)
    requires forall k :: 0 <= k < |ms| ==> !Stale(ms[k], cutoff)
    ensures Purge(ms, cutoff) == ms
  {
    if ms != [] {
      var init, last := ms[..|ms| - 1], ms[|ms| - 1];
      assert forall k :: 0 <= k < |init| ==> !Stale(init[k], cutoff) by {
        assert forall k :: 0 <= k < |init| ==> init[k] == ms[k];
      }
      PurgeNothingStale(init, cutoff);
      assert !Stale(last, cutoff);
      assert Purge(ms, cutoff) == Purge(init, cutoff) + [last];
      SplitLast(ms);
    }
  }

  /** Deleting is done in one pass: a second pass deletes nothing. */
  lemma PurgeIdempotent(ms: seq<Market>, cutoff: Time)
    ensures Purge(Purge(ms, cutoff), cutoff) == Purge(ms, cutoff)
  {
    var p := Purge(ms, cutoff);
    assert forall k :: 0 <= k < |p| ==> p[k] in p;
    PurgeNothingStale(p, cutoff);
  }

  /** The markets that remain are an order-preserving selection: the kept
      ones are exactly the non-stale ones, counted. */
  lemma {:induction false} PurgeCount(ms: seq<Market>, cutoff: Time)
    ensures |Purge(ms, cutoff)| + |StaleOnes(ms, cutoff)| == |ms|
  {
    if ms != [] {
      PurgeCount(ms[..|ms| - 1], cutoff);
    }
  }

  /** The deleted markets (the `count` the job logs). */
  function StaleOnes(ms: seq<Market>, cutoff: Time): (r: seq<Market>)
    ensures forall m :: m in r <==> m in ms && Stale(m, cutoff)
  {
    if ms == [] then []
    else StaleOnes(ms[..|ms| - 1], cutoff) + (if Stale(ms[|ms| - 1], cutoff) then [ms[|ms| - 1]] else [])
  }
}

=== FILE: display.dfy ===
/** The display arithmetic of the share image (the og route and its copy in
    the OG component) and of the markets page: the time left before expiry in
    days, hours and minutes, and the vote percentages. */
module Display {
  import opened Domain
  import opened Text

  const MsPerMinute := 60000
  const MsPerHour := 3600000
  const MsPerDay := 86400000

  // -------------------------------------------------------------- time left

  datatype Breakdown = Breakdown(days: nat, hours: nat, minutes: nat)

  /** The three `Math.floor` expressions of `getTimeLeft`, for a positive
      difference in milliseconds. */
  function BreakDown(diff: int): (b: Breakdown)
    requires diff > 0
    ensures b.hours < 24 && b.minutes < 60
    ensures b.days * MsPerDay + b.hours * MsPerHour + b.minutes * MsPerMinute <= diff
    ensures diff < b.days * MsPerDay + b.hours * MsPerHour + (b.minutes + 1) * MsPerMinute
  {
    var days := diff / MsPerDay;
    var dayRest := diff % MsPerDay;
    var hours := dayRest / MsPerHour;
    var minutes := (diff % MsPerHour) / MsPerMinute;
    assert diff % MsPerHour == dayRest % MsPerHour by {
      assert diff == (days * 24 + hours) * MsPerHour + dayRest % MsPerHour;
    }
    Breakdown(days, hours, minutes)
  }

  /** Any other breakdown satisfying the same bounds is this one. */
  lemma BreakDownUnique(diff: int, d: nat, h: nat, m: nat)
    requires diff > 0 && h < 24 && m < 60
    requires d * MsPerDay + h * MsPerHour + m * MsPerMinute <= diff
    requires diff < d * MsPerDay + h * MsPerHour + (m + 1) * MsPerMinute
    ensures BreakDown(diff) == Breakdown(d, h, m)
  {
    var b := BreakDown(diff);
    var x := d * 1440 + h * 60 + m;
    var y := b.days * 1440 + b.hours * 60 + b.minutes;
    assert x == diff / MsPerMinute by {
      assert x * 60000 <= diff < x * 60000 + 60000;
    }
    assert y == diff / MsPerMinute by {
      assert y * 60000 <= diff < y * 60000 + 60000;
    }
    assert d == x / 1440 && h * 60 + m == x % 1440;
    assert b.days == y / 1440 && b.hours * 60 + b.minutes == y % 1440;
  }

  /** `getTimeLeft`, given `expiresAt - now` in milliseconds. */
  function TimeLeft(diff: int): (s: string)
    ensures s == "Expired" <==> diff <= 0
  {
    if diff <= 0 then "Expired"
    else
      var b := BreakDown(diff);
      var s := if b.days > 0 then NatToString(b.days) + "d " + NatToString(b.hours) + "h"
               else if b.hours > 0 then NatToString(b.hours) + "h " + NatToString(b.minutes) + "m"
               else NatToString(b.minutes) + "m";
      assert s[|s| - 1] != "Expired"[6];
      s
  }

  /** From one day on, days and hours. */
  lemma TimeLeftDays(diff: int)
    requires diff >= MsPerDay
    ensures TimeLeft(diff) == NatToString(diff / MsPerDay) + "d "
                              + NatToString((diff % MsPerDay) / MsPerHour) + "h"
  {
  }

  /** Under a day but at least an hour: hours and minutes. */
  lemma TimeLeftHours(diff: int)
    requires MsPerHour <= diff < MsPerDay
    ensures TimeLeft(diff) == NatToString(diff / MsPerHour) + "h "
                              + NatToString((diff % MsPerHour) / MsPerMinute) + "m"
  {
    assert diff % MsPerDay == diff;
  }

  /** Under an hour: whole minutes only, so 59 seconds left shows as "0m". */
  lemma TimeLeftMinutes(diff: int)
    requires 0 < diff < MsPerHour
    ensures TimeLeft(diff) == NatToString(diff / MsPerMinute) + "m"
    ensures DigitsValue(TimeLeft(diff)[..|TimeLeft(diff)| - 1]) == diff / MsPerMinute
  {
    assert diff % MsPerDay == diff && diff % MsPerHour == diff;
    var s := NatToString(diff / MsPerMinute);
    assert (s + "m")[..|s + "m"| - 1] == s;
    DigitsValueOfNatToString(diff / MsPerMinute);
  }

  /** The status line: "Market Closed" exactly when there is no expiry date or
      it is not in the future, the time left before it otherwise. */
  function TimeLabel(expiresAt: Option<Time>, now: Time): (s: string)
    ensures s == "Market Closed" <==> expiresAt.None? || expiresAt.value <= now
    ensures expiresAt.Some? && expiresAt.value > now ==> s == "Time Left: " + TimeLeft(expiresAt.value - now)
  {
    var timeLeft := if expiresAt.Some? then TimeLeft(expiresAt.value - now) else "Expired";
    if timeLeft == "Expired" then "Market Closed"
    else
      assert ("Time Left: " + timeLeft)[0] != "Market Closed"[0];
      "Time Left: " + timeLeft
  }

  // ----------------------------------------------------------- percentages

  /** `Math.round(votes / total * 100)` in exact arithmetic: halves round up. */
  function RoundPercent(votes: int, total: int): (p: int)
    requires total > 0
    ensures 200 * votes - total < 2 * total * p <= 200 * votes + total
    ensures 0 <= votes <= total ==> 0 <= p <= 100
  {
    var p := (200 * votes + total) / (2 * total);
    DivBounds(200 * votes + total, 2 * total);
    assert 0 <= votes <= total ==> 0 <= p <= 100 by {
      if 0 <= votes <= total {
        FactorSign(total, 2 * p + 1);
        FactorSign(total, 201 - 2 * p);
      }
    }
    p
  }

  /** The quotient of Euclidean division by a positive divisor. */
  lemma DivBounds(n: int, d: int)
    requires d > 0
    ensures d * (n / d) <= n < d * (n / d) + d
  {
  }

  /** A product with a positive factor has the sign of the other factor. */
  lemma FactorSign(c: int, x: int)
    requires c > 0
    ensures c * x > 0 ==> x > 0
    ensures c * x >= 0 ==> x >= 0
  {
  }

  datatype Percents = Percents(optionA: int, optionB: int)

  /** The share image's percentages: 50/50 until some vote is counted. */
  function OgPercents(aVotes: int, bVotes: int): (r: Percents)
    ensures aVotes + bVotes <= 0 ==> r == Percents(50, 50)
    ensures aVotes + bVotes > 0 ==>
              r == Percents(RoundPercent(aVotes, aVotes + bVotes), RoundPercent(bVotes, aVotes + bVotes))
  {
    var total := aVotes + bVotes;
    if total > 0 then Percents(RoundPercent(aVotes, total), RoundPercent(bVotes, total))
    else Percents(50, 50)
  }

  /** With non-negative votes the two rounded shares add up to 100 or 101. */
  lemma OgPercentsSum(aVotes: int, bVotes: int)
    requires aVotes >= 0 && bVotes >= 0
    ensures 100 <= OgPercents(aVotes, bVotes).optionA + OgPercents(aVotes, bVotes).optionB <= 101
  {
    var t := aVotes + bVotes;
    if t > 0 {
      var r := OgPercents(aVotes, bVotes);
      var s := r.optionA + r.optionB;
      var ta, tb := 2 * t * r.optionA, 2 * t * r.optionB;
      assert 200 * aVotes - t < ta <= 200 * aVotes + t;
      assert 200 * bVotes - t < tb <= 200 * bVotes + t;
      assert (2 * t) * (s - 99) == ta + tb - 198 * t;
      assert (2 * t) * (101 - s) == 202 * t - ta - tb;
      FactorSign(2 * t, s - 99);
      FactorSign(2 * t, 101 - s);
    }
  }


  /** Both halves round up when a share is exactly half a percent over a
      whole number: one vote against seven shows 13% and 88%. */
  lemma OgPercentsCanReach101()
    ensures OgPercents(1, 7) == Percents(13, 88)
  {
  }

  // ------------------------------------------------------------ share image

  /** The query parameters of the share image; a missing or empty one is
      `None`, and the vote counts are the parameters' text. */
  datatype OgParams = OgParams(
    question: Option<string>,
    optionA: Option<string>,
    optionB: Option<string>,
    expiresAt: Option<Time>,
    optionAVotes: Option<string>,
    optionBVotes: Option<string>)

  /** What the image shows, before layout; a total of `None` is NaN. */
  datatype OgCard = OgCard(
    question: string,
    optionA: string,
    optionB: string,
    percents: Percents,
    timeLabel: string,
    totalVotes: Option<int>)

  const DefaultQuestion := "Will this prediction come true?"

  /** The handler's values: defaults for missing parameters, the vote counts
      read by `parseInt(x || '0')`, their total, the percentages and the
      status line. A count that reads as NaN makes the total NaN, and
      `NaN > 0` is false, so the shares stay at 50/50. */
  function OgCardOf(p: OgParams, now: Time): (c: OgCard)
    ensures QueryInt(p.optionAVotes, "0").Some? && QueryInt(p.optionBVotes, "0").Some? ==>
              c.totalVotes == Some(QueryInt(p.optionAVotes, "0").value + QueryInt(p.optionBVotes, "0").value)
              && c.percents == OgPercents(QueryInt(p.optionAVotes, "0").value, QueryInt(p.optionBVotes, "0").value)
    ensures QueryInt(p.optionAVotes, "0").None? || QueryInt(p.optionBVotes, "0").None? ==>
              c.totalVotes == None && c.percents == Percents(50, 50)
    ensures c.timeLabel == TimeLabel(p.expiresAt, now)
    ensures c.question == OrElse(p.question, DefaultQuestion)
    ensures c.optionA == OrElse(p.optionA, "Yes") && c.optionB == OrElse(p.optionB, "No")
    ensures Truthy(p.question) ==> c.question == p.question.value
  {
    var a := QueryInt(p.optionAVotes, "0");
    var b := QueryInt(p.optionBVotes, "0");
    var total := if a.Some? && b.Some? then Some(a.value + b.value) else None;
    var percents := if a.Some? && b.Some? then OgPercents(a.value, b.value) else Percents(50, 50);
    OgCard(OrElse(p.question, DefaultQuestion), OrElse(p.optionA, "Yes"), OrElse(p.optionB, "No"),
           percents, TimeLabel(p.expiresAt, now), total)
  }

  /** With no parameters at all the image shows the default question, "Yes"
      and "No" at 50% each, no votes, and "Market Closed". */
  lemma OgDefaults(now: Time)
    ensures OgCardOf(OgParams(None, None, None, None, None, None), now)
            == OgCard(DefaultQuestion, "Yes", "No", Percents(50, 50), "Market Closed", Some(0))
  {
    QueryDefaults(None);
  }

  /** Vote counts written in decimal are counted at their value. */
  lemma OgDecimalVotes(a: string, b: string, p: OgParams, now: Time)
    requires a != [] && AllDigits(a) && b != [] && AllDigits(b)
    requires p.optionAVotes == Some(a) && p.optionBVotes == Some(b)
    ensures OgCardOf(p, now).totalVotes == Some(DigitsValue(a) + DigitsValue(b))
    ensures OgCardOf(p, now).percents == OgPercents(DigitsValue(a), DigitsValue(b))
  {
    QueryDigits(a, "0");
    QueryDigits(b, "0");
  }
}

=== FILE: domain.dfy ===
/** The entities of the prediction-market store and the shapes shared by the
    route handlers: outcomes and choices, users, markets, predictions, the
    per-user statistics row, and the (status, message) responses. */
module Domain {

  /** Instants and durations, in milliseconds. */
  type Time = int
  type MarketId = nat
  type UserId = nat

  datatype Option<+T> = None | Some(value: T)

  /** JavaScript `a || fallback` for a string that may be missing: a missing or
      empty string is falsy and yields the fallback. */
  function OrElse(a: Option<string>, fallback: string): (r: string)
    ensures a.Some? && a.value != "" ==> r == a.value
    ensures a.None? || a.value == "" ==> r == fallback
  {
    if a.Some? && a.value != "" then a.value else fallback
  }

  /** A present, non-empty string: what JavaScript treats as truthy. */
  predicate Truthy(a: Option<string>) {
    a.Some? && a.value != ""
  }

  datatype MarketOutcome = OptionA | OptionB | Cancelled

  datatype PredictionChoice = ChoiceA | ChoiceB | MultipleChoice

  /** The wire names of the choices, as the request body spells them. */
  function ChoiceName(c: PredictionChoice): string {
    match c
    case ChoiceA => "OPTION_A"
    case ChoiceB => "OPTION_B"
    case MultipleChoice => "MULTIPLE_CHOICE"
  }

  datatype User = User(id: UserId, fid: nat, username: Option<string>, displayName: Option<string>)

  datatype Market = Market(
    id: MarketId,
    slug: string,
    question: string,
    description: Option<string>,
    optionA: string,
    optionB: string,
    expiresAt: Time,
    resolvedAt: Option<Time>,
    outcome: Option<MarketOutcome>,
    creatorId: UserId,
    createdAt: Time)

  datatype Prediction = Prediction(
    marketId: MarketId,
    userId: UserId,
    choice: PredictionChoice,
    amount: int,
    createdAt: Time)

  datatype UserStats = UserStats(
    userId: UserId,
    totalPredictions: int,
    correctPredictions: int,
    totalWagered: int,
    totalWon: int,
    winRate: real,
    rank: Option<int>,
    lastUpdated: Time)

  /** A handler's answer: a success carrying its body, or an HTTP error status
      with the `{ error }` message. */
  datatype Response<+T> = Success(status: nat, body: T) | Failure(status: nat, error: string)

  /** One statistics row per user (the table's unique key). */
  predicate UniqueUsers(ss: seq<UserStats>) {
    forall i, j :: 0 <= i < j < |ss| ==> ss[i].userId != ss[j].userId
  }

  /** A non-empty sequence is its prefix followed by its last element. */
  lemma SplitLast<T>(s: seq<T>)
    requires s != []
    ensures s[..|s| - 1] + [s[|s| - 1]] == s
  {
  }

  /** `resolvedAt` and `outcome` are set together. */
  predicate ResolutionConsistent(m: Market) {
    m.resolvedAt.None? <==> m.outcome.None?
  }
}

=== FILE: frames.dfy ===
/** The Farcaster Frames ("vNext") HTML page: Open Graph and frame meta tags,
    one numbered group of tags per button, and an optional post URL. */
module Frames {
  import opened Domain
  import opened Text

  datatype Button = Button(text: string, action: string, target: Option<string>)

  /** `button.action === 'post' ? 'post' : 'link'`. */
  function ActionOf(b: Button): (a: string)
    ensures a == "post" <==> b.action == "post"
    ensures a == "post" || a == "link"
  {
    if b.action == "post" then "post" else "link"
  }

  /** `<meta property="…" content="…" />`, with both values inserted as given. */
  function Meta(property: string, content: string): string {
    "<meta property=\"" + property + "\" content=\"" + content + "\" />"
  }

  function ButtonProperty(n: nat): string {
    "fc:frame:button:" + NatToString(n)
  }

  /** The concatenation of the pieces of a template string. */
  function Concat(parts: seq<string>): string {
    if parts == [] then "" else Concat(parts[..|parts| - 1]) + parts[|parts| - 1]
  }

  /** The three lines of button number `n`; the third is empty without a target. */
  function ButtonTag(b: Button, n: nat): string {
    Concat(ButtonParts(b, n))
  }

  function ButtonParts(b: Button, n: nat): seq<string> {
    [Meta(ButtonProperty(n), b.text), "\n",
     Meta(ButtonProperty(n) + ":action", ActionOf(b)), "\n",
     if Truthy(b.target) then Meta(ButtonProperty(n) + ":target", b.target.value) else ""]
  }

  /** `xs.join(sep)`. */
  function Join(xs: seq<string>, sep: string): string {
    if xs == [] then ""
    else if |xs| == 1 then xs[0]
    else Join(xs[..|xs| - 1], sep) + sep + xs[|xs| - 1]
  }

  /** `buttons.map((button, index) => …)`: button i is numbered i + 1. */
  function ButtonBlocks(bs: seq<Button>): (r: seq<string>)
    ensures |r| == |bs|
  {
    seq(|bs|, i requires 0 <= i < |bs| => ButtonTag(bs[i], i + 1))
  }

  function ButtonTags(bs: seq<Button>): string {
    Join(ButtonBlocks(bs), "\n")
  }

  function PostUrlTag(postUrl: Option<string>): (r: string)
    ensures r == "" <==> !Truthy(postUrl)
  {
    if Truthy(postUrl) then Meta("fc:frame:post_url", postUrl.value) else ""
  }

  /** `generateFrameHtml(title, imageUrl, buttons, postUrl)`. */
  function FrameHtml(title: string, imageUrl: string, buttons: seq<Button>, postUrl: Option<string>): string {
    Concat(PageParts(title, imageUrl, buttons, postUrl))
  }

  /** The page template, piece by piece. */
  function PageParts(title: string, imageUrl: string, buttons: seq<Button>, postUrl: Option<string>)
    : seq<string>
  {
    ["<!DOCTYPE html>\n<html>\n<head>\n  ",
     Meta("og:title", title), "\n  ",                 // 1
     Meta("og:image", imageUrl), "\n  ",              // 3
     Meta("fc:frame", "vNext"), "\n  ",               // 5
     Meta("fc:frame:image", imageUrl), "\n  ",        // 7
     ButtonTags(buttons), "\n  ",                     // 9
     PostUrlTag(postUrl), "\n</head>\n<body>\n  ",    // 11
     "<h1>" + title + "</h1>",                        // 13
     "\n</body>\n</html>"]
  }

  // ------------------------------------------------------------ properties

  /** `t` occurs in `s`. */
  ghost predicate Contains(s: string, t: string) {
    exists a: string, b: string :: s == a + t + b
  }

  lemma ContainsMiddle(a: string, t: string, b: string)
    ensures Contains(a + t + b, t)
  {
  }

  lemma ContainsLeft(s: string, t: string, c: string)
    requires Contains(s, t)
    ensures Contains(s + c, t)
  {
    var a, b :| s == a + t + b;
    assert s + c == a + t + (b + c);
  }

  lemma ContainsRight(c: string, s: string, t: string)
    requires Contains(s, t)
    ensures Contains(c + s, t)
  {
    var a, b :| s == a + t + b;
    assert c + s == (c + a) + t + b;
  }

  /** Joining one more item leaves the earlier output in place. */
  lemma JoinSnoc(xs: seq<string>, x: string, sep: string)
    requires xs != []
    ensures Join(xs + [x], sep) == Join(xs, sep) + sep + x
  {
    assert (xs + [x])[..|xs + [x]| - 1] == xs;
  }

  /** Every item occurs in the joined output. */
  lemma {:induction false} JoinContains(xs: seq<string>, sep: string, i: int)
    requires 0 <= i < |xs|
    ensures Contains(Join(xs, sep), xs[i])
  {
    if |xs| == 1 {
      assert Join(xs, sep) == "" + xs[0] + "";
    } else if i == |xs| - 1 {
      ContainsMiddle(Join(xs[..|xs| - 1], sep) + sep, xs[i], "");
      assert Join(xs, sep) == Join(xs[..|xs| - 1], sep) + sep + xs[i] + "";
    } else {
      JoinContains(xs[..|xs| - 1], sep, i);
      ContainsLeft(Join(xs[..|xs| - 1], sep), xs[i], sep + xs[|xs| - 1]);
      assert Join(xs, sep) == Join(xs[..|xs| - 1], sep) + (sep + xs[|xs| - 1]);
    }
  }

  lemma ConcatSnoc(xs: seq<string>, z: string)
    ensures Concat(xs + [z]) == Concat(xs) + z
  {
    assert (xs + [z])[..|xs|] == xs;
  }

  lemma {:induction false} ConcatAppend(a: seq<string>, b: seq<string>)
    ensures Concat(a + b) == Concat(a) + Concat(b)
    decreases |b|
  {
    if b == [] {
      assert a + b == a;
    } else {
      var init, z := b[..|b| - 1], b[|b| - 1];
      assert b == init + [z];
      assert a + b == (a + init) + [z];
      ConcatAppend(a, init);
      ConcatSnoc(a + init, z);
      ConcatSnoc(init, z);
    }
  }

  /** Each piece, and each run of consecutive pieces, occurs in the whole. */
  lemma ConcatContains(parts: seq<string>, i: int, j: int)
    requires 0 <= i <= j <= |parts|
    ensures Contains(Concat(parts), Concat(parts[i..j]))
  {
    assert parts == parts[..i] + parts[i..j] + parts[j..];
    ConcatMiddle(parts[..i], parts[i..j], parts[j..]);
  }

  lemma ConcatMiddle(a: seq<string>, b: seq<string>, c: seq<string>)
    ensures Contains(Concat(a + b + c), Concat(b))
  {
    ConcatAppend(a, b);
    ConcatAppend(a + b, c);
    ContainsMiddle(Concat(a), Concat(b), Concat(c));
  }

  lemma ConcatContainsPiece(parts: seq<string>, i: int)
    requires 0 <= i < |parts|
    ensures Contains(Concat(parts), parts[i])
  {
    ConcatContains(parts, i, i + 1);
    assert parts[i..i + 1] == [parts[i]];
    assert [parts[i]][..0] == [];
    assert Concat([parts[i]]) == "" + parts[i] == parts[i];
  }

  lemma ContainsTrans(s: string, t: string, u: string)
    requires Contains(s, t) && Contains(t, u)
    ensures Contains(s, u)
  {
    var a, b :| s == a + t + b;
    var c, d :| t == c + u + d;
    assert s == (a + c) + u + (d + b);
  }

  /** Adding a button appends its group, numbered one past the others, and
      leaves the earlier groups unchanged. */
  lemma ButtonTagsSnoc(bs: seq<Button>, b: Button)
    requires bs != []
    ensures ButtonTags(bs + [b]) == ButtonTags(bs) + "\n" + ButtonTag(b, |bs| + 1)
  {
    assert ButtonBlocks(bs + [b]) == ButtonBlocks(bs) + [ButtonTag(b, |bs| + 1)];
    JoinSnoc(ButtonBlocks(bs), ButtonTag(b, |bs| + 1), "\n");
  }

  /** Without a target the third line of a button's group is empty: the group
      is the label tag and the action tag, each followed by a newline. */
  lemma ButtonTagWithoutTarget(b: Button, n: nat)
    requires !Truthy(b.target)
    ensures ButtonTag(b, n) == Meta(ButtonProperty(n), b.text) + "\n"
                               + Meta(ButtonProperty(n) + ":action", ActionOf(b)) + "\n"
  {
    var parts := ButtonParts(b, n);
    assert parts[..4][..3][..2][..1][..0] == [];
    assert parts[..4][..3][..2][..1] == [parts[0]];
    assert parts[..4][..3][..2] == [parts[0], parts[1]];
    assert parts[..4][..3] == [parts[0], parts[1], parts[2]];
    assert parts[..4] == [parts[0], parts[1], parts[2], parts[3]];
    assert Concat(parts[..4][..3][..2][..1]) == parts[0];
    assert Concat(parts[..4][..3][..2]) == parts[0] + "\n";
    assert Concat(parts[..4]) == parts[0] + "\n" + parts[2] + "\n";
    assert parts[4] == "";
    assert Concat(parts) == Concat(parts[..4]) + "";
  }

  /** The page always carries the vNext marker, the image twice, and the title
      both as og:title and as the heading, verbatim. */
  lemma FrameHtmlFixedTags(title: string, imageUrl: string, buttons: seq<Button>, postUrl: Option<string>)
    ensures Contains(FrameHtml(title, imageUrl, buttons, postUrl), Meta("fc:frame", "vNext"))
    ensures Contains(FrameHtml(title, imageUrl, buttons, postUrl), Meta("og:image", imageUrl))
    ensures Contains(FrameHtml(title, imageUrl, buttons, postUrl), Meta("fc:frame:image", imageUrl))
    ensures Contains(FrameHtml(title, imageUrl, buttons, postUrl), Meta("og:title", title))
    ensures Contains(FrameHtml(title, imageUrl, buttons, postUrl), "<h1>" + title + "</h1>")
  {
    var parts := PageParts(title, imageUrl, buttons, postUrl);
    ConcatContainsPiece(parts, 1);
    ConcatContainsPiece(parts, 3);
    ConcatContainsPiece(parts, 5);
    ConcatContainsPiece(parts, 7);
    ConcatContainsPiece(parts, 13);
  }

  /** Every button's label, action and (non-empty) target appear verbatim
      under the button's 1-based number. */
  lemma FrameHtmlButtons(title: string, imageUrl: string, buttons: seq<Button>, postUrl: Option<string>, i: int)
    requires 0 <= i < |buttons|
    ensures Contains(FrameHtml(title, imageUrl, buttons, postUrl),
                     Meta(ButtonProperty(i + 1), buttons[i].text))
    ensures Contains(FrameHtml(title, imageUrl, buttons, postUrl),
                     Meta(ButtonProperty(i + 1) + ":action", ActionOf(buttons[i])))
    ensures Truthy(buttons[i].target) ==>
              Contains(FrameHtml(title, imageUrl, buttons, postUrl),
                       Meta(ButtonProperty(i + 1) + ":target", buttons[i].target.value))
  {
    var page := FrameHtml(title, imageUrl, buttons, postUrl);
    var block := ButtonTag(buttons[i], i + 1);
    ConcatContainsPiece(PageParts(title, imageUrl, buttons, postUrl), 9);
    JoinContains(ButtonBlocks(buttons), "\n", i);
    ContainsTrans(page, ButtonTags(buttons), block);
    var bp := ButtonParts(buttons[i], i + 1);
    ConcatContainsPiece(bp, 0);
    ConcatContainsPiece(bp, 2);
    ConcatContainsPiece(bp, 4);
    ContainsTrans(page, block, bp[0]);
    ContainsTrans(page, block, bp[2]);
    ContainsTrans(page, block, bp[4]);
  }

  /** A non-empty post URL is emitted as the `fc:frame:post_url` tag;
      without one, the line before `</head>` is left blank. */
  lemma FrameHtmlPostUrl(title: string, imageUrl: string, buttons: seq<Button>, postUrl: Option<string>)
    ensures Truthy(postUrl) ==>
              Contains(FrameHtml(title, imageUrl, buttons, postUrl), Meta("fc:frame:post_url", postUrl.value))
    ensures !Truthy(postUrl) ==>
              Contains(FrameHtml(title, imageUrl, buttons, postUrl), "\n  " + "\n</head>\n<body>\n  ")
  {
    var parts := PageParts(title, imageUrl, buttons, postUrl);
    if Truthy(postUrl) {
      ConcatContainsPiece(parts, 11);
    } else {
      BlankLineBeforeHead(parts);
    }
  }

  /** Pieces 10 to 12 of an empty post-URL slot leave the indentation line
      directly before `</head>`. */
  lemma BlankLineBeforeHead(parts: seq<string>)
    requires |parts| >= 13
    requires parts[10] == "\n  " && parts[11] == "" && parts[12] == "\n</head>\n<body>\n  "
    ensures Contains(Concat(parts), "\n  " + "\n</head>\n<body>\n  ")
  {
    ConcatContains(parts, 10, 13);
    assert parts[10..13] == [parts[10], parts[11], parts[12]];
    Concat3(parts[10], parts[11], parts[12]);
    assert parts[10] + parts[11] == parts[10];
  }

  lemma Concat3(a: string, b: string, c: string)
    ensures Concat([a, b, c]) == a + b + c
  {
    assert [a, b, c][..2] == [a, b];
    assert [a, b][..1] == [a];
    assert [a][..0] == [];
    assert Concat([a]) == "" + a == a;
  }
}

=== FILE: markets.dfy ===
/** The market catalogue route: the status classes used by the listing, the
    vote split, the pagination arithmetic, the slug derived from a question and
    the linear probe that makes it unique. */
module Markets {
  import opened Domain
  import opened Text

  // ---------------------------------------------------------------- status

  /** The `status` query parameter, after the handler's string comparisons. */
  datatype StatusFilter = ActiveOnly | ResolvedOnly | ExpiredOnly | Unfiltered

  function ParseStatus(status: Option<string>): (f: StatusFilter)
    ensures f == ActiveOnly <==> status == Some("active")
    ensures f == ResolvedOnly <==> status == Some("resolved")
    ensures f == ExpiredOnly <==> status == Some("expired")
  {
    if status == Some("active") then ActiveOnly
    else if status == Some("resolved") then ResolvedOnly
    else if status == Some("expired") then ExpiredOnly
    else Unfiltered
  }

  predicate IsActive(m: Market, now: Time) {
    m.expiresAt > now && m.resolvedAt.None?
  }

  predicate IsResolved(m: Market) {
    m.resolvedAt.Some?
  }

  predicate IsExpired(m: Market, now: Time) {
    m.expiresAt <= now && m.resolvedAt.None?
  }

  /** The `where` clause the listing builds for a filter. */
  predicate Selects(f: StatusFilter, m: Market, now: Time) {
    match f
    case ActiveOnly => IsActive(m, now)
    case ResolvedOnly => IsResolved(m)
    case ExpiredOnly => IsExpired(m, now)
    case Unfiltered => true
  }

  /** Every market is in exactly one of the three classes. */
  lemma StatusClassesPartition(m: Market, now: Time)
    ensures IsActive(m, now) || IsResolved(m) || IsExpired(m, now)
    ensures !(IsActive(m, now) && IsResolved(m))
    ensures !(IsActive(m, now) && IsExpired(m, now))
    ensures !(IsResolved(m) && IsExpired(m, now))
  {
  }

  /** Any status other than the three names selects every market. */
  lemma OtherStatusSelectsAll(status: Option<string>, m: Market, now: Time)
    requires status != Some("active") && status != Some("resolved") && status != Some("expired")
    ensures Selects(ParseStatus(status), m, now)
  {
  }

  function FilterMarkets(ms: seq<Market>, f: StatusFilter, now: Time): (r: seq<Market>)
    ensures |r| <= |ms|
    ensures forall m :: m in r <==> m in ms && Selects(f, m, now)
  {
    if ms == [] then []
    else FilterMarkets(ms[..|ms| - 1], f, now)
         + (if Selects(f, ms[|ms| - 1], now) then [ms[|ms| - 1]] else [])
  }

  // ------------------------------------------------------------ vote split

  datatype VoteSplit = VoteSplit(optionA: nat, optionB: nat, total: nat)

  function CountChoice(ps: seq<Prediction>, c: PredictionChoice): (n: nat)
    ensures n <= |ps|
  {
    if ps == [] then 0
    else CountChoice(ps[..|ps| - 1], c) + (if ps[|ps| - 1].choice == c then 1 else 0)
  }

  /** The `voteSplit` attached to a market from its predictions. */
  function SplitVotes(ps: seq<Prediction>): (v: VoteSplit)
    ensures v.optionA == CountChoice(ps, ChoiceA) && v.optionB == CountChoice(ps, ChoiceB)
    ensures v.total == v.optionA + v.optionB
  {
    var a := CountChoice(ps, ChoiceA);
    var b := CountChoice(ps, ChoiceB);
    VoteSplit(a, b, a + b)
  }

  /** Only the two binary choices are counted, so the total never exceeds the
      number of predictions, and it falls short by exactly the predictions
      with any other choice. */
  lemma {:induction false} VoteTotalBound(ps: seq<Prediction>)
    ensures SplitVotes(ps).total + CountChoice(ps, MultipleChoice) == |ps|
    ensures SplitVotes(ps).total <= |ps|
  {
    if ps != [] {
      VoteTotalBound(ps[..|ps| - 1]);
    }
  }

  /** The positions of the predictions with choice `c`. */
  ghost function ChoosersOf(ps: seq<Prediction>, c: PredictionChoice): set<nat> {
    set i: nat | i < |ps| && ps[i].choice == c
  }

  /** `CountChoice` counts exactly the predictions with that choice. */
  lemma {:induction false} CountChoiceIsSize(ps: seq<Prediction>, c: PredictionChoice)
    ensures CountChoice(ps, c) == |ChoosersOf(ps, c)|
  {
    if ps != [] {
      var n := |ps| - 1;
      var init := ps[..n];
      CountChoiceIsSize(init, c);
      var last: set<nat> := if ps[n].choice == c then {n} else {};
      forall i: nat
        ensures i in ChoosersOf(ps, c) <==> i in ChoosersOf(init, c) + last
      {
        if i < n {
          assert ps[i] == init[i];
        }
      }
      assert ChoosersOf(ps, c) == ChoosersOf(init, c) + last;
    }
  }

  function PredictionsOf(ps: seq<Prediction>, id: MarketId): (r: seq<Prediction>)
    ensures |r| <= |ps|
    ensures forall p :: p in r <==> p in ps && p.marketId == id
  {
    if ps == [] then []
    else PredictionsOf(ps[..|ps| - 1], id)
         + (if ps[|ps| - 1].marketId == id then [ps[|ps| - 1]] else [])
  }

  // ------------------------------------------------------------ pagination

  datatype Pagination = Pagination(page: int, limit: int, total: nat, pages: nat)

  /** The offset of a page, `(page - 1) * limit`, by repeated addition; pages
      start at 1. */
  function Skip(page: int, limit: nat): (s: nat)
    decreases page
  {
    if page <= 1 then 0 else Skip(page - 1, limit) + limit
  }

  lemma {:induction false} SkipIsOffset(page: int, limit: nat)
    requires page >= 1
    ensures Skip(page, limit) == (page - 1) * limit
    decreases page
  {
    if page > 1 {
      SkipIsOffset(page - 1, limit);
    }
  }

  /** `Math.ceil(total / limit)`. */
  function PageCount(total: nat, limit: int): (pages: nat)
    requires limit >= 1
    ensures (pages - 1) * limit < total <= pages * limit || (total == 0 && pages == 0)
  {
    (total + limit - 1) / limit
  }

  /** Prisma's `skip`/`take`: the items after the first `skip`, at most `take` of them. */
  function Window<T>(xs: seq<T>, skip: nat, take: nat): (r: seq<T>)
    ensures |r| <= take
    ensures skip <= |xs| ==> |r| == if |xs| - skip < take then |xs| - skip else take
    ensures forall i :: 0 <= i < |r| ==> skip + i < |xs| && r[i] == xs[skip + i]
  {
    if skip >= |xs| then []
    else if |xs| - skip <= take then xs[skip..]
    else xs[skip..skip + take]
  }

  function Reverse<T>(xs: seq<T>): (r: seq<T>)
    ensures |r| == |xs|
    ensures forall i :: 0 <= i < |xs| ==> r[i] == xs[|xs| - 1 - i]
  {
    if xs == [] then [] else [xs[|xs| - 1]] + Reverse(xs[..|xs| - 1])
  }

  /** `orderBy: { createdAt: 'desc' }, skip, take: limit` over a history kept
      in creation order: the page starts `Skip(page, limit)` entries from the
      newest and runs towards older ones, as many as remain up to `limit`. */
  function NewestFirstPage<T>(m: seq<T>, page: int, limit: nat): (r: seq<T>)
    ensures |r| == if |m| <= Skip(page, limit) then 0
                   else if |m| - Skip(page, limit) < limit then |m| - Skip(page, limit)
                   else limit
    ensures forall i :: 0 <= i < |r| ==>
              Skip(page, limit) + i < |m| && r[i] == m[|m| - 1 - (Skip(page, limit) + i)]
  {
    Window(Reverse(m), Skip(page, limit), limit)
  }

  datatype MarketView = MarketView(market: Market, voteSplit: VoteSplit)

  datatype MarketPage = MarketPage(markets: seq<MarketView>, pagination: Pagination)

  /** GET /api/markets: the filtered markets, newest first, one page of them,
      each with its vote split, and the page arithmetic over all matches.
      The store keeps markets in creation order. */
  function ListMarkets(ms: seq<Market>, ps: seq<Prediction>, status: Option<string>,
                       page: int, limit: int, now: Time): (r: MarketPage)
    requires page >= 1 && limit >= 1
    ensures |r.markets| <= limit
    ensures r.pagination == Pagination(page, limit,
                                       |FilterMarkets(ms, ParseStatus(status), now)|,
                                       PageCount(|FilterMarkets(ms, ParseStatus(status), now)|, limit))
    ensures forall i :: 0 <= i < |r.markets| ==>
              r.markets[i].market in ms
              && Selects(ParseStatus(status), r.markets[i].market, now)
              && r.markets[i].voteSplit == SplitVotes(PredictionsOf(ps, r.markets[i].market.id))
    ensures |r.markets| == |NewestFirstPage(FilterMarkets(ms, ParseStatus(status), now), page, limit)|
    ensures forall i :: 0 <= i < |r.markets| ==>
              r.markets[i].market == NewestFirstPage(FilterMarkets(ms, ParseStatus(status), now), page, limit)[i]
  {
    var matching := FilterMarkets(ms, ParseStatus(status), now);
    var window := NewestFirstPage(matching, page, limit);
    var views := seq(|window|, i requires 0 <= i < |window| =>
                       MarketView(window[i], SplitVotes(PredictionsOf(ps, window[i].id))));
    MarketPage(views, Pagination(page, limit, |matching|, PageCount(|matching|, limit)))
  }

  /** The listings' `page` and `limit` as the handlers read them, with the
      defaults "1" and "10". `None` when either reads as NaN, the page is
      below 1 or the limit below 1: answers this model does not give. */
  function Paging(pageParam: Option<string>, limitParam: Option<string>): (r: Option<(int, int)>)
    ensures r.Some? <==> && QueryInt(pageParam, "1").Some? && QueryInt(pageParam, "1").value >= 1
                         && QueryInt(limitParam, "10").Some? && QueryInt(limitParam, "10").value >= 1
    ensures r.Some? ==> r.value == (QueryInt(pageParam, "1").value, QueryInt(limitParam, "10").value)
  {
    var page, limit := QueryInt(pageParam, "1"), QueryInt(limitParam, "10");
    if page.Some? && page.value >= 1 && limit.Some? && limit.value >= 1
    then Some((page.value, limit.value))
    else None
  }

  /** GET /api/markets from its query string. */
  function ListMarketsQuery(ms: seq<Market>, ps: seq<Prediction>, status: Option<string>,
                            pageParam: Option<string>, limitParam: Option<string>, now: Time)
    : (r: Option<MarketPage>)
    ensures r.Some? <==> Paging(pageParam, limitParam).Some?
    ensures r.Some? ==>
              r.value == ListMarkets(ms, ps, status, Paging(pageParam, limitParam).value.0,
                                     Paging(pageParam, limitParam).value.1, now)
  {
    match Paging(pageParam, limitParam)
    case None => None
    case Some((page, limit)) => Some(ListMarkets(ms, ps, status, page, limit, now))
  }

  /** Without `page` the listing shows the first page; without `limit` ten
      markets. */
  lemma ListMarketsDefaults(ms: seq<Market>, ps: seq<Prediction>, status: Option<string>, now: Time)
    ensures ListMarketsQuery(ms, ps, status, None, None, now) == Some(ListMarkets(ms, ps, status, 1, 10, now))
  {
    QueryDefaults(None);
  }

  /** Without a `page`, a decimal `limit` of at least one asks for the first
      page of that many markets. */
  lemma ListMarketsFirstPage(ms: seq<Market>, ps: seq<Prediction>, status: Option<string>,
                             d: string, now: Time)
    requires d != [] && AllDigits(d) && DigitsValue(d) >= 1
    ensures ListMarketsQuery(ms, ps, status, None, Some(d), now)
            == Some(ListMarkets(ms, ps, status, 1, DigitsValue(d), now))
  {
    QueryDefaults(None);
    QueryDigits(d, "10");
  }

  /** The markets page asks for `?status=..&limit=20`: the first page of
      twenty. */
  lemma MarketsPageQuery(ms: seq<Market>, ps: seq<Prediction>, status: Option<string>, now: Time)
    ensures ListMarketsQuery(ms, ps, status, None, Some("20"), now)
            == Some(ListMarkets(ms, ps, status, 1, 20, now))
  {
    assert DigitsValue("20") == 20;
    ListMarketsFirstPage(ms, ps, status, "20", now);
  }

  /** Stored in creation order, so the creation stamps never decrease. */
  predicate MarketsChronological(ms: seq<Market>) {
    forall i, j :: 0 <= i < j < |ms| ==> ms[i].createdAt <= ms[j].createdAt
  }

  lemma {:induction false} FilterMarketsChronological(ms: seq<Market>, f: StatusFilter, now: Time)
    requires MarketsChronological(ms)
    ensures MarketsChronological(FilterMarkets(ms, f, now))
  {
    if ms != [] {
      var init := ms[..|ms| - 1];
      assert MarketsChronological(init);
      FilterMarketsChronological(init, f, now);
      var r := FilterMarkets(init, f, now);
      forall i | 0 <= i < |r|
        ensures r[i].createdAt <= ms[|ms| - 1].createdAt
      {
        assert r[i] in init;
      }
    }
  }

  /** The entries never go back in time by `key`. */
  predicate Ascending<T>(m: seq<T>, key: T -> Time) {
    forall i, j :: 0 <= i < j < |m| ==> key(m[i]) <= key(m[j])
  }

  /** A page of a history in creation order, listed newest first, runs from
      newer to older. */
  lemma NewestFirstDescending<T>(m: seq<T>, key: T -> Time, page: int, limit: nat)
    requires Ascending(m, key)
    ensures forall i, j :: 0 <= i < j < |NewestFirstPage(m, page, limit)| ==>
              key(NewestFirstPage(m, page, limit)[i]) >= key(NewestFirstPage(m, page, limit)[j])
  {
    var w, skip := NewestFirstPage(m, page, limit), Skip(page, limit);
    forall i, j | 0 <= i < j < |w|
      ensures key(w[i]) >= key(w[j])
    {
      var older, newer := |m| - 1 - (skip + j), |m| - 1 - (skip + i);
      assert w[i] == m[newer] && w[j] == m[older];
      assert 0 <= older < newer < |m|;
    }
  }

  function MarketCreated(m: Market): Time {
    m.createdAt
  }

  /** With the table in creation order, the listing comes out newest first. */
  lemma ListMarketsNewestFirst(ms: seq<Market>, ps: seq<Prediction>, status: Option<string>,
                               page: int, limit: int, now: Time)
    requires page >= 1 && limit >= 1
    requires MarketsChronological(ms)
    ensures forall i, j :: 0 <= i < j < |ListMarkets(ms, ps, status, page, limit, now).markets| ==>
              ListMarkets(ms, ps, status, page, limit, now).markets[i].market.createdAt
              >= ListMarkets(ms, ps, status, page, limit, now).markets[j].market.createdAt
  {
    var matching := FilterMarkets(ms, ParseStatus(status), now);
    FilterMarketsChronological(ms, ParseStatus(status), now);
    assert Ascending(matching, MarketCreated);
    NewestFirstDescending(matching, MarketCreated, page, limit);
  }

  // -------------------------------------------------------------- creation

  /** The body of POST /api/markets; an absent field is `None`. */
  datatype CreateMarketRequest = CreateMarketRequest(
    question: Option<string>,
    description: Option<string>,
    optionA: Option<string>,
    optionB: Option<string>,
    expiresAt: Option<Time>)

  /** `!question || !optionA || !optionB || !expiresAt`. */
  predicate MissingFields(req: CreateMarketRequest) {
    !Truthy(req.question) || !Truthy(req.optionA) || !Truthy(req.optionB) || req.expiresAt.None?
  }

  // ------------------------------------------------------------------ slug

  /** The characters `[a-z0-9\s-]` keeps. */
  predicate Kept(c: char) {
    ('a' <= c <= 'z') || ('0' <= c <= '9') || IsSpace(c) || c == '-'
  }

  /** The characters a slug is made of. */
  predicate IsSlugChar(c: char) {
    ('a' <= c <= 'z') || ('0' <= c <= '9') || c == '-'
  }

  predicate IsSlug(s: string) {
    forall i :: 0 <= i < |s| ==> IsSlugChar(s[i])
  }

  lemma SlugCharNotSpace(c: char)
    requires IsSlugChar(c)
    ensures !IsSpace(c)
  {
  }

  const MaxSlugLength := 50

  function ToLower(c: char): (r: char)
    ensures 'A' <= c <= 'Z' ==> r as int == c as int + 32
    ensures !('A' <= c <= 'Z') ==> r == c
  {
    if 'A' <= c <= 'Z' then (c as int + 32) as char else c
  }

  function Lowercase(s: string): (r: string)
    ensures |r| == |s|
    ensures forall i :: 0 <= i < |s| ==> r[i] == ToLower(s[i])
  {
    seq(|s|, i requires 0 <= i < |s| => ToLower(s[i]))
  }

  /** `.replace(/[^a-z0-9\s-]/g, '')`. */
  function StripDisallowed(s: string): (r: string)
    ensures |r| <= |s|
    ensures forall i :: 0 <= i < |r| ==> Kept(r[i])
  {
    if s == [] then []
    else StripDisallowed(s[..|s| - 1]) + (if Kept(s[|s| - 1]) then [s[|s| - 1]] else [])
  }

  lemma {:induction false} DropSpacesSuffix(s: string)
    ensures DropSpaces(s) == s[|s| - |DropSpaces(s)|..]
  {
    if s != [] && IsSpace(s[0]) {
      DropSpacesSuffix(s[1..]);
    }
  }

  /** `.replace(/\s+/g, '-')`: each maximal whitespace run becomes one '-'. */
  function Hyphenate(s: string): (r: string)
    ensures |r| <= |s|
    decreases |s|
  {
    if s == [] then []
    else if IsSpace(s[0]) then "-" + Hyphenate(DropSpaces(s[1..]))
    else [s[0]] + Hyphenate(s[1..])
  }

  /** `.substring(0, n)`. */
  function Truncate(s: string, n: nat): (r: string)
    ensures |r| <= n && |r| <= |s|
    ensures r == s[..|r|]
    ensures |s| <= n ==> r == s
  {
    if |s| <= n then s else s[..n]
  }

  /** The slug derived from a question, before the uniqueness probe. */
  function BaseSlug(question: string): (slug: string)
    ensures |slug| <= MaxSlugLength
  {
    Truncate(Hyphenate(StripDisallowed(Lowercase(question))), MaxSlugLength)
  }

  /** `replace(/\s+/g, '-')` leaves no whitespace behind. */
  lemma {:induction false} HyphenateNoSpace(s: string)
    ensures forall i :: 0 <= i < |Hyphenate(s)| ==> !IsSpace(Hyphenate(s)[i])
    decreases |s|
  {
    if s != [] {
      if IsSpace(s[0]) {
        HyphenateNoSpace(DropSpaces(s[1..]));
      } else {
        HyphenateNoSpace(s[1..]);
      }
    }
  }

  /** Hyphenate turns kept characters into slug characters. */
  lemma {:induction false} HyphenateKept(s: string)
    requires forall i :: 0 <= i < |s| ==> Kept(s[i])
    ensures IsSlug(Hyphenate(s))
    decreases |s|
  {
    if s != [] {
      if IsSpace(s[0]) {
        DropSpacesSuffix(s[1..]);
        HyphenateKept(DropSpaces(s[1..]));
      } else {
        HyphenateKept(s[1..]);
      }
    }
  }

  /** A slug contains only `[a-z0-9-]` and has at most 50 characters. */
  lemma BaseSlugIsSlug(question: string)
    ensures IsSlug(BaseSlug(question))
    ensures |BaseSlug(question)| <= MaxSlugLength
  {
    HyphenateKept(StripDisallowed(Lowercase(question)));
  }

  /** A run of whitespace becomes a single hyphen. */
  lemma HyphenateRun(w: string)
    requires w != [] && AllSpaces(w)
    ensures Hyphenate(w) == "-"
  {
    DropSpacesAppendAll(w[1..], []);
    assert w[1..] + [] == w[1..];
  }

  predicate AllSpaces(s: string) {
    forall i :: 0 <= i < |s| ==> IsSpace(s[i])
  }

  lemma {:induction false} DropSpacesAppendAll(a: string, b: string)
    requires AllSpaces(a)
    ensures DropSpaces(a + b) == DropSpaces(b)
  {
    if a != [] {
      assert (a + b)[0] == a[0];
      assert (a + b)[1..] == a[1..] + b;
      DropSpacesAppendAll(a[1..], b);
    } else {
      assert a + b == b;
    }
  }

  lemma {:induction false} DropSpacesAppendSome(a: string, b: string)
    requires !AllSpaces(a)
    ensures DropSpaces(a + b) == DropSpaces(a) + b
  {
    assert a != [];
    assert (a + b)[0] == a[0];
    if IsSpace(a[0]) {
      assert (a + b)[1..] == a[1..] + b;
      assert !AllSpaces(a[1..]) by {
        var i :| 0 <= i < |a| && !IsSpace(a[i]);
        assert a[1..][i - 1] == a[i];
      }
      DropSpacesAppendSome(a[1..], b);
    }
  }

  lemma HyphenateSpaceStep(a: string, b: string)
    requires a != [] && IsSpace(a[0])
    ensures Hyphenate(a + b) == "-" + Hyphenate(DropSpaces(a[1..] + b))
    ensures Hyphenate(a) == "-" + Hyphenate(DropSpaces(a[1..]))
  {
    assert (a + b)[0] == a[0];
    assert (a + b)[1..] == a[1..] + b;
  }

  lemma AllSpacesSeam(t: string, b: string)
    requires AllSpaces(t) && b != [] && !IsSpace(b[0])
    ensures DropSpaces(t + b) == b && DropSpaces(t) == []
  {
    DropSpacesAppendAll(t, b);
    DropSpacesAppendAll(t, []);
    assert t + [] == t;
  }

  lemma DropSpacesLast(t: string)
    requires !AllSpaces(t)
    ensures DropSpaces(t) != [] && DropSpaces(t)[|DropSpaces(t)| - 1] == t[|t| - 1]
  {
    DropSpacesAppendSome(t, []);
    assert t + [] == t;
  }

  /** Hyphenation works run by run: it distributes over a concatenation
      whose seam does not fall inside a whitespace run. */
  lemma {:induction false} HyphenateAppend(a: string, b: string)
    requires a == [] || b == [] || !IsSpace(a[|a| - 1]) || !IsSpace(b[0])
    ensures Hyphenate(a + b) == Hyphenate(a) + Hyphenate(b)
    decreases |a|, 2
  {
    if a == [] {
      assert a + b == b;
    } else if b == [] {
      assert a + b == a;
    } else if !IsSpace(a[0]) {
      HyphenateAppendKept(a, b);
    } else {
      HyphenateAppendSpace(a, b);
    }
  }

  lemma {:induction false} HyphenateAppendKept(a: string, b: string)
    requires a != [] && b != [] && !IsSpace(a[0])
    requires !IsSpace(a[|a| - 1]) || !IsSpace(b[0])
    ensures Hyphenate(a + b) == Hyphenate(a) + Hyphenate(b)
    decreases |a|, 1
  {
    var t := a[1..];
    var x, y, z := Hyphenate(t + b), Hyphenate(t), Hyphenate(b);
    assert Hyphenate(a + b) == [a[0]] + x by {
      assert a + b == [a[0]] + (t + b);
      HyphenateCons(a[0], t + b);
    }
    assert Hyphenate(a) == [a[0]] + y by {
      assert a == [a[0]] + t;
      HyphenateCons(a[0], t);
    }
    assert x == y + z by {
      assert t == [] || t[|t| - 1] == a[|a| - 1];
      HyphenateAppend(t, b);
    }
    assert [a[0]] + (y + z) == ([a[0]] + y) + z;
  }

  lemma {:induction false} HyphenateAppendSpace(a: string, b: string)
    requires a != [] && b != [] && IsSpace(a[0])
    requires !IsSpace(a[|a| - 1]) || !IsSpace(b[0])
    ensures Hyphenate(a + b) == Hyphenate(a) + Hyphenate(b)
    decreases |a|, 1
  {
    var t := a[1..];
    var x, y, z := Hyphenate(DropSpaces(t + b)), Hyphenate(DropSpaces(t)), Hyphenate(b);
    assert Hyphenate(a + b) == "-" + x && Hyphenate(a) == "-" + y by {
      HyphenateSpaceStep(a, b);
    }
    assert x == y + z by {
      if AllSpaces(t) {
        assert t == [] || a[|a| - 1] == t[|t| - 1];
        HyphenateWholeRun(t, b);
      } else {
        assert t[|t| - 1] == a[|a| - 1];
        HyphenateAfterRun(t, b);
      }
    }
    assert "-" + (y + z) == ("-" + y) + z;
  }

  /** When all of `t` is whitespace, `b` starts right after the run. */
  lemma HyphenateWholeRun(t: string, b: string)
    requires AllSpaces(t) && b != [] && !IsSpace(b[0])
    ensures Hyphenate(DropSpaces(t + b)) == Hyphenate(DropSpaces(t)) + Hyphenate(b)
  {
    AllSpacesSeam(t, b);
    assert Hyphenate(DropSpaces(t)) == [];
  }

  /** After a leading run that is not all of `t`, the rest distributes. */
  lemma {:induction false} HyphenateAfterRun(t: string, b: string)
    requires !AllSpaces(t) && b != [] && (!IsSpace(t[|t| - 1]) || !IsSpace(b[0]))
    ensures Hyphenate(DropSpaces(t + b)) == Hyphenate(DropSpaces(t)) + Hyphenate(b)
    decreases |t| + 1, 0
  {
    var d := DropSpaces(t);
    DropSpacesAppendSome(t, b);
    DropSpacesLast(t);
    HyphenateAppend(d, b);
  }

  lemma {:induction false} LowercaseSlug(s: string)
    requires IsSlug(s)
    ensures Lowercase(s) == s
  {
  }

  lemma {:induction false} StripSlug(s: string)
    requires IsSlug(s)
    ensures StripDisallowed(s) == s
  {
    if s != [] {
      StripSlug(s[..|s| - 1]);
      SplitLast(s);
    }
  }

  lemma {:induction false} HyphenateSlug(s: string)
    requires IsSlug(s)
    ensures Hyphenate(s) == s
  {
    if s != [] {
      assert !IsSpace(s[0]);
      HyphenateSlug(s[1..]);
    }
  }

  /** Deriving a slug from a slug changes nothing. */
  lemma BaseSlugIdempotent(question: string)
    ensures BaseSlug(BaseSlug(question)) == BaseSlug(question)
  {
    var s := BaseSlug(question);
    BaseSlugIsSlug(question);
    LowercaseSlug(s);
    StripSlug(s);
    HyphenateSlug(s);
  }

  // ------------------------------------------------------- unique-slug probe

  /** The k-th probe: the base slug, a hyphen, and the counter. */
  function Candidate(base: string, k: nat): (s: string)
    ensures |s| > |base| + 1 && s[..|base| + 1] == base + "-"
    ensures s[|base| + 1..] == NatToString(k)
  {
    base + "-" + NatToString(k)
  }

  /** Distinct counters give distinct probes. */
  lemma CandidateInjective(base: string, j: nat, k: nat)
    ensures Candidate(base, j) == Candidate(base, k) ==> j == k
  {
    if Candidate(base, j) == Candidate(base, k) {
      NatToStringInjective(j, k);
    }
  }

  /** What the probe loop settles on: the base slug when it is free, and
      otherwise `base-k` for the smallest free k >= 1. */
  ghost predicate ProbeResult(base: string, existing: set<string>, s: string) {
    && s !in existing
    && (base !in existing ==> s == base)
    && (base in existing ==>
          exists k: nat :: 1 <= k && s == Candidate(base, k)
                           && forall j: nat :: 1 <= j < k ==> Candidate(base, j) in existing)
  }

  /** `s` is a probe `base-k` for some k < n. */
  ghost predicate ProbedBelow(base: string, s: string, n: nat) {
    && |s| > |base| + 1
    && s[..|base| + 1] == base + "-"
    && AllDigits(s[|base| + 1..])
    && DigitsValue(s[|base| + 1..]) < n
  }

  lemma CandidateProbedBelow(base: string, k: nat, n: nat)
    ensures ProbedBelow(base, Candidate(base, k), n) <==> k < n
  {
    DigitsValueOfNatToString(k);
  }

  /** The unique-slug loop: keep appending `-counter` to the base slug while the
      store already has the slug. */
  method UniqueSlug(base: string, existing: set<string>) returns (finalSlug: string)
    ensures ProbeResult(base, existing, finalSlug)
  {
    finalSlug := base;
    var counter: nat := 1;
    // the probes already seen taken, kept to bound the number of rounds
    ghost var taken: set<string> := {};
    while finalSlug in existing
      invariant counter >= 1
      invariant finalSlug == if counter == 1 then base else Candidate(base, counter - 1)
      invariant forall j: nat :: 1 <= j < counter - 1 ==> Candidate(base, j) in existing
      invariant counter > 1 ==> base in existing
      invariant taken <= existing
      invariant forall s :: s in taken ==> ProbedBelow(base, s, counter - 1)
      decreases existing - taken, if counter == 1 then 1 else 0
    {
      if counter > 1 {
        assert finalSlug !in taken by {
          CandidateProbedBelow(base, counter - 1, counter - 1);
        }
        assert ProbedBelow(base, finalSlug, counter) by {
          CandidateProbedBelow(base, counter - 1, counter);
        }
        taken := taken + {finalSlug};
      }
      finalSlug := Candidate(base, counter);
      counter := counter + 1;
    }
    if counter > 1 {
      ghost var k: nat := counter - 1;
      assert 1 <= k && finalSlug == Candidate(base, k)
             && forall j: nat :: 1 <= j < k ==> Candidate(base, j) in existing;
    }
  }

  lemma {:induction false} StripAppend(a: string, b: string)
    ensures StripDisallowed(a + b) == StripDisallowed(a) + StripDisallowed(b)
    decreases |b|
  {
    if b == [] {
      assert a + b == a;
    } else {
      var b' := b[..|b| - 1];
      assert (a + b)[..|a + b| - 1] == a + b';
      StripAppend(a, b');
    }
  }

  /** A disallowed character is deleted and an allowed one kept; with
      `StripAppend` this fixes the result for every input. */
  lemma StripOne(c: char)
    ensures StripDisallowed([c]) == if Kept(c) then [c] else []
  {
    assert [c][..0] == [];
  }

  lemma {:induction false} StripAllKept(s: string)
    requires forall i :: 0 <= i < |s| ==> Kept(s[i])
    ensures StripDisallowed(s) == s
  {
    if s != [] {
      StripAllKept(s[..|s| - 1]);
      SplitLast(s);
    }
  }

  /** A whitespace run between two words becomes exactly one hyphen. */
  lemma HyphenateRunBetween(a: string, w: string, b: string)
    requires a != [] && !IsSpace(a[|a| - 1]) && b != [] && !IsSpace(b[0])
    requires w != [] && AllSpaces(w)
    ensures Hyphenate(a + w + b) == Hyphenate(a) + "-" + Hyphenate(b)
  {
    calc {
      Hyphenate(a + w + b);
      { assert a + w + b == a + (w + b); }
      Hyphenate(a + (w + b));
      { HyphenateAppend(a, w + b); }
      Hyphenate(a) + Hyphenate(w + b);
      { HyphenateRun(w); HyphenateAppend(w, b); }
      Hyphenate(a) + ("-" + Hyphenate(b));
      Hyphenate(a) + "-" + Hyphenate(b);
    }
  }

  lemma HyphenateCons(c: char, t: string)
    requires !IsSpace(c)
    ensures Hyphenate([c] + t) == [c] + Hyphenate(t)
  {
    assert ([c] + t)[1..] == t;
  }

  lemma HyphenateSpaceCons(c: char, t: string)
    requires IsSpace(c) && (t == [] || !IsSpace(t[0]))
    ensures Hyphenate([c] + t) == "-" + Hyphenate(t)
  {
    assert ([c] + t)[1..] == t;
  }

  /** Hyphens already in the question are kept beside the ones that replace
      spaces: "a - b" gives "a---b". */
  lemma HyphensKept(a: string, b: string)
    requires a != [] && b != [] && IsSlug(a) && IsSlug(b)
    ensures Hyphenate(a + " - " + b) == a + "---" + b
  {
    var t1 := [' '] + b;
    var t2 := ['-'] + t1;
    var t3 := [' '] + t2;
    var h1, h2, h3 := ['-'] + b, ['-'] + (['-'] + b), ['-'] + (['-'] + (['-'] + b));
    assert Hyphenate(t1) == h1 by {
      HyphenateSlug(b);
      HyphenateSpaceCons(' ', b);
    }
    assert Hyphenate(t2) == h2 by {
      HyphenateCons('-', t1);
    }
    assert Hyphenate(t3) == h3 by {
      assert t2[0] == '-';
      HyphenateSpaceCons(' ', t2);
    }
    assert Hyphenate(a + t3) == a + h3 by {
      HyphenateSlug(a);
      SlugCharNotSpace(a[|a| - 1]);
      HyphenateAppend(a, t3);
    }
    SpelledOut(a, b);
  }

  lemma SpelledOut(a: string, b: string)
    ensures a + " - " + b == a + ([' '] + (['-'] + ([' '] + b)))
    ensures a + "---" + b == a + (['-'] + (['-'] + (['-'] + b)))
  {
    assert " - " == [' '] + (['-'] + [' ']);
    assert "---" == ['-'] + (['-'] + ['-']);
  }

  /** The same at the level of the whole slug, for a short enough question. */
  lemma SlugKeepsHyphens(a: string, b: string)
    requires a != [] && b != [] && IsSlug(a) && IsSlug(b)
    requires |a| + |b| + 3 <= MaxSlugLength
    ensures BaseSlug(a + " - " + b) == a + "---" + b
  {
    var q := a + " - " + b;
    assert forall i :: 0 <= i < |q| ==> Kept(q[i]) && !('A' <= q[i] <= 'Z') by {
      forall i | 0 <= i < |q| ensures Kept(q[i]) && !('A' <= q[i] <= 'Z') {
        if i < |a| { assert q[i] == a[i]; }
        else if i >= |a| + 3 { assert q[i] == b[i - |a| - 3]; }
      }
    }
    assert Lowercase(q) == q;
    StripAllKept(q);
    HyphensKept(a, b);
  }
}

=== FILE: pages.dfy ===
/** The presentation helpers of the markets, leaderboard and social pages:
    status badges and captions, vote shares, rank icons, win-rate colours,
    user labels, relative times and activity descriptions. */
module Pages {
  import opened Domain
  import opened Text
  import opened Markets
  import opened Display

  // ------------------------------------------------------------ markets page

  /** `getStatusText`: resolution first, then the expiry date. */
  function StatusText(m: Market, now: Time): (s: string)
    ensures s == "Resolved" <==> IsResolved(m)
    ensures s == "Expired" <==> IsExpired(m, now)
    ensures s == "Active" <==> IsActive(m, now)
  {
    if m.resolvedAt.Some? then "Resolved"
    else if m.expiresAt <= now then "Expired"
    else "Active"
  }

  /** `getStatusColor`: the same three cases as the badge text. */
  function StatusColor(m: Market, now: Time): (c: string)
    ensures c == "bg-green-100 text-green-800" <==> IsResolved(m)
    ensures c == "bg-red-100 text-red-800" <==> IsExpired(m, now)
    ensures c == "bg-blue-100 text-blue-800" <==> IsActive(m, now)
  {
    if m.resolvedAt.Some? then "bg-green-100 text-green-800"
    else if m.expiresAt <= now then "bg-red-100 text-red-800"
    else "bg-blue-100 text-blue-800"
  }

  /** The listing's vote share: 0% (not 50%) before any vote. */
  function ListPercent(votes: int, total: int): (p: int)
    ensures total <= 0 ==> p == 0
    ensures 0 <= votes <= total ==> 0 <= p <= 100
  {
    if total > 0 then RoundPercent(votes, total) else 0
  }

  /** With votes the listing and the share image agree; without, the listing
      shows 0% for both options and the image 50%. */
  lemma ListPercentVsImage(split: VoteSplit)
    requires split.total == split.optionA + split.optionB
    ensures split.total > 0 ==>
              OgPercents(split.optionA, split.optionB)
              == Percents(ListPercent(split.optionA, split.total), ListPercent(split.optionB, split.total))
    ensures split.total <= 0 ==>
              ListPercent(split.optionA, split.total) == 0 && ListPercent(split.optionB, split.total) == 0
              && OgPercents(split.optionA, split.optionB) == Percents(50, 50)
  {
  }

  /** The caption under a market: the time left while it is open, otherwise
      "Expired" and the date (the locale-formatted date is a parameter). The
      page reads the clock twice: `statusNow` decides whether the market is
      open, `timeNow` is the later reading the time left is measured from. */
  function Caption(m: Market, statusNow: Time, timeNow: Time, dateText: string): (s: string)
    ensures IsActive(m, statusNow) ==> s == "Expires in " + TimeLeft(m.expiresAt - timeNow)
    ensures !IsActive(m, statusNow) ==> s == "Expired " + dateText
  {
    if StatusText(m, statusNow) == "Active" then "Expires in " + TimeLeft(m.expiresAt - timeNow)
    else "Expired " + dateText
  }

  /** The caption reads "Expires in Expired" exactly when the market was open
      at the first reading of the clock and has expired by the second. */
  lemma ActiveCaptionShowsTime(m: Market, statusNow: Time, timeNow: Time, dateText: string)
    ensures Caption(m, statusNow, timeNow, dateText) == "Expires in " + "Expired"
            <==> IsActive(m, statusNow) && m.expiresAt <= timeNow
  {
    var c := Caption(m, statusNow, timeNow, dateText);
    if IsActive(m, statusNow) {
      var t := TimeLeft(m.expiresAt - timeNow);
      assert c[11..] == t;
      assert ("Expires in " + "Expired")[11..] == "Expired";
    } else {
      assert c[6] == 'd' != ("Expires in " + "Expired")[6];
    }
  }

  /** `displayName || username || 'Unknown'`. */
  function CreatorLabel(u: User): (s: string)
    ensures Truthy(u.displayName) ==> s == u.displayName.value
    ensures !Truthy(u.displayName) && Truthy(u.username) ==> s == u.username.value
    ensures !Truthy(u.displayName) && !Truthy(u.username) ==> s == "Unknown"
  {
    OrElse(u.displayName, OrElse(u.username, "Unknown"))
  }

  // -------------------------------------------------------- leaderboard page

  /** `getRankIcon`: medals for the podium, otherwise `#` and the number. */
  function RankIcon(rank: int): (s: string)
    ensures rank == 1 ==> s == "\U{1F947}"
    ensures rank == 2 ==> s == "\U{1F948}"
    ensures rank == 3 ==> s == "\U{1F949}"
    ensures rank != 1 && rank != 2 && rank != 3 ==> |s| >= 2 && s[0] == '#' && s[1..] == IntToString(rank)
  {
    if rank == 1 then "\U{1F947}"
    else if rank == 2 then "\U{1F948}"
    else if rank == 3 then "\U{1F949}"
    else "#" + IntToString(rank)
  }

  /** Below the podium the number can be read back from the icon, so distinct
      ranks get distinct icons. */
  lemma RankIconReadBack(rank: nat)
    requires rank >= 4
    ensures AllDigits(RankIcon(rank)[1..])
    ensures DigitsValue(RankIcon(rank)[1..]) == rank
  {
    DigitsValueOfNatToString(rank);
  }

  /** The colour band of a win rate (0 red, 1 orange, 2 yellow, 3 green). */
  function WinRateBand(winRate: real): (b: nat)
    ensures b <= 3
    ensures b == 3 <==> winRate >= 80.0
    ensures b == 0 <==> winRate < 40.0
  {
    if winRate >= 80.0 then 3
    else if winRate >= 60.0 then 2
    else if winRate >= 40.0 then 1
    else 0
  }

  /** `getWinRateColor`. */
  function WinRateColor(winRate: real): (c: string)
    ensures c == "text-green-400" <==> WinRateBand(winRate) == 3
    ensures c == "text-yellow-400" <==> WinRateBand(winRate) == 2
    ensures c == "text-orange-400" <==> WinRateBand(winRate) == 1
    ensures c == "text-red-400" <==> WinRateBand(winRate) == 0
  {
    if winRate >= 80.0 then "text-green-400"
    else if winRate >= 60.0 then "text-yellow-400"
    else if winRate >= 40.0 then "text-orange-400"
    else "text-red-400"
  }

  /** A higher win rate never gets a lower band. */
  lemma WinRateBandMonotone(w1: real, w2: real)
    requires w1 <= w2
    ensures WinRateBand(w1) <= WinRateBand(w2)
  {
  }

  /** `userStat.rank || index + 1`: a missing or zero rank falls back to the
      1-based position. */
  function DisplayRank(rank: Option<int>, index: nat): (r: int)
    ensures rank.Some? && rank.value != 0 ==> r == rank.value
    ensures rank.None? || rank.value == 0 ==> r == index + 1
  {
    if rank.Some? && rank.value != 0 then rank.value else index + 1
  }

  /** Rows ranked by the statistics endpoint show their position's icon. */
  lemma RankedRowsShowPosition(index: nat)
    ensures RankIcon(DisplayRank(Some(index + 1), index)) == RankIcon(index + 1)
    ensures RankIcon(DisplayRank(None, index)) == RankIcon(index + 1)
  {
  }

  /** The first three rows are highlighted. */
  predicate Highlighted(index: nat) {
    index < 3
  }

  /** Every highlighted row shows a medal, whether or not its rank is stored. */
  lemma HighlightedRowsShowMedals(rank: Option<int>, index: nat)
    requires Highlighted(index) && (rank.None? || rank.value == 0 || rank.value == index + 1)
    ensures RankIcon(DisplayRank(rank, index))[0] != '#'
  {
    assert DisplayRank(rank, index) == index + 1;
  }

  /** `displayName || username || \`User ${fid}\``. */
  function UserName(u: User): (s: string)
    ensures Truthy(u.displayName) ==> s == u.displayName.value
    ensures !Truthy(u.displayName) && Truthy(u.username) ==> s == u.username.value
    ensures !Truthy(u.displayName) && !Truthy(u.username) ==> s == "User " + NatToString(u.fid)
  {
    OrElse(u.displayName, OrElse(u.username, "User " + NatToString(u.fid)))
  }

  /** `@` and `username || \`user_${fid}\``. */
  function Handle(u: User): (s: string)
    ensures |s| >= 1 && s[0] == '@'
    ensures Truthy(u.username) ==> s[1..] == u.username.value
    ensures !Truthy(u.username) ==> s[1..] == "user_" + NatToString(u.fid)
  {
    "@" + OrElse(u.username, "user_" + NatToString(u.fid))
  }

  /** Two users without usernames get different handles exactly when their
      Farcaster ids differ. */
  lemma FallbackHandlesDistinct(u: User, v: User)
    requires !Truthy(u.username) && !Truthy(v.username)
    ensures Handle(u) == Handle(v) <==> u.fid == v.fid
  {
    if Handle(u) == Handle(v) {
      assert Handle(u)[6..] == NatToString(u.fid);
      assert Handle(v)[6..] == NatToString(v.fid);
      NatToStringInjective(u.fid, v.fid);
    }
  }

  // ------------------------------------------------------------- social page

  /** `formatTimeAgo`, given `now - date` in milliseconds. */
  function TimeAgo(elapsed: int): (s: string)
    ensures s == "just now" <==> elapsed < MsPerMinute
  {
    var minutes := elapsed / MsPerMinute;
    if minutes < 1 then "just now"
    else
      var s := if minutes < 60 then NatToString(minutes) + "m ago"
               else if minutes < 1440 then NatToString(minutes / 60) + "h ago"
               else NatToString(minutes / 1440) + "d ago";
      assert s[|s| - 1] != "just now"[7];
      s
  }

  /** The hour bucket counts whole hours of the elapsed time. */
  lemma TimeAgoHours(elapsed: int)
    requires MsPerHour <= elapsed < MsPerDay
    ensures TimeAgo(elapsed) == NatToString(elapsed / MsPerHour) + "h ago"
  {
    var q := elapsed / MsPerMinute;
    var h := q / 60;
    assert h * 60 <= q < h * 60 + 60;
    assert q * 60000 <= elapsed < q * 60000 + 60000;
    assert h == elapsed / MsPerHour by {
      assert h * 3600000 <= elapsed < h * 3600000 + 3600000;
    }
  }

  /** From a day on, the day bucket counts whole days. */
  lemma TimeAgoDays(elapsed: int)
    requires elapsed >= MsPerDay
    ensures TimeAgo(elapsed) == NatToString(elapsed / MsPerDay) + "d ago"
  {
    var q := elapsed / MsPerMinute;
    var d := q / 1440;
    assert d * 1440 <= q < d * 1440 + 1440;
    assert q * 60000 <= elapsed < q * 60000 + 60000;
    assert d == elapsed / MsPerDay by {
      assert d * 86400000 <= elapsed < d * 86400000 + 86400000;
    }
  }

  /** Under an hour, whole minutes. */
  lemma TimeAgoMinutes(elapsed: int)
    requires MsPerMinute <= elapsed < MsPerHour
    ensures TimeAgo(elapsed) == NatToString(elapsed / MsPerMinute) + "m ago"
  {
  }

  /** The four activity types the feed knows. */
  predicate KnownActivity(kind: string) {
    kind == "market_created" || kind == "prediction_made"
    || kind == "market_resolved" || kind == "comment_added"
  }

  /** `getActivityIcon`. */
  function ActivityIcon(kind: string): (s: string)
    ensures s == "\U{1F4DD}" <==> !KnownActivity(kind)
  {
    if kind == "market_created" then "\U{1F3AF}"
    else if kind == "prediction_made" then "\U{1F3B2}"
    else if kind == "market_resolved" then "\U{2705}"
    else if kind == "comment_added" then "\U{1F4AC}"
    else "\U{1F4DD}"
  }

  /** `getActivityText`. */
  function ActivityText(kind: string): (s: string)
    ensures s == "performed an action" <==> !KnownActivity(kind)
  {
    if kind == "market_created" then "created a new market"
    else if kind == "prediction_made" then "made a prediction"
    else if kind == "market_resolved" then "resolved a market"
    else if kind == "comment_added" then "commented on"
    else "performed an action"
  }

  /** Icon and text tell the activity types apart: no two known types share
      either. */
  lemma ActivityDistinct(k1: string, k2: string)
    requires KnownActivity(k1) && KnownActivity(k2) && k1 != k2
    ensures ActivityIcon(k1) != ActivityIcon(k2)
    ensures ActivityText(k1) != ActivityText(k2)
  {
  }

  /** The avatar placeholder: `displayName?.charAt(0) || 'U'`. */
  function Initial(u: User): (s: string)
    ensures |s| == 1
    ensures Truthy(u.displayName) ==> s[0] == u.displayName.value[0]
    ensures !Truthy(u.displayName) ==> s == "U"
  {
    if Truthy(u.displayName) then [u.displayName.value[0]] else "U"
  }
}

=== FILE: predictions.dfy ===
/** The prediction route: the guard chain of POST /api/predictions, the
    upsert of the per-user statistics row, the bookkeeping invariant that ties
    those rows to the stored predictions, and the GET listing. */
module Predictions {
  import opened Domain
  import opened Markets
  import opened Text

  // ------------------------------------------------------------- requests

  /** The body of POST /api/predictions; a missing (or empty) field is `None`. */
  datatype PredictionRequest = PredictionRequest(
    marketId: Option<MarketId>,
    choice: Option<string>,
    amount: Option<int>)

  /** `!marketId || !choice || !amount`: zero is a falsy amount. */
  predicate MissingPredictionFields(req: PredictionRequest) {
    req.marketId.None? || !Truthy(req.choice) || req.amount.None? || req.amount.value == 0
  }

  /** `['OPTION_A', 'OPTION_B'].includes(choice)`, as the stored enum value. */
  function ParseChoice(s: string): (c: Option<PredictionChoice>)
    ensures c == Some(ChoiceA) <==> s == "OPTION_A"
    ensures c == Some(ChoiceB) <==> s == "OPTION_B"
    ensures c != Some(MultipleChoice)
    ensures c.Some? ==> ChoiceName(c.value) == s
  {
    if s == "OPTION_A" then Some(ChoiceA)
    else if s == "OPTION_B" then Some(ChoiceB)
    else None
  }

  /** `findUnique` by id. */
  function FindMarket(ms: seq<Market>, id: MarketId): (r: Option<Market>)
    ensures r.Some? ==> r.value in ms && r.value.id == id
    ensures r.None? <==> forall m :: m in ms ==> m.id != id
  {
    if ms == [] then None
    else if ms[0].id == id then Some(ms[0])
    else FindMarket(ms[1..], id)
  }

  /** A stored prediction for the pair (marketId, userId). */
  predicate HasPrediction(ps: seq<Prediction>, marketId: MarketId, userId: UserId) {
    exists i :: 0 <= i < |ps| && ps[i].marketId == marketId && ps[i].userId == userId
  }

  /** At most one prediction per (marketId, userId) pair. */
  predicate UniquePairs(ps: seq<Prediction>) {
    forall i, j :: 0 <= i < j < |ps| ==>
      ps[i].marketId != ps[j].marketId || ps[i].userId != ps[j].userId
  }

  /** The outcome of the guard chain: the first failing check's error, or the
      prediction to insert, stamped `now`, for the default user. */
  function Intake(req: PredictionRequest, ms: seq<Market>, ps: seq<Prediction>,
                  now: Time, defaultUser: Option<UserId>): (r: Response<Prediction>)
    ensures r.Success? ==>
              && r.status == 201
              && req.marketId == Some(r.body.marketId)
              && req.choice == Some(ChoiceName(r.body.choice))
              && req.amount == Some(r.body.amount)
              && defaultUser == Some(r.body.userId)
              && r.body.createdAt == now
    ensures r.Failure? ==> r.status == 400 || r.status == 404
    ensures r.Failure? ==> (r.status == 404 <==> r.error == "Market not found")
    // each guard, in the order the handler tries them, with its own answer
    ensures MissingPredictionFields(req) ==> r == Failure(400, "Missing required fields")
    ensures !MissingPredictionFields(req) ==>
              var choice := ParseChoice(req.choice.value);
              var found := FindMarket(ms, req.marketId.value);
              && (choice.None? ==> r == Failure(400, "Invalid choice"))
              && (choice.Some? && req.amount.value <= 0 ==>
                    r == Failure(400, "Amount must be positive"))
              && (choice.Some? && req.amount.value > 0 && found.None? ==>
                    r == Failure(404, "Market not found"))
              && (choice.Some? && req.amount.value > 0 && found.Some?
                  && found.value.expiresAt <= now ==>
                    r == Failure(400, "Market has expired"))
              && (choice.Some? && req.amount.value > 0 && found.Some?
                  && found.value.expiresAt > now && found.value.resolvedAt.Some? ==>
                    r == Failure(400, "Market has been resolved"))
              && (choice.Some? && req.amount.value > 0 && found.Some?
                  && IsActive(found.value, now) && defaultUser.None? ==>
                    r == Failure(400, "No users found. Please seed the database first."))
              && (choice.Some? && req.amount.value > 0 && found.Some?
                  && IsActive(found.value, now) && defaultUser.Some?
                  && HasPrediction(ps, req.marketId.value, defaultUser.value) ==>
                    r == Failure(400, "User already has a prediction for this market"))
              && (choice.Some? && req.amount.value > 0 && found.Some?
                  && IsActive(found.value, now) && defaultUser.Some?
                  && !HasPrediction(ps, req.marketId.value, defaultUser.value) ==>
                    r == Success(201, Prediction(req.marketId.value, defaultUser.value,
                                                 choice.value, req.amount.value, now)))
  {
    if MissingPredictionFields(req) then Failure(400, "Missing required fields")
    else
      var choice := ParseChoice(req.choice.value);
      var found := FindMarket(ms, req.marketId.value);
      if choice.None? then Failure(400, "Invalid choice")
      else if req.amount.value <= 0 then Failure(400, "Amount must be positive")
      else if found.None? then Failure(404, "Market not found")
      else if found.value.expiresAt <= now then Failure(400, "Market has expired")
      else if found.value.resolvedAt.Some? then Failure(400, "Market has been resolved")
      else if defaultUser.None? then Failure(400, "No users found. Please seed the database first.")
      else if HasPrediction(ps, req.marketId.value, defaultUser.value) then
        Failure(400, "User already has a prediction for this market")
      else Success(201, Prediction(req.marketId.value, defaultUser.value, choice.value,
                                   req.amount.value, now))
  }

  /** A request is accepted exactly when every field is present, the choice is
      one of the two binary options, the amount is positive, the market exists
      and is active, there is a user, and that user has not predicted on the
      market yet. */
  lemma IntakeAccepted(req: PredictionRequest, ms: seq<Market>, ps: seq<Prediction>,
                       now: Time, defaultUser: Option<UserId>)
    ensures Intake(req, ms, ps, now, defaultUser).Success? <==>
              && req.marketId.Some? && req.amount.Some? && req.amount.value > 0
              && (req.choice == Some("OPTION_A") || req.choice == Some("OPTION_B"))
              && (exists m :: m in ms && m.id == req.marketId.value && IsActive(m, now)
                               && FindMarket(ms, req.marketId.value) == Some(m))
              && defaultUser.Some?
              && !HasPrediction(ps, req.marketId.value, defaultUser.value)
  {
    if req.marketId.Some? {
      var found := FindMarket(ms, req.marketId.value);
      if found.Some? {
        assert found.value in ms;
      }
    }
  }

  /** MULTIPLE_CHOICE is never accepted: with the other fields present it is
      reported as an invalid choice. */
  lemma MultipleChoiceRejected(req: PredictionRequest, ms: seq<Market>, ps: seq<Prediction>,
                               now: Time, defaultUser: Option<UserId>)
    requires req.choice == Some("MULTIPLE_CHOICE")
    ensures Intake(req, ms, ps, now, defaultUser).Failure?
    ensures req.marketId.Some? && req.amount.Some? && req.amount.value != 0 ==>
              Intake(req, ms, ps, now, defaultUser) == Failure(400, "Invalid choice")
  {
  }

  /** A zero amount is reported as a missing field, before the sign check. */
  lemma ZeroAmountIsMissing(req: PredictionRequest, ms: seq<Market>, ps: seq<Prediction>,
                            now: Time, defaultUser: Option<UserId>)
    requires req.amount == Some(0)
    ensures Intake(req, ms, ps, now, defaultUser) == Failure(400, "Missing required fields")
  {
  }

  /** A market past its expiry is refused even when the expiry job has not yet
      resolved it. */
  lemma ExpiredMarketRejected(req: PredictionRequest, ms: seq<Market>, ps: seq<Prediction>,
                              now: Time, defaultUser: Option<UserId>, m: Market)
    requires !MissingPredictionFields(req) && ParseChoice(req.choice.value).Some?
    requires req.amount.value > 0
    requires FindMarket(ms, req.marketId.value) == Some(m)
    requires m.expiresAt <= now && m.resolvedAt.None?
    ensures Intake(req, ms, ps, now, defaultUser) == Failure(400, "Market has expired")
  {
  }

  /** An accepted prediction never duplicates a (market, user) pair. */
  lemma IntakeKeepsPairsUnique(req: PredictionRequest, ms: seq<Market>, ps: seq<Prediction>,
                               now: Time, defaultUser: Option<UserId>)
    requires UniquePairs(ps)
    requires Intake(req, ms, ps, now, defaultUser).Success?
    ensures UniquePairs(ps + [Intake(req, ms, ps, now, defaultUser).body])
  {
    var p := Intake(req, ms, ps, now, defaultUser).body;
    var qs := ps + [p];
    forall i, j | 0 <= i < j < |qs|
      ensures qs[i].marketId != qs[j].marketId || qs[i].userId != qs[j].userId
    {
      if j == |ps| {
        assert qs[i] == ps[i];
        assert !(ps[i].marketId == p.marketId && ps[i].userId == p.userId);
      } else {
        assert qs[i] == ps[i] && qs[j] == ps[j];
      }
    }
  }

  // ------------------------------------------------------ statistics upsert

  /** The user's number of stored predictions. */
  function CountBy(ps: seq<Prediction>, u: UserId): (n: nat)
    ensures n <= |ps|
  {
    if ps == [] then 0
    else CountBy(ps[..|ps| - 1], u) + (if ps[|ps| - 1].userId == u then 1 else 0)
  }

  /** The sum of the user's stored stakes. */
  function WageredBy(ps: seq<Prediction>, u: UserId): int {
    if ps == [] then 0
    else WageredBy(ps[..|ps| - 1], u) + (if ps[|ps| - 1].userId == u then ps[|ps| - 1].amount else 0)
  }

  lemma {:induction false} NoPredictionsNothingCounted(ps: seq<Prediction>, u: UserId)
    requires forall i :: 0 <= i < |ps| ==> ps[i].userId != u
    ensures CountBy(ps, u) == 0 && WageredBy(ps, u) == 0
  {
    if ps != [] {
      NoPredictionsNothingCounted(ps[..|ps| - 1], u);
    }
  }

  lemma CountAppend(ps: seq<Prediction>, p: Prediction, u: UserId)
    ensures CountBy(ps + [p], u) == CountBy(ps, u) + (if p.userId == u then 1 else 0)
    ensures WageredBy(ps + [p], u) == WageredBy(ps, u) + (if p.userId == u then p.amount else 0)
  {
    assert (ps + [p])[..|ps + [p]| - 1] == ps;
  }

  predicate HasRow(ss: seq<UserStats>, u: UserId) {
    exists k :: 0 <= k < |ss| && ss[k].userId == u
  }

  /** The row created for a user's first prediction. */
  function FirstStake(u: UserId, amount: int, now: Time): UserStats {
    UserStats(u, 1, 0, amount, 0, 0.0, None, now)
  }

  /** The increment applied to an existing row. */
  function AddStake(s: UserStats, amount: int): UserStats {
    s.(totalPredictions := s.totalPredictions + 1, totalWagered := s.totalWagered + amount)
  }

  /** `userStats.upsert` keyed by userId. */
  function Upsert(ss: seq<UserStats>, u: UserId, amount: int, now: Time): (r: seq<UserStats>)
    ensures |r| == if HasRow(ss, u) then |ss| else |ss| + 1
    ensures forall k :: 0 <= k < |ss| && ss[k].userId != u ==> r[k] == ss[k]
    ensures forall k :: 0 <= k < |ss| && ss[k].userId == u ==>
              && r[k].userId == u
              && r[k].totalPredictions == ss[k].totalPredictions + 1
              && r[k].totalWagered == ss[k].totalWagered + amount
              && r[k].correctPredictions == ss[k].correctPredictions
              && r[k].totalWon == ss[k].totalWon
              && r[k].winRate == ss[k].winRate
              && r[k].rank == ss[k].rank
    ensures !HasRow(ss, u) ==>
              && r[|ss|].userId == u
              && r[|ss|].totalPredictions == 1 && r[|ss|].totalWagered == amount
              && r[|ss|].correctPredictions == 0 && r[|ss|].totalWon == 0
              && r[|ss|].winRate == 0.0
    ensures UniqueUsers(ss) ==> UniqueUsers(r)
  {
    if HasRow(ss, u) then
      seq(|ss|, k requires 0 <= k < |ss| => if ss[k].userId == u then AddStake(ss[k], amount) else ss[k])
    else ss + [FirstStake(u, amount, now)]
  }

  /** The statistics rows agree with the stored predictions: one row per user,
      each row's totals are the user's count and sum of stakes, and every
      user who has predicted has a row. */
  predicate StatsTrack(ss: seq<UserStats>, ps: seq<Prediction>) {
    && UniqueUsers(ss)
    && (forall k :: 0 <= k < |ss| ==>
          ss[k].totalPredictions == CountBy(ps, ss[k].userId)
          && ss[k].totalWagered == WageredBy(ps, ss[k].userId))
    && (forall i :: 0 <= i < |ps| ==> HasRow(ss, ps[i].userId))
  }

  lemma EmptyStoreTracks()
    ensures StatsTrack([], [])
  {
  }

  /** Inserting a prediction and upserting its stake keeps the rows in step. */
  lemma UpsertKeepsTrack(ss: seq<UserStats>, ps: seq<Prediction>, p: Prediction, now: Time)
    requires StatsTrack(ss, ps)
    ensures StatsTrack(Upsert(ss, p.userId, p.amount, now), ps + [p])
  {
    var r := Upsert(ss, p.userId, p.amount, now);
    var qs := ps + [p];
    forall k | 0 <= k < |r|
      ensures r[k].totalPredictions == CountBy(qs, r[k].userId)
      ensures r[k].totalWagered == WageredBy(qs, r[k].userId)
    {
      CountAppend(ps, p, r[k].userId);
      if k == |ss| {
        assert !HasRow(ss, p.userId);
        assert forall i :: 0 <= i < |ps| ==> ps[i].userId != p.userId;
        NoPredictionsNothingCounted(ps, p.userId);
      }
    }
    forall i | 0 <= i < |qs|
      ensures HasRow(r, qs[i].userId)
    {
      if i < |ps| {
        assert qs[i] == ps[i];
        var k :| 0 <= k < |ss| && ss[k].userId == ps[i].userId;
        assert r[k].userId == ss[k].userId;
      } else if HasRow(ss, p.userId) {
        var k :| 0 <= k < |ss| && ss[k].userId == p.userId;
        assert r[k].userId == p.userId;
      } else {
        assert r[|ss|].userId == p.userId;
      }
    }
  }

  /** Rewriting fields other than the user and the two totals keeps the rows
      in step with the predictions. */
  lemma StatsTrackRelabel(ss: seq<UserStats>, ss': seq<UserStats>, ps: seq<Prediction>)
    requires StatsTrack(ss, ps)
    requires |ss'| == |ss|
    requires forall k :: 0 <= k < |ss| ==>
               ss'[k].userId == ss[k].userId
               && ss'[k].totalPredictions == ss[k].totalPredictions
               && ss'[k].totalWagered == ss[k].totalWagered
    ensures StatsTrack(ss', ps)
  {
    forall i | 0 <= i < |ps| ensures HasRow(ss', ps[i].userId) {
      var k :| 0 <= k < |ss| && ss[k].userId == ps[i].userId;
      assert ss'[k].userId == ps[i].userId;
    }
  }

  // ---------------------------------------------------------------- listing

  /** The `where` clause of GET /api/predictions. */
  predicate Matches(p: Prediction, userId: Option<UserId>, marketId: Option<MarketId>) {
    (userId.Some? ==> p.userId == userId.value) && (marketId.Some? ==> p.marketId == marketId.value)
  }

  function FilterPredictions(ps: seq<Prediction>, userId: Option<UserId>, marketId: Option<MarketId>)
    : (r: seq<Prediction>)
    ensures |r| <= |ps|
    ensures forall p :: p in r <==> p in ps && Matches(p, userId, marketId)
  {
    if ps == [] then []
    else FilterPredictions(ps[..|ps| - 1], userId, marketId)
         + (if Matches(ps[|ps| - 1], userId, marketId) then [ps[|ps| - 1]] else [])
  }

  datatype PredictionPage = PredictionPage(predictions: seq<Prediction>, pagination: Pagination)

  /** GET /api/predictions: the matching predictions, newest first, one page of
      them, and the page arithmetic over all matches. */
  function ListPredictions(ps: seq<Prediction>, userId: Option<UserId>, marketId: Option<MarketId>,
                           page: int, limit: int): (r: PredictionPage)
    requires page >= 1 && limit >= 1
    ensures |r.predictions| <= limit
    ensures r.pagination == Pagination(page, limit, |FilterPredictions(ps, userId, marketId)|,
                                       PageCount(|FilterPredictions(ps, userId, marketId)|, limit))
    ensures forall i :: 0 <= i < |r.predictions| ==>
              r.predictions[i] in ps && Matches(r.predictions[i], userId, marketId)
    ensures r.predictions == NewestFirstPage(FilterPredictions(ps, userId, marketId), page, limit)
  {
    var matching := FilterPredictions(ps, userId, marketId);
    PredictionPage(NewestFirstPage(matching, page, limit),
                   Pagination(page, limit, |matching|, PageCount(|matching|, limit)))
  }

  /** GET /api/predictions from its query string. */
  function ListPredictionsQuery(ps: seq<Prediction>, userId: Option<UserId>, marketId: Option<MarketId>,
                                pageParam: Option<string>, limitParam: Option<string>)
    : (r: Option<PredictionPage>)
    ensures r.Some? <==> Paging(pageParam, limitParam).Some?
    ensures r.Some? ==>
              r.value == ListPredictions(ps, userId, marketId, Paging(pageParam, limitParam).value.0,
                                         Paging(pageParam, limitParam).value.1)
  {
    match Paging(pageParam, limitParam)
    case None => None
    case Some((page, limit)) => Some(ListPredictions(ps, userId, marketId, page, limit))
  }

  /** Without `page` and `limit` the listing is the ten newest matches. */
  lemma ListPredictionsDefaults(ps: seq<Prediction>, userId: Option<UserId>, marketId: Option<MarketId>)
    ensures ListPredictionsQuery(ps, userId, marketId, None, None)
            == Some(ListPredictions(ps, userId, marketId, 1, 10))
  {
    QueryDefaults(None);
  }

  /** Stored in creation order, so the creation stamps never decrease. */
  predicate Chronological(ps: seq<Prediction>) {
    forall i, j :: 0 <= i < j < |ps| ==> ps[i].createdAt <= ps[j].createdAt
  }

  lemma {:induction false} FilterChronological(ps: seq<Prediction>, userId: Option<UserId>,
                                               marketId: Option<MarketId>)
    requires Chronological(ps)
    ensures Chronological(FilterPredictions(ps, userId, marketId))
  {
    if ps != [] {
      var init := ps[..|ps| - 1];
      assert Chronological(init);
      FilterChronological(init, userId, marketId);
      var f := FilterPredictions(init, userId, marketId);
      forall i | 0 <= i < |f|
        ensures f[i].createdAt <= ps[|ps| - 1].createdAt
      {
        assert f[i] in init;
      }
    }
  }

  /** The listing comes out newest first. */
  lemma ListNewestFirst(ps: seq<Prediction>, userId: Option<UserId>, marketId: Option<MarketId>,
                        page: int, limit: int)
    requires page >= 1 && limit >= 1
    requires Chronological(ps)
    ensures forall i, j :: 0 <= i < j < |ListPredictions(ps, userId, marketId, page, limit).predictions| ==>
              ListPredictions(ps, userId, marketId, page, limit).predictions[i].createdAt
              >= ListPredictions(ps, userId, marketId, page, limit).predictions[j].createdAt
  {
    var matching := FilterPredictions(ps, userId, marketId);
    FilterChronological(ps, userId, marketId);
    assert Ascending(matching, PredictionCreated);
    NewestFirstDescending(matching, PredictionCreated, page, limit);
  }

  function PredictionCreated(p: Prediction): Time {
    p.createdAt
  }
}

=== FILE: ranking.dfy ===
/** The leaderboard order shared by the ranking job and the stats route:
    most correct predictions first, then highest win rate, ties kept in their
    input order (JavaScript's sort is stable). A functional insertion sort
    specifies the order; an in-place insertion sort over an array implements
    it; ranks number the sorted rows from 1. */
module Ranking {
  import opened Domain

  /** `a` sorts strictly before `b` under the comparator. */
  predicate Better(a: UserStats, b: UserStats) {
    a.correctPredictions > b.correctPredictions
    || (a.correctPredictions == b.correctPredictions && a.winRate > b.winRate)
  }

  /** Neither row sorts before the other. */
  predicate SameKey(a: UserStats, b: UserStats) {
    a.correctPredictions == b.correctPredictions && a.winRate == b.winRate
  }

  /** No row is strictly better than a row before it. */
  predicate Sorted(s: seq<UserStats>) {
    forall i, j :: 0 <= i < j < |s| ==> !Better(s[j], s[i])
  }

  /** Places `x` after every row it does not beat, scanning from the right. */
  function Insert(s: seq<UserStats>, x: UserStats): (r: seq<UserStats>)
    ensures |r| == |s| + 1
  {
    if s == [] || !Better(x, s[|s| - 1]) then s + [x]
    else Insert(s[..|s| - 1], x) + [s[|s| - 1]]
  }

  /** Stable insertion sort. */
  function Sort(s: seq<UserStats>): (r: seq<UserStats>)
    ensures |r| == |s|
  {
    if s == [] then [] else Insert(Sort(s[..|s| - 1]), s[|s| - 1])
  }

  lemma {:induction false} InsertSorted(s: seq<UserStats>, x: UserStats)
    requires Sorted(s)
    ensures Sorted(Insert(s, x))
  {
    if s != [] && Better(x, s[|s| - 1]) {
      var init := s[..|s| - 1];
      var last := s[|s| - 1];
      InsertSorted(init, x);
      InsertMultiset(init, x);
      var t := Insert(init, x);
      forall i | 0 <= i < |t|
        ensures !Better(last, t[i])
      {
        assert t[i] in multiset(t);
        if t[i] != x {
          assert t[i] in multiset(init);
          var k :| 0 <= k < |init| && init[k] == t[i];
          assert s[k] == init[k];
        }
      }
    }
  }

  lemma {:induction false} InsertMultiset(s: seq<UserStats>, x: UserStats)
    ensures multiset(Insert(s, x)) == multiset(s) + multiset{x}
  {
    if s != [] && Better(x, s[|s| - 1]) {
      InsertMultiset(s[..|s| - 1], x);
      SplitLast(s);
    }
  }

  /** The sort orders its input by the comparator. */
  lemma {:induction false} SortSorted(s: seq<UserStats>)
    ensures Sorted(Sort(s))
  {
    if s != [] {
      SortSorted(s[..|s| - 1]);
      InsertSorted(Sort(s[..|s| - 1]), s[|s| - 1]);
    }
  }

  /** The sort only rearranges its input. */
  lemma {:induction false} SortPermutation(s: seq<UserStats>)
    ensures multiset(Sort(s)) == multiset(s)
  {
    if s != [] {
      SortPermutation(s[..|s| - 1]);
      InsertMultiset(Sort(s[..|s| - 1]), s[|s| - 1]);
      SplitLast(s);
    }
  }

  // ------------------------------------------------------------- stability

  /** The rows with the same sort key as `y`, in their order. */
  function Peers(s: seq<UserStats>, y: UserStats): (r: seq<UserStats>)
    ensures |r| <= |s|
  {
    if s == [] then []
    else Peers(s[..|s| - 1], y) + (if SameKey(s[|s| - 1], y) then [s[|s| - 1]] else [])
  }

  lemma {:induction false} PeersAppend(a: seq<UserStats>, b: seq<UserStats>, y: UserStats)
    ensures Peers(a + b, y) == Peers(a, y) + Peers(b, y)
    decreases |b|
  {
    if b == [] {
      assert a + b == a;
    } else {
      assert (a + b)[..|a + b| - 1] == a + b[..|b| - 1];
      PeersAppend(a, b[..|b| - 1], y);
    }
  }

  lemma {:induction false} InsertPeers(s: seq<UserStats>, x: UserStats, y: UserStats)
    ensures Peers(Insert(s, x), y) == Peers(s, y) + Peers([x], y)
  {
    if s == [] || !Better(x, s[|s| - 1]) {
      PeersAppend(s, [x], y);
    } else {
      var init := s[..|s| - 1];
      var last := s[|s| - 1];
      InsertPeers(init, x, y);
      PeersAppend(Insert(init, x), [last], y);
      PeersAppend(init, [last], y);
      assert init + [last] == s;
      assert [x][..0] == [] && [last][..0] == [];
      // x beats last, so at most one of them shares y's key
      assert Peers([x], y) == [] || Peers([last], y) == [];
    }
  }

  /** Ties keep their input order: for every key, the rows with that key
      appear in the sorted output in the same order as in the input. */
  lemma {:induction false} SortStable(s: seq<UserStats>, y: UserStats)
    ensures Peers(Sort(s), y) == Peers(s, y)
  {
    if s != [] {
      var init := s[..|s| - 1];
      SortStable(init, y);
      InsertPeers(Sort(init), s[|s| - 1], y);
      assert [s[|s| - 1]][..0] == [];
    }
  }

  // ------------------------------------------------------ in-place sorting

  /** `userStats.sort(comparator)` on an array, as an insertion sort. */
  method SortStats(a: array<UserStats>)
    modifies a
    ensures a[..] == Sort(old(a[..]))
  {
    ghost var input := a[..];
    var i := 0;
    assert input[..0] == [] && input[0..] == input;
    while i < a.Length
      invariant 0 <= i <= a.Length
      invariant a[..] == Sort(input[..i]) + input[i..]
    {
      GrowSorted(a, i, input);
      i := i + 1;
    }
    assert input[..a.Length] == input && input[a.Length..] == [];
  }

  /** One round of the sort: the sorted prefix takes in the next input row. */
  method GrowSorted(a: array<UserStats>, i: int, ghost input: seq<UserStats>)
    requires 0 <= i < a.Length && |input| == a.Length
    requires a[..] == Sort(input[..i]) + input[i..]
    modifies a
    ensures a[..] == Sort(input[..i + 1]) + input[i + 1..]
  {
    SortStep(input, i);
    CutAt(a[..], Sort(input[..i]), input[i..]);
    InsertAt(a, i);
    Rejoin(a[..], Sort(input[..i + 1]), input[i + 1..]);
  }

  /** Sorting one more input row inserts it into the sorted prefix. */
  lemma SortStep(input: seq<UserStats>, i: int)
    requires 0 <= i < |input|
    ensures Sort(input[..i + 1]) == Insert(Sort(input[..i]), input[i])
    ensures input[i..][0] == input[i] && input[i..][1..] == input[i + 1..]
  {
    assert input[..i + 1][..i] == input[..i];
  }

  /** A sequence is its prefix followed by the rest. */
  lemma Rejoin(whole: seq<UserStats>, front: seq<UserStats>, back: seq<UserStats>)
    requires |front| <= |whole|
    requires whole[..|front|] == front && whole[|front|..] == back
    ensures whole == front + back
  {
    assert whole == whole[..|front|] + whole[|front|..];
  }

  /** The parts of a sequence made of a prefix and a non-empty rest. */
  lemma CutAt(whole: seq<UserStats>, done: seq<UserStats>, rest: seq<UserStats>)
    requires whole == done + rest && rest != []
    ensures whole[..|done|] == done && whole[|done|] == rest[0]
    ensures whole[|done| + 1..] == rest[1..]
  {
  }

  /** One pass of the insertion sort: moves `a[i]` left past the rows it beats. */
  method InsertAt(a: array<UserStats>, i: int)
    requires 0 <= i < a.Length
    modifies a
    ensures a[..i + 1] == Insert(old(a[..i]), old(a[i]))
    ensures a[i + 1..] == old(a[i + 1..])
  {
    ghost var t := a[..i];
    var x := a[i];
    var j := ShiftPast(a, i, x);
    a[j] := x;
    InsertAfterBeaten(t, j, x);
    Placed(a[..i + 1], t, j, x);
  }

  /** Shifts right, by one place, the rows left of position `i` that `x`
      beats, and returns the position left free for `x`. */
  method ShiftPast(a: array<UserStats>, i: int, x: UserStats) returns (j: int)
    requires 0 <= i < a.Length
    modifies a
    ensures 0 <= j <= i
    ensures forall k :: 0 <= k < j ==> a[k] == old(a[k])
    ensures forall k :: j < k <= i ==> a[k] == old(a[k - 1])
    ensures a[i + 1..] == old(a[i + 1..])
    ensures j == 0 || !Better(x, old(a[j - 1]))
    ensures forall k :: j <= k < i ==> Better(x, old(a[k]))
  {
    ghost var t := a[..i];
    ghost var rest := a[i + 1..];
    j := i;
    while j > 0 && Better(x, a[j - 1])
      invariant 0 <= j <= i
      invariant forall k :: 0 <= k < j ==> a[k] == t[k]
      invariant forall k :: j < k <= i ==> a[k] == t[k - 1]
      invariant a[i + 1..] == rest
      invariant forall k :: j <= k < i ==> Better(x, t[k])
    {
      a[j] := a[j - 1];
      j := j - 1;
    }
  }

  /** The row sequence after the pass: `x` at `j`, the rest in their order. */
  lemma Placed(s: seq<UserStats>, t: seq<UserStats>, j: int, x: UserStats)
    requires 0 <= j <= |t| && |s| == |t| + 1
    requires forall k :: 0 <= k < j ==> s[k] == t[k]
    requires s[j] == x
    requires forall k :: j < k < |s| ==> s[k] == t[k - 1]
    ensures s == t[..j] + [x] + t[j..]
  {
  }

  /** `x` lands right after the last row it does not beat, when it beats
      every row after that one. */
  lemma {:induction false} InsertAfterBeaten(t: seq<UserStats>, j: int, x: UserStats)
    requires 0 <= j <= |t|
    requires forall k :: j <= k < |t| ==> Better(x, t[k])
    requires j == 0 || !Better(x, t[j - 1])
    ensures Insert(t, x) == t[..j] + [x] + t[j..]
    decreases |t|
  {
    if j == |t| {
      assert t[..j] == t && t[j..] == [];
    } else {
      var init, last := t[..|t| - 1], t[|t| - 1];
      assert Better(x, last);
      assert Insert(t, x) == Insert(init, x) + [last];
      forall k | j <= k < |init|
        ensures Better(x, init[k])
      {
        assert init[k] == t[k];
      }
      if j > 0 {
        assert init[j - 1] == t[j - 1];
      }
      InsertAfterBeaten(init, j, x);
      assert init[..j] == t[..j];
      assert init[j..] + [last] == t[j..];
      assert t[..j] + [x] + init[j..] + [last] == t[..j] + [x] + (init[j..] + [last]);
    }
  }

  // ------------------------------------------------------------------ ranks

  /** The position (from 1) of the first row of user `u`; one past the end
      when there is none. */
  function RankOf(s: seq<UserStats>, u: UserId): (r: nat)
    ensures 1 <= r <= |s| + 1
    ensures r <= |s| ==> s[r - 1].userId == u
    ensures forall j :: 0 <= j < r - 1 && j < |s| ==> s[j].userId != u
  {
    if s == [] then 1
    else if s[0].userId == u then 1
    else 1 + RankOf(s[1..], u)
  }

  /** With one row per user, the row at position i has rank i + 1. */
  lemma RankOfPosition(s: seq<UserStats>, i: int)
    requires UniqueUsers(s) && 0 <= i < |s|
    ensures RankOf(s, s[i].userId) == i + 1
  {
  }

  /** `stats.map((stat, index) => ({ ...stat, rank: index + 1 }))`. */
  function Ranks(s: seq<UserStats>): (r: seq<UserStats>)
    ensures |r| == |s|
    ensures forall i :: 0 <= i < |s| ==> r[i].rank == Some(i + 1)
    ensures forall i :: 0 <= i < |s| ==> r[i].(rank := s[i].rank) == s[i]
  {
    seq(|s|, i requires 0 <= i < |s| => s[i].(rank := Some(i + 1)))
  }

  /** Ranking preserves the order, so a smaller rank is never strictly worse. */
  lemma RanksNoInversion(s: seq<UserStats>)
    requires Sorted(s)
    ensures forall i, j :: (0 <= i < |Ranks(s)| && 0 <= j < |Ranks(s)|
                            && Ranks(s)[i].rank.value < Ranks(s)[j].rank.value) ==>
              !Better(Ranks(s)[j], Ranks(s)[i])
  {
  }

  // ------------------------------------------------------ the ranking job

  /** The userIds of the rows. */
  function Users(s: seq<UserStats>): set<UserId> {
    set i | 0 <= i < |s| :: s[i].userId
  }

  lemma PermutationSameUsers(a: seq<UserStats>, b: seq<UserStats>)
    requires multiset(a) == multiset(b)
    ensures Users(a) == Users(b)
  {
    forall u | u in Users(a) ensures u in Users(b) {
      var i :| 0 <= i < |a| && a[i].userId == u;
      assert a[i] in multiset(b);
      var j :| 0 <= j < |b| && b[j] == a[i];
    }
    forall u | u in Users(b) ensures u in Users(a) {
      var j :| 0 <= j < |b| && b[j].userId == u;
      assert b[j] in multiset(a);
      var i :| 0 <= i < |a| && a[i] == b[j];
    }
  }

  lemma {:induction false} UsersBound(s: seq<UserStats>)
    ensures |Users(s)| <= |s|
    ensures UniqueUsers(s) <==> |Users(s)| == |s|
  {
    if s != [] {
      var init := s[..|s| - 1];
      UsersBound(init);
      UsersSnoc(s);
      UniqueSnoc(s);
    }
  }

  lemma UsersSnoc(s: seq<UserStats>)
    requires s != []
    ensures Users(s) == Users(s[..|s| - 1]) + {s[|s| - 1].userId}
  {
    var init := s[..|s| - 1];
    forall u | u in Users(s) ensures u in Users(init) + {s[|s| - 1].userId} {
      var i :| 0 <= i < |s| && s[i].userId == u;
      if i < |s| - 1 { assert init[i] == s[i]; }
    }
    forall u | u in Users(init) ensures u in Users(s) {
      var i :| 0 <= i < |init| && init[i].userId == u;
      assert s[i] == init[i];
    }
  }

  lemma UniqueSnoc(s: seq<UserStats>)
    requires s != []
    ensures UniqueUsers(s) <==> UniqueUsers(s[..|s| - 1]) && s[|s| - 1].userId !in Users(s[..|s| - 1])
  {
    var init, last := s[..|s| - 1], s[|s| - 1];
    assert forall i :: 0 <= i < |init| ==> s[i] == init[i];
    if UniqueUsers(s) {
      forall i | 0 <= i < |init| ensures init[i].userId != last.userId {
        assert s[i] == init[i];
      }
    }
    if UniqueUsers(init) && last.userId !in Users(init) {
      forall i, j | 0 <= i < j < |s| ensures s[i].userId != s[j].userId {
        if j == |s| - 1 {
          assert init[i] == s[i];
        } else {
          assert init[i] == s[i] && init[j] == s[j];
        }
      }
    }
  }

  /** Sorting keeps one row per user. */
  lemma SortUniqueUsers(s: seq<UserStats>)
    requires UniqueUsers(s)
    ensures UniqueUsers(Sort(s))
    ensures Users(Sort(s)) == Users(s)
  {
    SortPermutation(s);
    PermutationSameUsers(Sort(s), s);
    UsersBound(s);
    UsersBound(Sort(s));
  }

  /** The job reads the clock afresh in every round of its loop: `clock(i)` is
      the instant read in round i, the one that writes rank i + 1. */
  function Stamp(row: UserStats, sorted: seq<UserStats>, clock: nat -> Time): UserStats {
    var rank := RankOf(sorted, row.userId);
    row.(rank := Some(rank), lastUpdated := clock(rank - 1))
  }

  /** `userStats.update({ where: { id }, data: { rank, lastUpdated: new Date() } })`
      for the row of user `u`, at the instant `now`. */
  function SetRank(ss: seq<UserStats>, u: UserId, rank: nat, now: Time): (r: seq<UserStats>)
    ensures |r| == |ss|
  {
    seq(|ss|, k requires 0 <= k < |ss| =>
              if ss[k].userId == u then ss[k].(rank := Some(rank), lastUpdated := now) else ss[k])
  }

  /** The effect of the ranking job on the statistics rows, which stay where
      they are in the table: each row gets a rank and the instant read in the
      round that wrote it, and nothing else changes. */
  function Restamped(ss: seq<UserStats>, clock: nat -> Time): (r: seq<UserStats>)
    ensures |r| == |ss|
    ensures forall k :: 0 <= k < |ss| ==>
              && r[k].(rank := ss[k].rank, lastUpdated := ss[k].lastUpdated) == ss[k]
              && r[k].rank.Some? && r[k].rank.value >= 1
              && r[k].lastUpdated == clock(r[k].rank.value - 1)
  {
    var sorted := Sort(ss);
    seq(|ss|, k requires 0 <= k < |ss| => Stamp(ss[k], sorted, clock))
  }

  /** The rows stamped once the first `i` sorted users have been written. */
  ghost predicate StampedUpTo(cur: seq<UserStats>, before: seq<UserStats>, sorted: seq<UserStats>,
                              i: nat, clock: nat -> Time) {
    && |cur| == |before|
    && forall k :: 0 <= k < |before| ==>
         cur[k] == if RankOf(sorted, before[k].userId) <= i then Stamp(before[k], sorted, clock) else before[k]
  }

  /** Writing the rank of the i-th sorted user at the instant of round i stamps
      exactly that user's row. */
  lemma StampStep(cur: seq<UserStats>, before: seq<UserStats>, sorted: seq<UserStats>, i: nat,
                  clock: nat -> Time)
    requires UniqueUsers(sorted) && i < |sorted|
    requires StampedUpTo(cur, before, sorted, i, clock)
    ensures StampedUpTo(SetRank(cur, sorted[i].userId, i + 1, clock(i)), before, sorted, i + 1, clock)
  {
    RankOfPosition(sorted, i);
    var next := SetRank(cur, sorted[i].userId, i + 1, clock(i));
    forall k | 0 <= k < |before|
      ensures next[k] == if RankOf(sorted, before[k].userId) <= i + 1
                         then Stamp(before[k], sorted, clock) else before[k]
    {
      assert cur[k].userId == before[k].userId;
      var rk := RankOf(sorted, before[k].userId);
      if before[k].userId == sorted[i].userId {
        assert rk == i + 1;
      } else {
        assert rk != i + 1;
      }
    }
  }

  /** Once every sorted user has been written, the table is `Restamped`. */
  lemma StampDone(cur: seq<UserStats>, before: seq<UserStats>, clock: nat -> Time)
    requires UniqueUsers(before)
    requires StampedUpTo(cur, before, Sort(before), |before|, clock)
    ensures cur == Restamped(before, clock)
  {
    var sorted := Sort(before);
    var r := Restamped(before, clock);
    SortUniqueUsers(before);
    forall k | 0 <= k < |before|
      ensures cur[k] == r[k]
    {
      assert before[k].userId in Users(sorted);
      var i :| 0 <= i < |sorted| && sorted[i].userId == before[k].userId;
      RankOfPosition(sorted, i);
    }
  }

  lemma InSorted(ss: seq<UserStats>, k: int) returns (i: int)
    requires UniqueUsers(ss) && 0 <= k < |ss|
    ensures 0 <= i < |ss| && Sort(ss)[i] == ss[k]
    ensures RankOf(Sort(ss), ss[k].userId) == i + 1
  {
    SortPermutation(ss);
    SortUniqueUsers(ss);
    assert ss[k] in multiset(Sort(ss));
    i :| 0 <= i < |ss| && Sort(ss)[i] == ss[k];
    RankOfPosition(Sort(ss), i);
  }

  /** The ranks the job writes lie in 1..n, for n rows. */
  lemma RestampedRanksInRange(ss: seq<UserStats>, clock: nat -> Time)
    requires UniqueUsers(ss)
    ensures forall k :: 0 <= k < |ss| ==>
              Restamped(ss, clock)[k].rank.Some? && 1 <= Restamped(ss, clock)[k].rank.value <= |ss|
  {
    var r := Restamped(ss, clock);
    forall k | 0 <= k < |ss|
      ensures r[k].rank.Some? && 1 <= r[k].rank.value <= |ss|
    {
      var i := InSorted(ss, k);
    }
  }

  /** No two rows get the same rank. */
  lemma RestampedRanksDistinct(ss: seq<UserStats>, clock: nat -> Time)
    requires UniqueUsers(ss)
    ensures forall k, l :: 0 <= k < l < |ss| ==> Restamped(ss, clock)[k].rank != Restamped(ss, clock)[l].rank
  {
    var r := Restamped(ss, clock);
    forall k, l | 0 <= k < l < |ss|
      ensures r[k].rank != r[l].rank
    {
      var i := InSorted(ss, k);
      var j := InSorted(ss, l);
    }
  }

  /** Every rank from 1 to n is given to some row. */
  lemma RestampedRanksCover(ss: seq<UserStats>, clock: nat -> Time)
    requires UniqueUsers(ss)
    ensures forall n :: 1 <= n <= |ss| ==> exists k :: 0 <= k < |ss| && Restamped(ss, clock)[k].rank == Some(n)
  {
    var r := Restamped(ss, clock);
    var sorted := Sort(ss);
    SortUniqueUsers(ss);
    SortPermutation(ss);
    forall n | 1 <= n <= |ss|
      ensures exists k :: 0 <= k < |ss| && r[k].rank == Some(n)
    {
      assert sorted[n - 1] in multiset(ss);
      var k :| 0 <= k < |ss| && ss[k] == sorted[n - 1];
      RankOfPosition(sorted, n - 1);
      assert r[k].rank == Some(n);
    }
  }

  /** A smaller rank never goes to a strictly worse row. */
  lemma RestampedNoInversion(ss: seq<UserStats>, clock: nat -> Time, k: int, l: int)
    requires UniqueUsers(ss) && 0 <= k < |ss| && 0 <= l < |ss|
    requires Restamped(ss, clock)[k].rank.value < Restamped(ss, clock)[l].rank.value
    ensures !Better(ss[l], ss[k])
  {
    var i := InSorted(ss, k);
    var j := InSorted(ss, l);
    SortSorted(ss);
  }

  /** With a clock that never goes back, a better rank never carries a later
      timestamp: the rows are written in rank order. */
  lemma RestampedTimesFollowRanks(ss: seq<UserStats>, clock: nat -> Time, k: int, l: int)
    requires forall i: nat, j: nat :: i <= j ==> clock(i) <= clock(j)
    requires 0 <= k < |ss| && 0 <= l < |ss|
    requires Restamped(ss, clock)[k].rank.value <= Restamped(ss, clock)[l].rank.value
    ensures Restamped(ss, clock)[k].lastUpdated <= Restamped(ss, clock)[l].lastUpdated
  {
    var r := Restamped(ss, clock);
    assert r[k].lastUpdated == clock(r[k].rank.value - 1);
    assert r[l].lastUpdated == clock(r[l].rank.value - 1);
  }
}

=== FILE: stats.dfy ===
/** GET /api/stats: the leaderboard for a period, ranked from 1, and the
    overall counters. */
module Stats {
  import opened Domain
  import opened Markets
  import opened Ranking
  import opened Text

  datatype Period = AllTime | LastWeek | LastMonth

  /** `searchParams.get('period') || 'all'`, then the two comparisons. */
  function ParsePeriod(period: Option<string>): (p: Period)
    ensures p == LastWeek <==> period == Some("week")
    ensures p == LastMonth <==> period == Some("month")
    ensures period.None? || period == Some("") || period == Some("all") ==> p == AllTime
  {
    if period == Some("week") then LastWeek
    else if period == Some("month") then LastMonth
    else AllTime
  }

  /** The `dateFilter`; the two cutoffs are the clock minus seven days and
      minus one calendar month. */
  predicate InPeriod(s: UserStats, p: Period, weekAgo: Time, monthAgo: Time) {
    match p
    case AllTime => true
    case LastWeek => s.lastUpdated >= weekAgo
    case LastMonth => s.lastUpdated >= monthAgo
  }

  function FilterStats(ss: seq<UserStats>, p: Period, weekAgo: Time, monthAgo: Time): (r: seq<UserStats>)
    ensures |r| <= |ss|
    ensures forall s :: s in r <==> s in ss && InPeriod(s, p, weekAgo, monthAgo)
  {
    if ss == [] then []
    else FilterStats(ss[..|ss| - 1], p, weekAgo, monthAgo)
         + (if InPeriod(ss[|ss| - 1], p, weekAgo, monthAgo) then [ss[|ss| - 1]] else [])
  }

  lemma {:induction false} AllTimeKeepsAll(ss: seq<UserStats>, weekAgo: Time, monthAgo: Time)
    ensures FilterStats(ss, AllTime, weekAgo, monthAgo) == ss
  {
    if ss != [] {
      AllTimeKeepsAll(ss[..|ss| - 1], weekAgo, monthAgo);
      SplitLast(ss);
    }
  }

  /** The rows in the period, in leaderboard order, the first `limit` of them,
      each ranked by its position. */
  function Leaderboard(ss: seq<UserStats>, period: Option<string>, limit: nat,
                       weekAgo: Time, monthAgo: Time): (r: seq<UserStats>)
    ensures |r| <= limit
    ensures |r| == if |FilterStats(ss, ParsePeriod(period), weekAgo, monthAgo)| < limit
                   then |FilterStats(ss, ParsePeriod(period), weekAgo, monthAgo)| else limit
    ensures forall i :: 0 <= i < |r| ==> r[i].rank == Some(i + 1)
    ensures forall i :: 0 <= i < |r| ==>
              r[i] == Sort(FilterStats(ss, ParsePeriod(period), weekAgo, monthAgo))[i].(rank := Some(i + 1))
  {
    Ranks(Window(Sort(FilterStats(ss, ParsePeriod(period), weekAgo, monthAgo)), 0, limit))
  }

  /** GET /api/stats from its query string: `limit` defaults to "10". `None`
      when the limit reads as NaN or is negative: answers this model does
      not give. */
  function LeaderboardQuery(ss: seq<UserStats>, period: Option<string>, limitParam: Option<string>,
                            weekAgo: Time, monthAgo: Time): (r: Option<seq<UserStats>>)
    ensures r.Some? <==> QueryInt(limitParam, "10").Some? && QueryInt(limitParam, "10").value >= 0
    ensures r.Some? ==>
              r.value == Leaderboard(ss, period, QueryInt(limitParam, "10").value, weekAgo, monthAgo)
  {
    var limit := QueryInt(limitParam, "10");
    if limit.Some? && limit.value >= 0 then Some(Leaderboard(ss, period, limit.value, weekAgo, monthAgo))
    else None
  }

  /** Without `limit` the leaderboard shows the top ten. */
  lemma LeaderboardDefaults(ss: seq<UserStats>, period: Option<string>, weekAgo: Time, monthAgo: Time)
    ensures LeaderboardQuery(ss, period, None, weekAgo, monthAgo) == Some(Leaderboard(ss, period, 10, weekAgo, monthAgo))
  {
    QueryDefaults(None);
  }

  /** The leaderboard page asks for `limit=50`: the top fifty. */
  lemma LeaderboardPageQuery(ss: seq<UserStats>, period: Option<string>, weekAgo: Time, monthAgo: Time)
    ensures LeaderboardQuery(ss, period, Some("50"), weekAgo, monthAgo)
            == Some(Leaderboard(ss, period, 50, weekAgo, monthAgo))
  {
    QueryDigits("50", "10");
    assert DigitsValue("50") == 50;
  }

  /** Each entry is a row of the period with only its rank replaced, and no
      entry is strictly better than an entry ranked above it. */
  lemma LeaderboardRows(ss: seq<UserStats>, period: Option<string>, limit: nat,
                        weekAgo: Time, monthAgo: Time)
    ensures forall i :: 0 <= i < |Leaderboard(ss, period, limit, weekAgo, monthAgo)| ==>
              exists s :: s in ss && InPeriod(s, ParsePeriod(period), weekAgo, monthAgo)
                          && Leaderboard(ss, period, limit, weekAgo, monthAgo)[i] == s.(rank := Some(i + 1))
    ensures forall i, j :: 0 <= i < j < |Leaderboard(ss, period, limit, weekAgo, monthAgo)| ==>
              !Better(Leaderboard(ss, period, limit, weekAgo, monthAgo)[j],
                      Leaderboard(ss, period, limit, weekAgo, monthAgo)[i])
  {
    var f := FilterStats(ss, ParsePeriod(period), weekAgo, monthAgo);
    var r := Leaderboard(ss, period, limit, weekAgo, monthAgo);
    SortPermutation(f);
    SortSorted(f);
    RankedFromPeriod(r, Sort(f), ss, ParsePeriod(period), weekAgo, monthAgo);
    RankedInOrder(r, Sort(f));
  }

  /** Each row of a ranked prefix of a rearrangement of the period's rows is
      a row of the period with its rank set. */
  lemma RankedFromPeriod(r: seq<UserStats>, sorted: seq<UserStats>, ss: seq<UserStats>,
                         p: Period, weekAgo: Time, monthAgo: Time)
    requires multiset(sorted) == multiset(FilterStats(ss, p, weekAgo, monthAgo))
    requires |r| <= |sorted|
    requires forall i :: 0 <= i < |r| ==> r[i] == sorted[i].(rank := Some(i + 1))
    ensures forall i :: 0 <= i < |r| ==>
              exists s :: s in ss && InPeriod(s, p, weekAgo, monthAgo) && r[i] == s.(rank := Some(i + 1))
  {
    forall i | 0 <= i < |r|
      ensures exists s :: s in ss && InPeriod(s, p, weekAgo, monthAgo) && r[i] == s.(rank := Some(i + 1))
    {
      assert sorted[i] in multiset(sorted);
      assert sorted[i] in FilterStats(ss, p, weekAgo, monthAgo);
    }
  }

  /** Setting ranks keeps the order of a ranked prefix of a sorted sequence. */
  lemma RankedInOrder(r: seq<UserStats>, sorted: seq<UserStats>)
    requires Sorted(sorted) && |r| <= |sorted|
    requires forall i :: 0 <= i < |r| ==> r[i] == sorted[i].(rank := Some(i + 1))
    ensures forall i, j :: 0 <= i < j < |r| ==> !Better(r[j], r[i])
  {
    forall i, j | 0 <= i < j < |r|
      ensures !Better(r[j], r[i])
    {
      assert !Better(sorted[j], sorted[i]);
    }
  }

  /** `top` are the rows of `f` ranked into `r`, `rest` the others, and none of
      the others is strictly better than an entry. */
  ghost predicate BestSplit(r: seq<UserStats>, f: seq<UserStats>, top: seq<UserStats>, rest: seq<UserStats>) {
    && multiset(top) + multiset(rest) == multiset(f)
    && |top| == |r|
    && (forall i :: 0 <= i < |top| ==> r[i] == top[i].(rank := Some(i + 1)))
    && (forall x, y :: x in rest && y in top ==> !Better(x, y))
  }

  /** `r` ranks the best |r| rows of `f`, each taken once. */
  ghost predicate BestOf(r: seq<UserStats>, f: seq<UserStats>) {
    exists top: seq<UserStats>, rest: seq<UserStats> :: BestSplit(r, f, top, rest)
  }

  /** The entries are the best `limit` rows of the period, each taken once. */
  lemma LeaderboardIsTop(ss: seq<UserStats>, period: Option<string>, limit: nat,
                         weekAgo: Time, monthAgo: Time)
    ensures BestOf(Leaderboard(ss, period, limit, weekAgo, monthAgo),
                   FilterStats(ss, ParsePeriod(period), weekAgo, monthAgo))
  {
    var f := FilterStats(ss, ParsePeriod(period), weekAgo, monthAgo);
    SortedPrefixIsBest(Leaderboard(ss, period, limit, weekAgo, monthAgo), f);
  }

  /** A ranked prefix of the sorted rows is the best of them. */
  lemma SortedPrefixIsBest(r: seq<UserStats>, f: seq<UserStats>)
    requires |r| <= |f|
    requires forall i :: 0 <= i < |r| ==> r[i] == Sort(f)[i].(rank := Some(i + 1))
    ensures BestOf(r, f)
  {
    SortPermutation(f);
    SortSorted(f);
    PrefixIsBest(r, f, Sort(f));
  }

  lemma PrefixIsBest(r: seq<UserStats>, f: seq<UserStats>, sorted: seq<UserStats>)
    requires Sorted(sorted) && multiset(sorted) == multiset(f) && |r| <= |sorted|
    requires forall i :: 0 <= i < |r| ==> r[i] == sorted[i].(rank := Some(i + 1))
    ensures BestOf(r, f)
  {
    var top, rest := sorted[..|r|], sorted[|r|..];
    assert sorted == top + rest;
    SortedSplit(sorted, |r|);
    assert BestSplit(r, f, top, rest);
  }

  /** In a sorted sequence, nothing after a cut beats anything before it. */
  lemma SortedSplit(sorted: seq<UserStats>, n: nat)
    requires Sorted(sorted) && n <= |sorted|
    ensures forall x, y :: x in sorted[n..] && y in sorted[..n] ==> !Better(x, y)
  {
    forall x, y | x in sorted[n..] && y in sorted[..n]
      ensures !Better(x, y)
    {
      var j :| 0 <= j < |sorted| - n && sorted[n..][j] == x;
      var i :| 0 <= i < n && sorted[..n][i] == y;
      assert sorted[n + j] == x && sorted[i] == y;
    }
  }

  // ---------------------------------------------------------------- overall

  datatype Overall = Overall(totalMarkets: nat, activeMarkets: nat, totalPredictions: nat, totalUsers: nat)

  /** `market.count({ where: { expiresAt: { gt: now }, resolvedAt: null } })`. */
  function CountActive(ms: seq<Market>, now: Time): (n: nat)
    ensures n <= |ms|
  {
    if ms == [] then 0
    else CountActive(ms[..|ms| - 1], now) + (if IsActive(ms[|ms| - 1], now) then 1 else 0)
  }

  function OverallStats(ms: seq<Market>, ps: seq<Prediction>, userCount: nat, now: Time): (o: Overall)
    ensures o.activeMarkets <= o.totalMarkets
    ensures o.totalMarkets == |ms| && o.totalPredictions == |ps| && o.totalUsers == userCount
  {
    Overall(|ms|, CountActive(ms, now), |ps|, userCount)
  }

  /** The active count is the size of the markets listing's "active" filter. */
  lemma {:induction false} ActiveCountAgrees(ms: seq<Market>, now: Time)
    ensures CountActive(ms, now) == |FilterMarkets(ms, ActiveOnly, now)|
  {
    if ms != [] {
      ActiveCountAgrees(ms[..|ms| - 1], now);
    }
  }

  /** Hence it is the `total` that GET /api/markets?status=active reports. */
  lemma ActiveCountIsListingTotal(ms: seq<Market>, ps: seq<Prediction>, page: int, limit: int, now: Time)
    requires page >= 1 && limit >= 1
    ensures OverallStats(ms, ps, 0, now).activeMarkets
            == ListMarkets(ms, ps, Some("active"), page, limit, now).pagination.total
  {
    ActiveCountAgrees(ms, now);
  }
}

=== FILE: store.dfy ===
/** The database as one object: the market, prediction and statistics tables,
    and the handlers and jobs that change them. Each method keeps the store's
    invariants and states its whole effect. */
module Store {
  import opened Domain
  import opened Markets
  import opened Predictions
  import opened Ranking
  import opened Cron

  predicate UniqueIds(ms: seq<Market>) {
    forall i, j :: 0 <= i < j < |ms| ==> ms[i].id != ms[j].id
  }

  predicate UniqueSlugs(ms: seq<Market>) {
    forall i, j :: 0 <= i < j < |ms| ==> ms[i].slug != ms[j].slug
  }

  /** The slugs already taken, as the unique-slug probe looks them up. */
  function SlugsOf(ms: seq<Market>): (slugs: set<string>)
    ensures forall k :: 0 <= k < |ms| ==> ms[k].slug in slugs
    ensures forall s :: s in slugs ==> exists k :: 0 <= k < |ms| && ms[k].slug == s
  {
    set k | 0 <= k < |ms| :: ms[k].slug
  }

  /** Deleting markets keeps ids and slugs unique. */
  lemma {:induction false} PurgeKeepsUnique(ms: seq<Market>, cutoff: Time)
    requires UniqueIds(ms) && UniqueSlugs(ms)
    ensures UniqueIds(Purge(ms, cutoff)) && UniqueSlugs(Purge(ms, cutoff))
  {
    if ms != [] {
      var init := ms[..|ms| - 1];
      var last := ms[|ms| - 1];
      PurgeKeepsUnique(init, cutoff);
      var p := Purge(init, cutoff);
      if !Stale(last, cutoff) {
        var q := p + [last];
        forall i, j | 0 <= i < j < |q|
          ensures q[i].id != q[j].id && q[i].slug != q[j].slug
        {
          if j == |p| {
            assert q[i] == p[i] && p[i] in init;
            var k :| 0 <= k < |init| && init[k] == p[i];
            assert ms[k] == init[k];
          } else {
            assert q[i] == p[i] && q[j] == p[j];
          }
        }
      }
    }
  }

  /** The market table's invariant: unique ids below the next id, unique
      slugs, and `resolvedAt` set together with `outcome`. */
  predicate MarketsValid(ms: seq<Market>, nextId: nat) {
    && UniqueIds(ms)
    && (forall k :: 0 <= k < |ms| ==> ms[k].id < nextId)
    && UniqueSlugs(ms)
    && (forall k :: 0 <= k < |ms| ==> ResolutionConsistent(ms[k]))
  }

  /** Appending an open market with the next id and a fresh slug keeps it. */
  lemma AppendMarketValid(ms: seq<Market>, nextId: nat, m: Market)
    requires MarketsValid(ms, nextId)
    requires m.id == nextId && m.slug !in SlugsOf(ms) && ResolutionConsistent(m)
    ensures MarketsValid(ms + [m], nextId + 1)
  {
    var r := ms + [m];
    forall i, j | 0 <= i < j < |r|
      ensures r[i].id != r[j].id && r[i].slug != r[j].slug
    {
      assert r[i] == ms[i];
      if j < |ms| { assert r[j] == ms[j]; }
    }
  }

  /** The expiry job keeps the market table's invariant. */
  lemma ExpireAllValid(ms: seq<Market>, nextId: nat, now: Time)
    requires MarketsValid(ms, nextId)
    ensures MarketsValid(ExpireAll(ms, now), nextId)
  {
    var r := ExpireAll(ms, now);
    assert forall k :: 0 <= k < |ms| ==> r[k].id == ms[k].id && r[k].slug == ms[k].slug;
    ExpireAllConsistent(ms, now);
  }

  /** The expiry job only sets `resolvedAt` and `outcome`, so the creation
      order survives it. */
  lemma ExpireAllChronological(ms: seq<Market>, now: Time)
    requires MarketsChronological(ms)
    ensures MarketsChronological(ExpireAll(ms, now))
  {
    var r := ExpireAll(ms, now);
    assert forall k :: 0 <= k < |ms| ==> r[k].createdAt == ms[k].createdAt;
  }

  /** Deleting markets keeps the rest in creation order. */
  lemma {:induction false} PurgeChronological(ms: seq<Market>, cutoff: Time)
    requires MarketsChronological(ms)
    ensures MarketsChronological(Purge(ms, cutoff))
  {
    if ms != [] {
      var init := ms[..|ms| - 1];
      assert MarketsChronological(init);
      PurgeChronological(init, cutoff);
      var p := Purge(init, cutoff);
      forall i | 0 <= i < |p|
        ensures p[i].createdAt <= ms[|ms| - 1].createdAt
      {
        assert p[i] in init;
      }
    }
  }

  class Db {
    var markets: seq<Market>
    var nextMarketId: nat
    var predictions: seq<Prediction>
    var stats: seq<UserStats>

    /** Ids are unique and below the next id, slugs are unique, every market
        has `resolvedAt` and `outcome` set together, there is at most one
        prediction per (market, user), and the statistics rows track the
        predictions. */
    ghost predicate Valid()
      reads this
    {
      && MarketsValid(markets, nextMarketId)
      && UniquePairs(predictions)
      && StatsTrack(stats, predictions)
    }

    /** Both tables are in creation order. The store appends every new row,
        so this holds as long as the clock never goes back. */
    ghost predicate InOrder()
      reads this
    {
      MarketsChronological(markets) && Chronological(predictions)
    }

    /** No stored row was created after `now`: the clock has not gone back. */
    ghost predicate NotBefore(now: Time)
      reads this
    {
      && (forall k :: 0 <= k < |markets| ==> markets[k].createdAt <= now)
      && (forall k :: 0 <= k < |predictions| ==> predictions[k].createdAt <= now)
    }

    constructor ()
      ensures Valid() && InOrder()
      ensures markets == [] && predictions == [] && stats == [] && nextMarketId == 0
    {
      markets := [];
      nextMarketId := 0;
      predictions := [];
      stats := [];
    }

    /** POST /api/markets. */
    method CreateMarket(req: CreateMarketRequest, now: Time, defaultUser: Option<UserId>)
      returns (r: Response<Market>)
      requires Valid()
      modifies this
      ensures Valid()
      ensures old(InOrder()) && old(NotBefore(now)) ==> InOrder()
      ensures predictions == old(predictions) && stats == old(stats)
      ensures MissingFields(req) ==> r == Failure(400, "Missing required fields")
      ensures !MissingFields(req) && req.expiresAt.value <= now ==>
                r == Failure(400, "Expiration date must be in the future")
      ensures !MissingFields(req) && req.expiresAt.value > now && defaultUser.None? ==>
                r == Failure(400, "No users found. Please seed the database first.")
      ensures r.Success? <==> !MissingFields(req) && req.expiresAt.value > now && defaultUser.Some?
      ensures r.Failure? ==> markets == old(markets) && nextMarketId == old(nextMarketId)
      ensures r.Success? ==>
                && r.status == 201
                && markets == old(markets) + [r.body]
                && nextMarketId == old(nextMarketId) + 1
                && r.body.id == old(nextMarketId)
                && ProbeResult(BaseSlug(req.question.value), SlugsOf(old(markets)), r.body.slug)
                && r.body.question == req.question.value
                && r.body.description == req.description
                && r.body.optionA == req.optionA.value
                && r.body.optionB == req.optionB.value
                && r.body.expiresAt == req.expiresAt.value
                && r.body.resolvedAt.None? && r.body.outcome.None?
                && r.body.creatorId == defaultUser.value
                && r.body.createdAt == now
    {
      if MissingFields(req) {
        return Failure(400, "Missing required fields");
      }
      if req.expiresAt.value <= now {
        return Failure(400, "Expiration date must be in the future");
      }
      var slug := UniqueSlug(BaseSlug(req.question.value), SlugsOf(markets));
      if defaultUser.None? {
        return Failure(400, "No users found. Please seed the database first.");
      }
      var m := Market(nextMarketId, slug, req.question.value, req.description, req.optionA.value,
                      req.optionB.value, req.expiresAt.value, None, None, defaultUser.value, now);
      AppendMarketValid(markets, nextMarketId, m);
      markets := markets + [m];
      nextMarketId := nextMarketId + 1;
      r := Success(201, m);
    }

    /** Upserts the statistics row of user `u` for a new stake. */
    method RecordStake(u: UserId, amount: int, now: Time)
      requires UniqueUsers(stats)
      modifies this
      ensures stats == Upsert(old(stats), u, amount, now)
      ensures markets == old(markets) && nextMarketId == old(nextMarketId)
      ensures predictions == old(predictions)
    {
      var i := 0;
      while i < |stats| && stats[i].userId != u
        invariant 0 <= i <= |stats|
        invariant forall k :: 0 <= k < i ==> stats[k].userId != u
      {
        i := i + 1;
      }
      if i < |stats| {
        assert HasRow(stats, u);
        stats := stats[i := AddStake(stats[i], amount)];
      } else {
        stats := stats + [FirstStake(u, amount, now)];
      }
    }

    /** POST /api/predictions: the guard chain, then the insert and the upsert.
        A rejected request changes nothing. */
    method CreatePrediction(req: PredictionRequest, now: Time, defaultUser: Option<UserId>)
      returns (r: Response<Prediction>)
      requires Valid()
      modifies this
      ensures Valid()
      ensures old(InOrder()) && old(NotBefore(now)) ==> InOrder()
      ensures r == Intake(req, old(markets), old(predictions), now, defaultUser)
      ensures markets == old(markets) && nextMarketId == old(nextMarketId)
      ensures r.Failure? ==> predictions == old(predictions) && stats == old(stats)
      ensures r.Success? ==>
                && predictions == old(predictions) + [r.body]
                && stats == Upsert(old(stats), r.body.userId, r.body.amount, now)
    {
      r := Intake(req, markets, predictions, now, defaultUser);
      if r.Success? {
        IntakeKeepsPairsUnique(req, markets, predictions, now, defaultUser);
        UpsertKeepsTrack(stats, predictions, r.body, now);
        predictions := predictions + [r.body];
        RecordStake(r.body.userId, r.body.amount, now);
      }
    }

    /** The expiry job: selects the overdue markets, then cancels them one by
        one. */
    method ExpireMarkets(now: Time)
      requires Valid()
      modifies this
      ensures Valid()
      ensures old(InOrder()) ==> InOrder()
      ensures markets == ExpireAll(old(markets), now)
      ensures nextMarketId == old(nextMarketId)
      ensures predictions == old(predictions) && stats == old(stats)
    {
      var expired := OverdueIds(markets, now);
      ghost var before := markets;
      for i := 0 to |expired|
        invariant |markets| == |before|
        invariant predictions == old(predictions) && stats == old(stats)
        invariant nextMarketId == old(nextMarketId)
        invariant forall k :: 0 <= k < |before| ==>
                    markets[k] == if before[k].id in expired[..i] then Cancel(before[k], now) else before[k]
      {
        assert expired[..i + 1] == expired[..i] + [expired[i]];
        markets := CancelById(markets, expired[i], now);
      }
      assert markets == ExpireAll(before, now) by {
        assert expired[..|expired|] == expired;
        forall k | 0 <= k < |before|
          ensures before[k].id in expired <==> IsExpired(before[k], now)
        {
          CancelSelectedIsExpireAll(before, now, k);
        }
      }
      ExpireAllValid(before, nextMarketId, now);
      if MarketsChronological(before) {
        ExpireAllChronological(before, now);
      }
    }

    /** The ranking job: sorts a copy of the statistics rows, then writes rank
        i + 1 and the instant read in round i into the row of the i-th sorted user. */
    method UpdateLeaderboard(clock: nat -> Time)
      requires Valid()
      modifies this
      ensures Valid()
      ensures old(InOrder()) ==> InOrder()
      ensures stats == Restamped(old(stats), clock)
      ensures markets == old(markets) && nextMarketId == old(nextMarketId)
      ensures predictions == old(predictions)
    {
      ghost var before := stats;
      var a := new UserStats[|stats|](k requires 0 <= k < |stats| reads this => stats[k]);
      assert a[..] == before;
      SortStats(a);
      assert UniqueUsers(a[..]) by {
        SortUniqueUsers(before);
      }
      WriteRanks(a, clock);
      assert stats == Restamped(before, clock) by {
        StampDone(stats, before, clock);
      }
      assert StatsTrack(stats, predictions) by {
        StatsTrackRelabel(before, stats, predictions);
      }
    }

    /** The rank loop: the row of the i-th sorted user gets rank i + 1 and the
        instant `clock(i)` read in that round. */
    method WriteRanks(a: array<UserStats>, clock: nat -> Time)
      requires UniqueUsers(a[..])
      modifies this
      ensures StampedUpTo(stats, old(stats), a[..], a.Length, clock)
      ensures markets == old(markets) && nextMarketId == old(nextMarketId)
      ensures predictions == old(predictions)
    {
      ghost var before := stats;
      for i := 0 to a.Length
        invariant markets == old(markets) && nextMarketId == old(nextMarketId)
        invariant predictions == old(predictions)
        invariant StampedUpTo(stats, before, a[..], i, clock)
      {
        StampStep(stats, before, a[..], i, clock);
        stats := SetRank(stats, a[i].userId, i + 1, clock(i));
      }
    }

    /** The cleanup job: deletes the markets resolved before the cutoff (the
        clock minus 30 days). */
    method CleanupOldData(cutoff: Time)
      requires Valid()
      modifies this
      ensures Valid()
      ensures old(InOrder()) ==> InOrder()
      ensures markets == Purge(old(markets), cutoff)
      ensures nextMarketId == old(nextMarketId)
      ensures predictions == old(predictions) && stats == old(stats)
    {
      PurgeKeepsUnique(markets, cutoff);
      if MarketsChronological(markets) {
        PurgeChronological(markets, cutoff);
      }
      ghost var before := markets;
      markets := Purge(markets, cutoff);
      forall k | 0 <= k < |markets|
        ensures markets[k].id < nextMarketId && ResolutionConsistent(markets[k])
      {
        assert markets[k] in before;
      }
    }
  }

  /** While the tables are in creation order, both listings come out newest
      first. */
  lemma ListingsNewestFirst(db: Db, status: Option<string>, userId: Option<UserId>,
                            marketId: Option<MarketId>, page: int, limit: int, now: Time)
    requires page >= 1 && limit >= 1
    requires db.InOrder()
    ensures var ms := ListMarkets(db.markets, db.predictions, status, page, limit, now).markets;
            forall i, j :: 0 <= i < j < |ms| ==> ms[i].market.createdAt >= ms[j].market.createdAt
    ensures var ps := ListPredictions(db.predictions, userId, marketId, page, limit).predictions;
            forall i, j :: 0 <= i < j < |ps| ==> ps[i].createdAt >= ps[j].createdAt
  {
    ListMarketsNewestFirst(db.markets, db.predictions, status, page, limit, now);
    ListNewestFirst(db.predictions, userId, marketId, page, limit);
  }
}

=== FILE: text.dfy ===
/** Decimal rendering of numbers, as JavaScript template strings do it
    (`${n}` for an integer value), and its inverse; `parseInt` as the
    handlers apply it to query parameters. */
module Text {
  import opened Domain


  predicate IsDigit(c: char) {
    '0' <= c <= '9'
  }

  predicate AllDigits(s: string) {
    forall i :: 0 <= i < |s| ==> IsDigit(s[i])
  }

  function DigitValue(c: char): (d: nat)
    requires IsDigit(c)
    ensures d < 10
  {
    c as int - '0' as int
  }

  function DigitChar(d: nat): (c: char)
    requires d < 10
    ensures IsDigit(c) && DigitValue(c) == d
  {
    (d + '0' as int) as char
  }

  /** The decimal digits of `n`, most significant first, without leading zeros. */
  function NatToString(n: nat): (s: string)
    ensures |s| >= 1 && AllDigits(s)
    ensures n < 10 <==> |s| == 1
  {
    if n < 10 then [DigitChar(n)] else NatToString(n / 10) + [DigitChar(n % 10)]
  }

  /** `${n}` for any integer: a minus sign before the digits of |n| when n < 0. */
  function IntToString(n: int): (s: string)
    ensures |s| >= 1
    ensures n >= 0 ==> s == NatToString(n)
    ensures n < 0 ==> s[0] == '-' && s[1..] == NatToString(-n)
  {
    if n < 0 then "-" + NatToString(-n) else NatToString(n)
  }

  /** The value of a string of decimal digits (the inverse of NatToString). */
  function DigitsValue(s: string): nat
    requires AllDigits(s)
  {
    if s == [] then 0 else DigitsValue(s[..|s| - 1]) * 10 + DigitValue(s[|s| - 1])
  }

  /** Reading back the rendering of `n` gives `n`. */
  lemma {:induction false} DigitsValueOfNatToString(n: nat)
    ensures DigitsValue(NatToString(n)) == n
  {
    if n >= 10 {
      var s := NatToString(n);
      assert s[..|s| - 1] == NatToString(n / 10);
      DigitsValueOfNatToString(n / 10);
    }
  }

  /** Distinct numbers render as distinct strings. */
  lemma NatToStringInjective(a: nat, b: nat)
    ensures NatToString(a) == NatToString(b) ==> a == b
  {
    DigitsValueOfNatToString(a);
    DigitsValueOfNatToString(b);
  }

  // ------------------------------------------------------------- parseInt

  /** The characters `\s` matches in a JavaScript regular expression: space,
      tab to carriage return, no-break space, ogham space mark, the spaces
      U+2000 to U+200A, the line and paragraph separators, the narrow
      no-break and medium mathematical spaces, the ideographic space and
      the byte order mark. */
  predicate IsSpace(c: char) {
    c == ' ' || '\t' <= c <= '\r' || c == '\U{00A0}' || c == '\U{1680}'
    || '\U{2000}' <= c <= '\U{200A}' || c == '\U{2028}' || c == '\U{2029}'
    || c == '\U{202F}' || c == '\U{205F}' || c == '\U{3000}' || c == '\U{FEFF}'
  }

  /** The input without its leading run of whitespace. */
  function DropSpaces(s: string): (r: string)
    ensures |r| <= |s|
    ensures r == [] || !IsSpace(r[0])
  {
    if s != [] && IsSpace(s[0]) then DropSpaces(s[1..]) else s
  }

  /** A character's value as a digit: 0-9, then a-f and A-F as 10-15; 16 for
      any other character. */
  function DigitOf(c: char): (d: nat)
    ensures d <= 16
    ensures d < 10 <==> IsDigit(c)
    ensures IsDigit(c) ==> d == DigitValue(c)
  {
    if IsDigit(c) then DigitValue(c)
    else if 'a' <= c <= 'f' then c as int - 'a' as int + 10
    else if 'A' <= c <= 'F' then c as int - 'A' as int + 10
    else 16
  }

  /** The longest prefix of `s` made of digits of the radix. */
  function LeadingDigits(s: string, radix: nat): (r: string)
    ensures |r| <= |s| && r == s[..|r|]
    ensures forall i :: 0 <= i < |r| ==> DigitOf(r[i]) < radix
    ensures |r| < |s| ==> DigitOf(s[|r|]) >= radix
  {
    if s != [] && DigitOf(s[0]) < radix then [s[0]] + LeadingDigits(s[1..], radix) else []
  }

  /** The value of a digit string in the radix, most significant digit first. */
  function ValueIn(s: string, radix: nat): nat {
    if s == [] then 0 else ValueIn(s[..|s| - 1], radix) * radix + DigitOf(s[|s| - 1])
  }

  /** `s` without a leading sign. */
  function Unsigned(s: string): string
  {
    if s != [] && (s[0] == '-' || s[0] == '+') then s[1..] else s
  }

  /** A `0x` or `0X` prefix, which makes `parseInt` read base 16. */
  predicate HexPrefixed(s: string) {
    |s| >= 2 && s[0] == '0' && (s[1] == 'x' || s[1] == 'X')
  }

  /** `parseInt(s)` without a radix: leading white space is skipped, then an
      optional sign; a `0x` prefix selects base 16, base 10 otherwise; the
      longest run of digits that follows is read and the rest ignored.
      With no digit the answer is NaN, here `None`. */
  function ParseInt(s: string): (r: Option<int>)
  {
    var t := DropSpaces(s);
    match ReadUnsigned(Unsigned(t))
    case None => None
    case Some(value) => var v: int := value; if t != [] && t[0] == '-' then Some(-v) else Some(v)
  }

  /** The number after the sign: hexadecimal after `0x`, decimal otherwise. */
  function ReadUnsigned(u: string): Option<nat>
  {
    if HexPrefixed(u) then ReadRadix(u[2..], 16) else ReadRadix(u, 10)
  }

  /** The value of the leading digits of the radix, none without a digit. */
  function ReadRadix(s: string, radix: nat): Option<nat>
  {
    var digits := LeadingDigits(s, radix);
    if digits == [] then None else Some(ValueIn(digits, radix))
  }

  lemma {:induction false} ValueInDecimal(s: string)
    requires AllDigits(s)
    ensures ValueIn(s, 10) == DigitsValue(s)
  {
    if s != [] {
      ValueInDecimal(s[..|s| - 1]);
    }
  }

  /** The digits of the radix before a non-digit are the leading digits. */
  lemma {:induction false} LeadingDigitsAll(s: string, rest: string, radix: nat)
    requires forall i :: 0 <= i < |s| ==> DigitOf(s[i]) < radix
    requires rest == [] || DigitOf(rest[0]) >= radix
    ensures LeadingDigits(s + rest, radix) == s
  {
    if s != [] {
      assert (s + rest)[1..] == s[1..] + rest;
      LeadingDigitsAll(s[1..], rest, radix);
      assert [s[0]] + s[1..] == s;
    } else {
      assert s + rest == rest;
    }
  }

  /** `parseInt` reads the leading digits and ignores what follows them:
      "2abc" reads as 2 and "1.5" as 1. */
  lemma ParseIntPrefix(d: string, rest: string)
    requires d != [] && AllDigits(d)
    requires rest == [] || !IsDigit(rest[0])
    requires d == "0" ==> rest == [] || (rest[0] != 'x' && rest[0] != 'X')
    ensures ParseInt(d + rest) == Some(DigitsValue(d))
  {
    var s := d + rest;
    assert s[0] == d[0] && IsDigit(s[0]);
    assert DropSpaces(s) == s;
    assert Unsigned(s) == s;
    assert !HexPrefixed(s) by {
      if |d| >= 2 {
        assert s[1] == d[1];
      } else {
        assert d == [d[0]];
        if d[0] == '0' {
          assert d == "0";
        }
        if |s| >= 2 {
          assert s[1] == rest[0];
        }
      }
    }
    LeadingDigitsAll(d, rest, 10);
    ValueInDecimal(d);
  }

  /** A minus sign before a number negates what `parseInt` reads. */
  lemma ParseIntMinus(s: string)
    requires s != [] && IsDigit(s[0])
    ensures ParseInt("-" + s) == if ParseInt(s).Some? then Some(-ParseInt(s).value) else None
  {
    assert !IsSpace(s[0]);
    assert DropSpaces(s) == s && Unsigned(s) == s;
    var m := "-" + s;
    assert m[0] == '-' && m[1..] == s;
    assert DropSpaces(m) == m;
    assert Unsigned(m) == s;
  }

  /** `parseInt` reads back what `${n}` prints. */
  lemma ParseIntOfIntToString(n: int)
    ensures ParseInt(IntToString(n)) == Some(n)
  {
    var digits := NatToString(if n < 0 then -n else n);
    assert digits + [] == digits;
    ParseIntPrefix(digits, []);
    DigitsValueOfNatToString(if n < 0 then -n else n);
    if n < 0 {
      ParseIntMinus(digits);
    }
  }

  /** After a `0x` or `0X` prefix `parseInt` reads the hexadecimal digits
      and ignores what follows them: "0x1A" reads as 26. */
  lemma ParseIntHex(s: string, h: string, rest: string)
    requires HexPrefixed(s) && s[2..] == h + rest
    requires h != [] && forall i :: 0 <= i < |h| ==> DigitOf(h[i]) < 16
    requires rest == [] || DigitOf(rest[0]) >= 16
    ensures ParseInt(s) == Some(ValueIn(h, 16))
  {
    assert s[0] == '0' && !IsSpace(s[0]);
    assert DropSpaces(s) == s;
    assert Unsigned(s) == s;
    LeadingDigitsAll(h, rest, 16);
    assert ReadUnsigned(s) == ReadRadix(h + rest, 16) == Some(ValueIn(h, 16));
  }

  /** Text without a digit is NaN. */
  lemma ParseIntNaN()
    ensures ParseInt("abc") == None
    ensures ParseInt("") == None
  {
    assert !IsSpace('a') && DigitOf('a') >= 10;
    assert DropSpaces("abc") == "abc";
  }

  /** White space before the number is skipped. */
  lemma ParseIntSkipsSpaces(c: char, s: string)
    requires IsSpace(c)
    ensures ParseInt([c] + s) == ParseInt(s)
  {
    assert ([c] + s)[1..] == s;
  }

  /** `parseInt(searchParams.get(name) || fallback)`: a missing or empty
      parameter reads as the fallback text. */
  function QueryInt(raw: Option<string>, fallback: string): (r: Option<int>)
    ensures Truthy(raw) ==> r == ParseInt(raw.value)
    ensures !Truthy(raw) ==> r == ParseInt(fallback)
  {
    ParseInt(OrElse(raw, fallback))
  }

  /** A parameter of decimal digits reads as their value. */
  lemma QueryDigits(d: string, fallback: string)
    requires d != [] && AllDigits(d)
    ensures QueryInt(Some(d), fallback) == Some(DigitsValue(d))
  {
    assert d + [] == d;
    ParseIntPrefix(d, []);
  }

  /** A missing or empty `page` is page 1, a missing or empty `limit` is
      10 rows and a missing or empty vote count is 0. */
  lemma QueryDefaults(raw: Option<string>)
    requires !Truthy(raw)
    ensures QueryInt(raw, "1") == Some(1)
    ensures QueryInt(raw, "10") == Some(10)
    ensures QueryInt(raw, "0") == Some(0)
  {
    ParseIntOfIntToString(0);
    assert IntToString(0) == "0";
    ParseIntOfIntToString(1);
    ParseIntOfIntToString(10);
    assert IntToString(1) == "1";
    assert IntToString(10) == "10";
  }
}
